=== FILE: README.md ===
# bbyen in Dafny

bbyen polls YouTube on behalf of one account and e-mails once for every new
upload of the channels the account follows. This project models its
decision logic as pure functions over immutable data and proves properties
of it:

- the cursor pager behind the listing endpoints (`_genericIterator`, current
  do-while loop and older loop);
- channel-reference normalisation (`normalizeChannel`, current and older),
  `validateConfig`, `normalizeConfig` and the write-back of the configuration
  when `deepEqual` says it changed;
- `deepEqual` and `findNullishValues`;
- the subscription reconciler (`updateSubscriptions`, current and older):
  live set, set difference, inserts and deletes;
- the video notifier in its three generations: `parseFeedsAndNotify` of
  `src/videos.ts` (send, then record), of `src/videos.js` (record, then send,
  one e-mail per channel) and the `main` loop of `src/index.js` (the
  `settled` flag), together with `formatDuration` and the older
  replace-chain duration rendering.

Remote calls (YouTube listings, searches and scrapes, the RSS feed, the
duration parser, the mail transport) are parameters: function-typed oracles
or given sequences of responses. The two tables are finite maps keyed by
their UNIQUE column (`Store`). A JavaScript value is `Json.Value`, with
`undefined` distinct from `null`. An exception that ends a pass is a flag or
a log entry in the state the pass returns; `process.exit` is the `aborted`
flag.

Modules, one per file: `Common`, `Text`, `Json`, `DeepEqual`, `FindNullish`,
`Pager`, `ChannelRef`, `Config`, `Store`, `Subscriptions`,
`SubscriptionsLegacy`, `Clock`, `Uri`, `Videos`, `VideosLegacy`, `IndexLegacy`.

The code hard-deletes removed subscriptions (`src/subscriptions.ts:127`) and
has no soft-delete flag or allow-list batch lookup; the model follows the code.

A list element that is not a string is kept by the older `normalizeChannel`
(the URL constructor throws and its `catch` returns the element) and makes
the current one throw at `channel.match`, except for an array holding one
bare ID: the current bare-ID test reads the array's text and passes it on
unchanged.

## Model

| member | source | states |
|---|---|---|
| `Pager.CollectFrom` | src/google/iterators.ts:11-28 | each request after the first carries the previous response's `nextPageToken`; the run finishes at the first response whose token is falsy (undefined, null or empty), every earlier one being truthy; the items are all fetched pages' items, page by page, the last page included |
| `Pager.Collect` | src/google/iterators.ts:12-25 | the first request carries a null token, the later ones chain the tokens, and the items are the concatenation of every fetched page |
| `Pager.CollectStopsAtFirstFalsy` | src/google/iterators.ts:14-27 | when some response has a falsy token, the number of requests is the index of the first such response plus one (so an empty listing still costs one request), and exactly the pages up to and including it are yielded |
| `Pager.CollectLegacyFrom` | src/google/iterators.js:14-33 | the older loop chains tokens the same way, ends only at a strictly `undefined` token, and yields every page before that response but not that response's items |
| `Pager.CollectLegacy` | src/google/iterators.js:15-23 | the older loop's first request carries a null token and each later one the previous response's token |
| `Pager.LegacyDropsFinalPage` | src/google/iterators.js:25-31 | on a listing whose last page has no token, the current loop yields the older loop's items plus the last page's items, with the same requests |
| `Pager.LegacyLosesLastSubscription` | src/google/iterators.js:25-31 | with one subscription per page, the older loop yields `["A"]` where the current loop yields `["A", "B"]` |
| `Pager.LegacyContinuesOnNullOrEmpty` | src/google/iterators.js:28 | a null or empty token does not stop the older loop (it is sent back as the next request) while it stops the current loop after one request |
| `DeepEqual.PrimitiveIsStrictEquality` | src/lib/deepEqual.js:2-20 | when either side is not an object or array, the result is strict equality |
| `DeepEqual.KeyCountMismatch` | src/lib/deepEqual.js:4-6 | objects or arrays with different numbers of own keys are unequal |
| `DeepEqual.Symmetric` | src/lib/deepEqual.js:7-16 | the relation is symmetric |
| `DeepEqual.Reflexive` | src/lib/deepEqual.js:2-17 | every well-formed value is deeply equal to itself |
| `DeepEqual.ArraysIndexByIndex` | src/lib/deepEqual.js:4-16 | two arrays are equal exactly when they have the same length and deeply equal elements at each index |
| `DeepEqual.SameMembers` | src/lib/deepEqual.js:7-16 | two objects holding the same members in any order are equal: key order is ignored |
| `FindNullish.FindNullishValues` | src/lib/findNullishValues.ts:6-7 | a key is reported exactly when some entry with that key has the value `null`; the report is no longer than the entry list |
| `FindNullish.KeyReported` | src/lib/findNullishValues.ts:7 | with distinct keys, a key is reported exactly when its own value is `null` |
| `FindNullish.NullishKeepsOrder` | src/lib/findNullishValues.ts:7 | the report is a subsequence of the object's keys, in entry order |
| `FindNullish.UndefinedNotReported` | src/lib/findNullishValues.ts:1-7 | an absent (`undefined`) field is not reported |
| `FindNullish.FindMissingValues` | src/lib/findNullishValues.ts:1-3 | the documented intent: a key is reported exactly when its value is `null` or `undefined` |
| `FindNullish.UndefinedReported` | src/lib/findNullishValues.ts:1-3 | the documented intent reports the absent field |
| `ChannelRef.FirstSuccess` | src/config.ts:154-157 | `Promise.any` fails exactly when both strategies fail, and otherwise yields the value of a strategy that succeeded; when both succeed, the value of the one that settles first |
| `ChannelRef.Resolve` | src/config.ts:134-166 | a remote request is made exactly for references classified as custom channel URLs, and then both strategies are started |
| `ChannelRef.BareIdUnchanged` | src/config.ts:138-140 | a 24-character ID over `[0-9a-zA-Z_-]` comes back unchanged with no remote request, whatever the remote answers |
| `ChannelRef.IdUrlYieldsId` | src/config.ts:143-149 | a `https://www.youtube.com/channel/<id>` URL, with or without a trailing slash, yields the embedded ID with no remote request |
| `ChannelRef.DotMatchesAnyCharacter` | src/config.ts:143 | the unescaped dots accept another host, `https://wwwXyoutubeYcom/channel/<id>`, as a channel URL |
| `ChannelRef.NamedUrlRace` | src/config.ts:152-157 | a custom URL fails only when both strategies fail; when exactly one succeeds its value is the result, whichever settles first |
| `ChannelRef.CustomUrlIsRemote` | src/config.ts:152 | every `https://www.youtube.com/c/<name>` reference needs remote resolution |
| `ChannelRef.HandleUrlRejected` | src/config.ts:160-165 | a `@handle` URL matches no pattern and is rejected with no remote request |
| `ChannelRef.LegacyResolve` | src/config.js:13-30 | the older resolver returns any value the URL constructor rejects unchanged with no request; for a URL it makes one search and succeeds exactly when the search answers with at least one result, yielding the first result's channel ID |
| `ChannelRef.LegacyBareIdUnchanged` | src/config.js:14-18 | under the older resolver a bare channel ID is also unchanged, as it cannot parse as a URL |
| `ChannelRef.LegacyNonStringUnchanged` | src/config.js:14-18 | under the older resolver a number, boolean, `null` or object in a list is kept as it is with no request, as its text has no scheme |
| `Config.ResolveAll` | src/config.ts:176 | `Promise.all` over the list succeeds exactly when every element resolves, and otherwise fails with the error of a failing element; the result has the list's length and holds each element's resolution at its index |
| `Config.NonStringElementVersions` | src/config.js:13-18 | a list holding the number 5 loads under the older version with the number kept (src/config.js:14-17), fails under the current one where `channel.match` throws on a non-string (src/config.ts:144), and an array holding one bare ID passes the current bare-ID test unchanged (src/config.ts:138-140) |
| `Config.NormalizeList` | src/config.ts:175-180 | a falsy list becomes `undefined`, a truthy non-array fails, and an array maps element-wise to an array of the same length |
| `Config.WithoutLists` | src/config.ts:169-174 | the rest of the destructuring holds exactly the members other than the two lists |
| `Config.NormalizeConfig` | src/config.ts:169-181 | normalisation succeeds exactly when both lists normalise; the result is the other members followed by the two normalised lists |
| `Config.OtherKeysKept` | src/config.ts:172-174 | every key other than the two lists keeps its value |
| `Config.CanonicalListUnchanged` | src/config.ts:175-180 | a list of bare channel IDs (or `undefined`) normalises to itself |
| `Config.NormalizeIdempotent` | src/config.ts:169-181 | normalising a normalised configuration whose lists hold only IDs gives it back unchanged |
| `Config.StringSchemaAcceptsAnything` | src/config.ts:60-62 | validation does not descend below a string in the schema |
| `Config.NonObjectRejected` | src/config.ts:64-65 | a primitive where the schema has a non-empty object fails validation |
| `Config.ValidMeansPathsPresent` | src/config.ts:55-74 | a configuration that passes validation has every key path of the schema, so a missing path is always reported |
| `Config.SerializeMembers` | src/config.ts:188-189 | the written object holds every member whose value is not `undefined`, under its key and with its serialised value, and nothing else: no `undefined` member and no key the normalised object lacks |
| `Config.LoadConfig` | src/config.ts:183-192 | a validation failure is the result; otherwise the load succeeds exactly when normalisation does, fails with its error when it does not, returns the normalised configuration and writes it back, serialised, exactly when `deepEqual` finds it different |
| `Config.LegacyLoadConfig` | src/config.js:47-54 | the older loader succeeds exactly when normalisation does, failing with its error otherwise; it returns the normalised configuration and writes its serialisation exactly when `deepEqual` finds it different |
| `Config.CanonicalConfigNotRewritten` | src/config.ts:185-190 | a configuration whose two lists are present and hold only IDs is not written back, although normalisation moves the lists to the end |
| `Config.AbsentListForcesRewrite` | src/config.ts:169-190 | a configuration without a whitelist key is always written back, the normalised configuration holding the key as `undefined` |
| `Subscriptions.Check` | src/subscriptions.ts:42-70 | an entry is admitted exactly when its title, channel ID and thumbnail are non-empty, it is not blacklisted, and it is whitelisted when a whitelist array exists; an incomplete entry is skipped with a report naming exactly its fields that are JSON `null`, and none that are absent (`undefined`); a blacklisted one is skipped as such, before the whitelist test |
| `Subscriptions.Live` | src/subscriptions.ts:40-80 | a channel is live exactly when some listed entry under its ID passes the field, blacklist and whitelist checks |
| `Subscriptions.LiveLastWins` | src/subscriptions.ts:75-79 | a live channel's details are those of its last admitted entry |
| `Subscriptions.LiveAdmitsOnlyCompleteEntries` | src/subscriptions.ts:42-70 | a live channel is not blacklisted, is whitelisted when a whitelist array exists, has a non-empty title and thumbnail, and comes from a complete listed entry |
| `Subscriptions.Reconciled` | src/subscriptions.ts:94-141 | the table after a pass holds exactly the live channels; saved rows keep their old details, new rows carry the listed details |
| `Subscriptions.InsertNew` | src/subscriptions.ts:104-120 | the insert loop adds every new channel that has details, with those details, skips exactly the others, and changes no saved row |
| `Subscriptions.DeleteRemoved` | src/subscriptions.ts:125-141 | the delete loop removes exactly the dropped channels and changes no other row |
| `Subscriptions.UpdateSubscriptions` | src/subscriptions.ts:22-156 | a failed listing leaves the table alone and ends with a warning exactly when `errors[0].reason` is set; otherwise the new channels are live minus saved, the removed ones saved minus live, the two are disjoint, the stored channels are the saved ones minus the removed plus the new, nothing is skipped and the table is the reconciled one |
| `Subscriptions.Idempotent` | src/subscriptions.ts:83-91 | a second pass over the same listing and configuration inserts nothing, deletes nothing and leaves the table as it was |
| `Subscriptions.MissingTitleNotReported` | src/subscriptions.ts:46-47 | an entry without a title is skipped with an empty report, where the corrected helper would name `title` |
| `Subscriptions.NullTitleReported` | src/subscriptions.ts:46-47 | an entry whose title is JSON `null` is skipped with a report naming `title` |
| `SubscriptionsLegacy.FirstOccurrences` | src/subscriptions.js:19-29 | the `Set` iteration order: each listed channel once, nothing else |
| `SubscriptionsLegacy.Details` | src/subscriptions.js:29-33 | `channelDetails` has an entry for exactly the listed channels, each taken from the listing under its own ID |
| `SubscriptionsLegacy.NotIn` | src/subscriptions.js:37-45 | the difference keeps exactly the elements not in the other set, and stays duplicate-free |
| `SubscriptionsLegacy.InsertInOrder` | src/subscriptions.js:58-64 | the insert loop stops only at a channel without a title; every channel before it is stored with its listed title and thumbnail, and nothing else changes |
| `SubscriptionsLegacy.Apply` | src/subscriptions.js:36-85 | the pass completes exactly when every channel listed but not saved has a title, so always when every entry is complete; a completed pass stores exactly the listed channels; one stopped by a failed insert deletes nothing; saved rows are kept as they were and new rows carry their channel's listed details |
| `SubscriptionsLegacy.LegacyUpdate` | src/subscriptions.js:7-100 | a failed listing or an entry without a `high` thumbnail writes nothing; a quota warning exactly when `errors[0].reason` is set; otherwise the pass completes exactly when every new channel has a title, and a completed pass stores exactly the listed channels |
| `SubscriptionsLegacy.TitlelessChannelBlocksDeletes` | src/subscriptions.js:58-85 | a new channel without a title ends the pass after the inserts before it, so a channel no longer listed is never deleted |
| `SubscriptionsLegacy.LiveIsListed` | src/subscriptions.js:21-34 | with complete entries and no lists configured, the current version's live set is exactly the listed channels |
| `SubscriptionsLegacy.AgreesWithCurrentWhenUnfiltered` | src/subscriptions.js:36-85 | under the same conditions the older pass completes and stores the same channels as the current version |
| `Store.SentForRecord` | src/videos.ts:63-65 | recording a new video for a channel adds it to that channel's sent set and changes no other channel's |
| `Clock.FormatDurationRoundTrip` | src/videos.ts:14-21 | every rendering has the shape `m:ss` (minutes unpadded) or `h:mm:ss` (hours non-zero, minutes and seconds at least two digits), and reading it back gives the duration |
| `Clock.ParseClockOnlyRenderings` | src/videos.ts:14-21 | the converse: a string of that shape is the rendering of the duration it reads as, so renderings are exactly the strings of that shape |
| `Clock.ParseClockRejectsOtherShapes` | src/videos.ts:15-18 | `5:7`, `05:07`, `0:5:07` and `1:5:07` are not renderings, while `5:07` is |
| `Clock.FormatDurationInjective` | src/videos.ts:14-21 | different durations render differently |
| `Clock.FormatDurationExamples` | src/videos.ts:14-21 | (0,5,7) renders as `5:07` and (1,5,7) as `1:05:07` |
| `Clock.FormatDurationPadding` | src/videos.ts:15-18 | minutes are padded only after hours and seconds always: `4:05`, `1:00:05`, `1:05` |
| `Clock.LegacyMinutesSeconds` | src/videos.js:58-62 | the replace chain turns `PT<m>M<s>S` into `<m>:<s>`, the seconds unpadded |
| `Clock.LegacyHoursSeconds` | src/videos.js:58-62 | the replace chain turns `PT<h>H<s>S` into `<h>:<s>` |
| `Clock.LegacyDurationExamples` | src/videos.js:58-62 | `PT4M13S` becomes `4:13` and `PT4M5S` becomes `4:5` |
| `Clock.LegacyDurationCollides` | src/videos.js:58-62 | one hour five seconds and one minute five seconds render alike under the replace chain, but not under `formatDuration` |
| `Text.NatToStringRoundTrip` | src/videos.ts:16-18 | reading back `String(n)` gives `n` |
| `Text.PadStart` | src/videos.ts:17-18 | `padStart` leaves a long enough string alone and otherwise prefixes fill characters up to the width |
| `Text.CanonicalDigitsRoundTrip` | src/videos.ts:16-18 | a digit string without a superfluous leading zero is `String` of its own value |
| `Text.PaddedDigitsRoundTrip` | src/videos.ts:16-18 | a digit string of exactly the pad width is the padded `String` of its own value |
| `Text.ReplaceFirstAtIndexOf` | src/videos.js:58-62 | a string-pattern `replace` rewrites only the first occurrence, and leaves a string without one unchanged |
| `Uri.EncodeUriComponent` | src/videos.ts:155 | the encoding holds only unreserved characters and `%`, and leaves a string of unreserved characters unchanged |
| `Uri.EncodeAppend` | src/videos.ts:155 | the encoding distributes over concatenation |
| `Uri.EncodedQuery` | src/videos.ts:155 | `watch?v=` encodes as `watch%3Fv%3D` |
| `Videos.MapOptionIsOptionMap` | src/videos.ts:23-33 | `mapOption` is Rust's `Option::map` after treating the empty string as absent, differs from it exactly on `""`, and composes as `map` does |
| `Videos.PickThumbnailLargestPresent` | src/videos.ts:95-99 | the picked thumbnail is the largest size present: absent only when every size is, otherwise a present size with no larger size present |
| `Videos.VideoUrl` | src/videos.ts:153-156 | the link starts with the attribution prefix |
| `Videos.VideoUrlOfPlainId` | src/videos.ts:153-156 | for an ID of unreserved characters the link is the prefix, `watch%3Fv%3D` and the ID |
| `Videos.MissingReport` | src/videos.ts:122-134 | the warning names exactly the missing ones of the five required values |
| `Videos.Prepare` | src/videos.ts:77-157 | an e-mail is built exactly when the details are found, the duration parses, a live stream has ended and all five required values are present; the e-mail carries the video's title, channel title, largest thumbnail, live flag, formatted duration and link |
| `Videos.Notify` | src/videos.ts:72-180 | a video already sent changes nothing; otherwise at most one e-mail is added, a row is added only for this video and only after an accepted e-mail, and the process exits exactly on a quota code |
| `Videos.ChannelPass` | src/videos.ts:63-181 | the feed loop never removes or changes a row, and every new row has an accepted e-mail |
| `Videos.ChannelPassEmails` | src/videos.ts:63-75 | every e-mail of a channel's loop is for that channel, for a feed item, and for a video not sent before the loop |
| `Videos.ChannelPassAbort` | src/videos.ts:164-177 | a loop that exits the process does so at an e-mail refused with a quota code |
| `Videos.ParseFeedsAndNotify` | src/videos.ts:190-219 | over all channels: rows only grow, each new row has an accepted e-mail, no e-mail is for a video already recorded for its channel, and an exit comes from a quota refusal |
| `Videos.NotifySendsPrepared` | src/videos.ts:143-162 | a video not sent yet is e-mailed exactly when its details are usable; otherwise nothing is sent or recorded |
| `Videos.UnendedLiveStreamWaits` | src/videos.ts:104-113 | a live stream that has not ended leaves the state untouched, so it stays a candidate |
| `Videos.MissingFieldSkipped` | src/videos.ts:122-141 | a missing required value skips the video with one warning naming exactly the missing values, and nothing sent or recorded |
| `Videos.FailedSendLeavesCandidate` | src/videos.ts:143-180 | a refused e-mail leaves the video unrecorded, and exits the process exactly on a quota code |
| `Videos.DeliveredGrowsSentSet` | src/videos.ts:159-162 | an accepted e-mail for an unrecorded video adds exactly that video to its channel's sent set, as the next pass reads it, and changes no other channel's |
| `Videos.DuplicateFeedItemEmailedTwice` | src/videos.ts:63-162 | a video listed twice in one feed is e-mailed twice; the second insert is a duplicate row |
| `Videos.FeedErrorEndsPass` | src/videos.ts:67-70 | an unreadable feed ends the pass with the table and e-mails unchanged |
| `VideosLegacy.Property` | src/videos.js:55-56 | destructuring `title` or `channelTitle` throws on `undefined` and `null`, and only an object supplies a defined value for either key |
| `VideosLegacy.Attempt` | src/videos.js:45-99 | one item: the row is added exactly when an e-mail is built; an e-mail is built exactly when the video is new and its details are found and usable; the loop breaks exactly when that e-mail is accepted |
| `VideosLegacy.ChannelLoop` | src/videos.js:44-100 | the feed loop never removes or changes a row and only appends e-mails |
| `VideosLegacy.ChannelLoopRecords` | src/videos.js:47-91 | every e-mail of the loop is for a new feed item of the channel and leaves its video recorded, and every new row has an e-mail |
| `VideosLegacy.AtMostOneAccepted` | src/videos.js:95 | of a channel's e-mails only the last can have been accepted |
| `VideosLegacy.ParseFeedsAndNotify` | src/videos.js:25-104 | every e-mail of a pass is for a video unrecorded before and recorded after |
| `VideosLegacy.NeverRetried` | src/videos.js:36-72 | a second pass builds no e-mail for a video the first pass built one for, accepted or not |
| `VideosLegacy.TitleAlwaysUndefined` | src/videos.js:55-56 | the e-mail's title and channel name are always `undefined` |
| `VideosLegacy.ItemErrorContinues` | src/videos.js:97-99 | a throwing item is logged and the loop goes on with the next item |
| `VideosLegacy.StopsAtFirstAccepted` | src/videos.js:93-95 | the first accepted e-mail ends the channel's loop |
| `VideosLegacy.RefusedStaysRecorded` | src/videos.js:69-91 | a refused e-mail leaves the video recorded, so no later pass tries it |
| `IndexLegacy.SettleChannelSettles` | src/index.js:96-99 | after the update the channel's handled set (src/index.js:44-49) is every video recorded for it, other channels' handled sets are unchanged, and a second update changes nothing |
| `IndexLegacy.VideoLoop` | src/index.js:51-94 | new rows are unsettled rows of the channel; every e-mail is for a video of the channel that was neither settled nor in the table and now is |
| `IndexLegacy.VideoLoopPrefix` | src/index.js:51-94 | the loop e-mails a prefix of the uploads, in order, all buildable and unsettled; when it ends without an exception it stopped at a settled video or at the end |
| `IndexLegacy.ChannelStep` | src/index.js:36-100 | a subscription not set to `all` changes nothing; otherwise, without an exception, every row of the channel ends settled; other channels' rows are untouched |
| `IndexLegacy.Main` | src/index.js:16-105 | rows are never removed, never change channel and never become unsettled |
| `IndexLegacy.CrashEndsRun` | src/index.js:102-104 | an exception in one subscription ends the run |
| `IndexLegacy.EmailedVideosInserted` | src/index.js:65-88 | each e-mail is for a video inserted, unsettled, just before it |
| `IndexLegacy.UnsettledRowBlocksChannel` | src/index.js:67-73 | a left-over unsettled row makes the channel's insert throw, ending the run with no e-mail |
| `IndexLegacy.RefusedLeavesUnsettledRow` | src/index.js:70-88 | a refused e-mail ends the run with its video's row present and unsettled |
| `IndexLegacy.MissingDurationEndsRun` | src/index.js:57-61 | when the first new upload of a followed channel has no duration, reading it ends the run before any e-mail |

## Left out

- OAuth, mail rendering and transport, logging, timers and the SQLite engine: a send is an oracle answering accepted or refused (with an SMTP code in the current version); only the UNIQUE keys of the two tables are kept, as map keys.
- `truncate`, `new Date` and `duration-fns`: titles and dates are kept as the strings they come from, and the duration parser is an oracle that yields hours, minutes and seconds or fails. Days and fractional seconds are not modelled.
- The remote strategies of `normalizeChannel` (search request and page scrape) are oracles; which settles first is a field of the oracle's answer.
- The subscription listing is one answer, a list or an error, rather than the pages read one by one; an error raised after the first writes, by the store, is not modelled.
- Subscriptions.UpdateSubscriptions: the pass cannot fail after its first write, so "writes already made are kept" holds only trivially.
- The channels of the notifier's pass are taken in the order the database returns them, as a given sequence.
- `src/index.js`: the upload listing of a channel is a given sequence; its page requests and their failures are not modelled. It uses the `videos` table with the `settled` column (`src/database.js:23-28`).
- `src/videos.js`: its insert names no `settled` column and is modelled as succeeding, as with the table of `src/database.ts:19-25`. Its `sendMail` rejection and a throw are one outcome: refused.
- `src/subscriptions.js`: the `subscriptions` table is the one of `src/database.ts:27-34`; an entry without `snippet` or `resourceId` is not modelled (the channel ID is always present).
- A `high` thumbnail object without a `url` is not distinguished from a missing `high`.
- `src/index.ts`, `src/lib/setIntervalInstant.*`, the best-effort error e-mail and `publishedAfter` (the one-week search window) are scheduling and clock plumbing.
- The configuration file is taken as an already parsed object: a `JSON.parse` failure (`src/config.ts:183`, `src/config.js:47`) and a top level that is not an object are not modelled.
- `Json.Num` holds integers only: fractional numbers in the configuration or in API answers are not modelled.
- An array nested in a list of the older version is handed to the URL oracle like any other value; how the search client would send such a `q` is part of the oracle.
- `src/config.test.ts` expects a `@handle` to resolve through a factory `src/config.ts` does not export; the model follows `src/config.ts`, where such a string is rejected.
- Config.SerializeMembers: the contract does not state that the written members keep the order of the normalised object; key order is invisible to `deepEqual`, and only the text of the written file depends on it.
- `SubscriptionsLegacy.LegacyListed` does not tell a JSON `null` title or thumbnail URL apart from an absent one; the older pass reports neither field by name.

## Findings

| source | as written | input that shows it | evidently intended | confidence | as-written member | corrected member |
|---|---|---|---|---|---|---|
| src/google/iterators.js:28-31 | returns on an `undefined` token before yielding that response's items | two pages of one subscription each: `A` with a cursor, `B` with no token; only `A` is yielded | every page yielded, the last included, as the do-while loop of `src/google/iterators.ts` does | high (not executed) | `Pager.LegacyDropsFinalPage` | `Pager.Collect` |
| src/videos.js:58-62 | four first-occurrence replacements render the ISO 8601 duration (section 4.4.3.2 of ISO 8601:2004) | `PT1H5S` and `PT1M5S` both become `1:5`; `PT4M5S` becomes `4:5` | a clock rendering, `m:ss` or `h:mm:ss`, that tells durations apart | high (not executed) | `Clock.LegacyDurationCollides` | `Clock.FormatDuration` |
| src/lib/findNullishValues.ts:7 | keeps only values `=== null`, although documented as nullish | a listed subscription without a title: the warning at `src/subscriptions.ts:47` names no missing key (`Subscriptions.MissingTitleNotReported`) | report values that are `null` or `undefined` | high (not executed) | `FindNullish.UndefinedNotReported` | `FindNullish.FindMissingValues` |
| src/videos.js:55-56 | destructures `title` and `channelTitle` from `snippet.title`, a string | any video whose `snippet.title` is a string: the e-mail's title and channel name are `undefined` | destructure from `snippet` | high (not executed) | `VideosLegacy.TitleAlwaysUndefined` | `Videos.Prepare` |
| src/index.js:67-73 | a refused e-mail leaves an unsettled row, and the next run's insert of the same video violates the UNIQUE `videoId` column (`src/database.js:25`), ending the run | a channel whose first new upload's e-mail is refused: every later run throws at that upload while it stays in the search window, and no later subscription is processed | a video whose e-mail failed is tried again on the next run | medium (not executed) | `IndexLegacy.UnsettledRowBlocksChannel` | `Videos.FailedSendLeavesCandidate` |

=== FILE: channel_ref.dfy ===
/** `normalizeChannel`: turning a channel reference from the configuration
    (a bare channel ID, a channel URL embedding the ID, or a custom channel URL)
    into a channel ID. The two remote strategies for custom URLs (a search-API
    query and a scrape of the channel page) are oracles; `Promise.any` over them
    is modelled by which of the two settles first. */
module ChannelRef {
  import opened Common
  import opened Json

  /** `[0-9a-zA-Z_-]` */
  predicate IsIdChar(c: char) {
    ('0' <= c <= '9') || ('a' <= c <= 'z') || ('A' <= c <= 'Z') || c == '_' || c == '-'
  }

  /** `/^[0-9a-zA-Z_-]{24}$/` */
  predicate IsChannelId(s: string) {
    |s| == 24 && forall i :: 0 <= i < |s| ==> IsIdChar(s[i])
  }

  /** The characters a regular-expression `.` does not match. */
  predicate IsLineTerminator(c: char) {
    c == '\n' || c == '\r' || c == '\U{2028}' || c == '\U{2029}'
  }

  /** `^https:\/\/www.youtube.com\/` as written: each unescaped `.` matches
      any character other than a line terminator. The prefix is 24 characters. */
  predicate HostPrefix(s: string) {
    && |s| >= 24
    && s[..11] == "https://www"
    && !IsLineTerminator(s[11])
    && s[12..19] == "youtube"
    && !IsLineTerminator(s[19])
    && s[20..24] == "com/"
  }

  /** `/^https:\/\/www.youtube.com\/channel\/([0-9a-zA-Z_-]{24})\/?$/`;
      the captured ID is `s[32..56]`. */
  predicate IsIdUrl(s: string) {
    && HostPrefix(s)
    && (|s| == 56 || (|s| == 57 && s[56] == '/'))
    && s[24..32] == "channel/"
    && IsChannelId(s[32..56])
  }

  /** `/^https:\/\/www.youtube.com\/(?:c|channel)\/.*\/`: no end anchor, so
      whatever follows the path segment is accepted. */
  predicate IsNamedUrl(s: string) {
    && HostPrefix(s)
    && ((|s| >= 26 && s[24..26] == "c/") || (|s| >= 32 && s[24..32] == "channel/"))
  }

  datatype RefKind = BareId | IdUrl(id: string) | NamedUrl | Unrecognized

  /** The three tests of `normalizeChannel`, tried in order. */
  function Classify(s: string): RefKind {
    if IsChannelId(s) then BareId
    else if IsIdUrl(s) then IdUrl(s[32..56])
    else if IsNamedUrl(s) then NamedUrl
    else Unrecognized
  }

  /** How one remote strategy ended: fulfilled with a value (possibly
      `undefined` or `null`: `items[0].id?.channelId` and
      `searchParams.get('channel_id')` may be either) or rejected. */
  datatype Attempt = Succeeded(v: Value) | Rejected

  /** Both strategies for one reference, and which of them settles first. */
  datatype Race = Race(api: Attempt, scrape: Attempt, apiSettlesFirst: bool)

  datatype ResolveError =
    | UnrecognizedReference  // no pattern matched
    | AllStrategiesFailed    // `Promise.any` rejected: both strategies failed
    | SearchFailed           // the older search-only strategy rejected
    | NoSearchResult         // the older strategy got an empty result list

  /** The outcome of one normalisation and how many remote requests it issued. */
  datatype Resolution = Resolution(result: Result<Value, ResolveError>, remoteCalls: nat)

  /** `Promise.any`: the value of the first strategy to fulfil. */
  function FirstSuccess(race: Race): (r: Result<Value, ResolveError>)
    ensures r.Err? <==> race.api.Rejected? && race.scrape.Rejected?
    ensures r.Err? ==> r.error == AllStrategiesFailed
    ensures r.Ok? ==> (race.api.Succeeded? && r.value == race.api.v) || (race.scrape.Succeeded? && r.value == race.scrape.v)
    ensures race.api.Succeeded? && race.scrape.Succeeded? ==>
      r == Ok(if race.apiSettlesFirst then race.api.v else race.scrape.v)
  {
    var (first, second) := if race.apiSettlesFirst then (race.api, race.scrape) else (race.scrape, race.api);
    if first.Succeeded? then Ok(first.v)
    else if second.Succeeded? then Ok(second.v)
    else Err(AllStrategiesFailed)
  }

  /** `normalizeChannel` of the current version; `race(s)` describes the two
      remote lookups that would be made for `s`. */
  function Resolve(s: string, race: string -> Race): (r: Resolution)
    ensures r.remoteCalls == 0 <==> !Classify(s).NamedUrl?
    ensures Classify(s).NamedUrl? ==> r.remoteCalls == 2
  {
    match Classify(s)
    case BareId => Resolution(Ok(Str(s)), 0)
    case IdUrl(id) => Resolution(Ok(Str(id)), 0)
    case NamedUrl => Resolution(FirstSuccess(race(s)), 2)
    case Unrecognized => Resolution(Err(UnrecognizedReference), 0)
  }

  /** A bare channel ID comes back unchanged, without any remote request,
      whatever the remote strategies would have answered. */
  lemma BareIdUnchanged(s: string, race: string -> Race)
    requires IsChannelId(s)
    ensures Resolve(s, race) == Resolution(Ok(Str(s)), 0)
  {
  }

  /** A canonical channel URL, with or without a trailing slash, yields the
      embedded ID without any remote request. */
  lemma {:induction false} IdUrlYieldsId(id: string, slash: bool, race: string -> Race)
    requires IsChannelId(id)
    ensures Resolve("https://www.youtube.com/channel/" + id + (if slash then "/" else ""), race)
      == Resolution(Ok(Str(id)), 0)
  {
    var s := "https://www.youtube.com/channel/" + id + (if slash then "/" else "");
    CanonicalUrlMatches(id, slash);
    assert !IsChannelId(s) by {
      assert |s| != 24;
    }
  }

  lemma CanonicalUrlMatches(id: string, slash: bool)
    requires IsChannelId(id)
    ensures var s := "https://www.youtube.com/channel/" + id + (if slash then "/" else "");
      IsIdUrl(s) && s[32..56] == id
  {
    var prefix := "https://www.youtube.com/channel/";
    var s := prefix + id + (if slash then "/" else "");
    assert s[..32] == prefix;
    assert s[32..56] == id;
    assert s[..11] == prefix[..11] && s[12..19] == prefix[12..19] && s[20..24] == prefix[20..24];
    assert s[24..32] == prefix[24..32];
  }

  /** The unescaped dots: a host that is not `www.youtube.com` is accepted as
      long as the other characters line up. */
  lemma {:induction false} DotMatchesAnyCharacter(id: string, race: string -> Race)
    requires IsChannelId(id)
    ensures Resolve("https://wwwXyoutubeYcom/channel/" + id, race) == Resolution(Ok(Str(id)), 0)
  {
    var s := "https://wwwXyoutubeYcom/channel/" + id;
    OtherHostMatches(id);
    assert !IsChannelId(s) by {
      assert |s| != 24;
    }
  }

  lemma OtherHostMatches(id: string)
    requires IsChannelId(id)
    ensures var s := "https://wwwXyoutubeYcom/channel/" + id;
      IsIdUrl(s) && s[32..56] == id
  {
    var prefix := "https://wwwXyoutubeYcom/channel/";
    var s := prefix + id;
    assert s[..32] == prefix;
    assert s[32..56] == id;
    assert s[..11] == prefix[..11] && s[12..19] == prefix[12..19] && s[20..24] == prefix[20..24];
    assert s[24..32] == prefix[24..32];
  }

  /** A custom URL is resolved by whichever strategy fulfils first; it fails
      only when both fail. If exactly one strategy succeeds, its value is the
      result no matter which settles first. */
  lemma NamedUrlRace(s: string, race: string -> Race)
    requires Classify(s).NamedUrl?
    ensures Resolve(s, race).result.Err? <==> race(s).api.Rejected? && race(s).scrape.Rejected?
    ensures race(s).api.Succeeded? && race(s).scrape.Rejected? ==> Resolve(s, race).result == Ok(race(s).api.v)
    ensures race(s).api.Rejected? && race(s).scrape.Succeeded? ==> Resolve(s, race).result == Ok(race(s).scrape.v)
  {
  }

  /** A custom `/c/` URL is classified as needing remote resolution. */
  lemma CustomUrlIsRemote(name: string)
    ensures Classify("https://www.youtube.com/c/" + name) == NamedUrl
  {
    var s := "https://www.youtube.com/c/" + name;
    assert s[..11] == "https://www" && s[12..19] == "youtube" && s[20..24] == "com/";
    assert s[24..26] == "c/";
    assert !IsChannelId(s) by {
      if |s| == 24 {
        assert false;
      }
    }
    assert !IsIdUrl(s) by {
      assert |s| < 32 || s[24..32] != "channel/" by {
        assert s[25] == '/';
      }
    }
  }

  /** A handle URL matches none of the patterns and is rejected without a
      remote request. */
  lemma HandleUrlRejected(race: string -> Race)
    ensures Resolve("https://www.youtube.com/@Level2Jeff", race) == Resolution(Err(UnrecognizedReference), 0)
  {
    var s := "https://www.youtube.com/@Level2Jeff";
    assert s[24] == '@';
    assert !IsNamedUrl(s) by {
      assert s[24..26] != "c/";
      assert |s| < 32 || s[24..32] != "channel/";
    }
  }

  /** `normalizeChannel` of the older version: a value the URL constructor
      rejects is returned as is; otherwise one search request is made and the
      first result's `id.channelId` is taken (an empty result list throws).
      `isUrl(v)` says whether `new URL(v)` succeeds, which converts `v` to a
      string first; `search(v)` is the answer to the query `q: v`. */
  datatype Search = SearchRejected | SearchOk(channelIds: seq<Value>)

  function LegacyResolve(v: Value, isUrl: Value -> bool, search: Value -> Search): (r: Resolution)
    ensures !isUrl(v) ==> r == Resolution(Ok(v), 0)
    ensures isUrl(v) ==> r.remoteCalls == 1
    ensures isUrl(v) ==> (r.result.Ok? <==> search(v).SearchOk? && |search(v).channelIds| > 0)
    ensures isUrl(v) && r.result.Ok? ==> r.result.value == search(v).channelIds[0]
  {
    if !isUrl(v) then Resolution(Ok(v), 0)
    else
      match search(v)
      case SearchRejected => Resolution(Err(SearchFailed), 1)
      case SearchOk(ids) =>
        if |ids| == 0 then Resolution(Err(NoSearchResult), 1) else Resolution(Ok(ids[0]), 1)
  }

  /** The text `String(v)` has no colon: a string without one, or a number,
      boolean, `null`, `undefined` or plain object (`"[object Object]"`). An
      array's text joins its elements, so it may hold one. */
  predicate SchemelessText(v: Value) {
    match v
    case Str(s) => ':' !in s
    case Arr(_) => false
    case _ => true
  }

  /** Absolute URLs need a scheme, so a URL parser rejects every value whose
      text has no colon. */
  ghost predicate NeedsScheme(isUrl: Value -> bool) {
    forall v :: SchemelessText(v) ==> !isUrl(v)
  }

  /** Under the older version a bare channel ID is also left unchanged with no
      remote request, because it cannot parse as a URL. */
  lemma LegacyBareIdUnchanged(s: string, isUrl: Value -> bool, search: Value -> Search)
    requires NeedsScheme(isUrl)
    requires IsChannelId(s)
    ensures LegacyResolve(Str(s), isUrl, search) == Resolution(Ok(Str(s)), 0)
  {
    assert ':' !in s;
    assert SchemelessText(Str(s));
  }

  /** Under the older version a number, boolean, `null` or object in a list
      is kept as it is, with no remote request: the URL constructor throws
      and the `catch` returns the value. */
  lemma LegacyNonStringUnchanged(v: Value, isUrl: Value -> bool, search: Value -> Search)
    requires NeedsScheme(isUrl)
    requires !v.Str? && !v.Arr?
    ensures LegacyResolve(v, isUrl, search) == Resolution(Ok(v), 0)
  {
    assert SchemelessText(v);
  }

  /** Whether `String(v)` passes the bare-ID test for a value that is not a
      string. An array's text joins its elements' texts with commas, so only
      an array of exactly one qualifying value passes; the text of a number,
      boolean, `null` or object never has 24 characters of the ID alphabet
      (large numbers print with `e+`). */
  predicate IdText(v: Value) {
    match v
    case Str(s) => IsChannelId(s)
    case Arr(items) => |items| == 1 && IdText(items[0])
    case _ => false
  }
}

=== FILE: clock.dfy ===
/** Rendering a video's length for the notification e-mail: `formatDuration`
    of the current version, which works on an already parsed duration, and the
    replace chain of the earlier versions, which rewrites the ISO 8601 text. */
module Clock {
  import opened Common
  import opened Text

  /** A parsed duration (days and fractional seconds are not modelled). */
  datatype Duration = Duration(hours: nat, minutes: nat, seconds: nat)

  /** `formatDuration`: hours and a colon only when there are hours; minutes
      padded to two digits only after hours; seconds always padded to two. */
  function FormatDuration(d: Duration): (r: string)
    ensures |r| >= 4
  {
    var hours := if d.hours == 0 then "" else NatToString(d.hours) + ":";
    var minutes := PadStart(NatToString(d.minutes), if d.hours > 0 then 2 else 0, '0') + ":";
    var seconds := PadStart(NatToString(d.seconds), 2, '0');
    hours + minutes + seconds
  }

  /** `s.split(sep)`. */
  function Split(s: string, sep: char): (parts: seq<string>)
    ensures |parts| >= 1
  {
    if |s| == 0 then [""]
    else
      var rest := Split(s[1..], sep);
      if s[0] == sep then [""] + rest else [[s[0]] + rest[0]] + rest[1..]
  }

  /** A non-empty run of decimal digits. */
  predicate Numeral(s: string) {
    |s| >= 1 && AllDigits(s)
  }

  /** A field as `padStart(String(n), width, '0')` writes it: at least
      `width` digits, with a leading zero only as padding or as the single
      digit of zero. */
  predicate PaddedNumeral(s: string, width: nat) {
    Numeral(s) && |s| >= width && (|s| > width && |s| > 1 ==> s[0] != '0')
  }

  /** Reads a clock string back, accepting only the two shapes of the
      rendering: `m:ss` without hours, and `h:mm:ss` with a non-zero hour
      field; seconds, and minutes after hours, take at least two digits. */
  function ParseClock(s: string): (r: Option<Duration>)
    ensures r.Some? ==> |Split(s, ':')| in {2, 3}
    ensures r.Some? && |Split(s, ':')| == 2 ==> r.value.hours == 0
    ensures r.Some? ==> forall i :: 1 <= i < |Split(s, ':')| ==> |Split(s, ':')[i]| >= 2
  {
    var parts := Split(s, ':');
    if |parts| == 2 && PaddedNumeral(parts[0], 0) && PaddedNumeral(parts[1], 2) then
      Some(Duration(0, DigitsValue(parts[0]), DigitsValue(parts[1])))
    else if |parts| == 3 && PaddedNumeral(parts[0], 0) && parts[0][0] != '0'
                         && PaddedNumeral(parts[1], 2) && PaddedNumeral(parts[2], 2) then
      Some(Duration(DigitsValue(parts[0]), DigitsValue(parts[1]), DigitsValue(parts[2])))
    else None
  }

  /** The parser refuses the shapes the rendering never produces. */
  lemma ParseClockRejectsOtherShapes()
    ensures ParseClock("5:7").None?
    ensures ParseClock("05:07").None?
    ensures ParseClock("0:5:07").None?
    ensures ParseClock("1:5:07").None?
    ensures ParseClock("5:07") == Some(Duration(0, 5, 7))
  {
    RejectsUnpaddedSeconds();
    RejectsPaddedMinutes();
    RejectsZeroHours();
    RejectsUnpaddedMinutesAfterHours();
    AcceptsRendering();
  }

  /** The fields of a two-field clock string decide the parse. */
  lemma ParseTwoFields(a: string, b: string)
    requires ':' !in a && ':' !in b
    ensures ParseClock("" + (a + ":") + b) ==
      if PaddedNumeral(a, 0) && PaddedNumeral(b, 2) then Some(Duration(0, DigitsValue(a), DigitsValue(b))) else None
  {
    SplitTwo(a, b);
  }

  /** The fields of a three-field clock string decide the parse. */
  lemma ParseThreeFields(a: string, b: string, c: string)
    requires ':' !in a && ':' !in b && ':' !in c
    ensures !PaddedNumeral(a, 0) || a[0] == '0' || !PaddedNumeral(b, 2) ==> ParseClock((a + ":") + (b + ":") + c).None?
  {
    SplitThree(a, b, c);
  }

  lemma RejectsUnpaddedSeconds()
    ensures ParseClock("5:7").None?
  {
    ParseTwoFields("5", "7");
    assert "" + ("5" + ":") + "7" == "5:7";
  }

  lemma RejectsPaddedMinutes()
    ensures ParseClock("05:07").None?
  {
    ParseTwoFields("05", "07");
    assert "" + ("05" + ":") + "07" == "05:07";
  }

  lemma RejectsZeroHours()
    ensures ParseClock("0:5:07").None?
  {
    ParseThreeFields("0", "5", "07");
    assert ("0" + ":") + ("5" + ":") + "07" == "0:5:07";
  }

  lemma RejectsUnpaddedMinutesAfterHours()
    ensures ParseClock("1:5:07").None?
  {
    ParseThreeFields("1", "5", "07");
    assert ("1" + ":") + ("5" + ":") + "07" == "1:5:07";
  }

  lemma AcceptsRendering()
    ensures ParseClock("5:07") == Some(Duration(0, 5, 7))
  {
    ParseTwoFields("5", "07");
    assert "" + ("5" + ":") + "07" == "5:07";
    assert DigitsValue("07") == 7;
  }

  lemma {:induction false} SplitNoSeparator(c: string, sep: char)
    requires sep !in c
    ensures Split(c, sep) == [c]
  {
    if |c| > 0 {
      SplitNoSeparator(c[1..], sep);
      assert [c[0]] + c[1..] == c;
    }
  }

  lemma {:induction false} SplitAppend(a: string, sep: char, rest: string)
    requires sep !in a
    ensures Split(a + [sep] + rest, sep) == [a] + Split(rest, sep)
  {
    var s := a + [sep] + rest;
    if |a| == 0 {
      assert s[1..] == rest;
    } else {
      assert s[1..] == a[1..] + [sep] + rest;
      SplitAppend(a[1..], sep, rest);
      assert [a[0]] + a[1..] == a;
    }
  }

  /** A padded rendering of `n` is a numeral denoting `n`. */
  lemma PaddedValue(n: nat, width: nat)
    ensures PaddedNumeral(PadStart(NatToString(n), width, '0'), width)
    ensures DigitsValue(PadStart(NatToString(n), width, '0')) == n
    ensures ':' !in PadStart(NatToString(n), width, '0')
  {
    var s := NatToString(n);
    var r := PadStart(s, width, '0');
    var pad :| r == pad + s && pad == Repeat('0', |r| - |s|);
    LeadingZerosValue(|r| - |s|, s);
    NatToStringRoundTrip(n);
    assert forall i :: 0 <= i < |r| ==> IsDigit(r[i]);
  }

  /** A rendering has one of the two shapes the parser accepts, and reading
      it back gives the duration: no two durations share a rendering. */
  lemma FormatDurationRoundTrip(d: Duration)
    ensures ParseClock(FormatDuration(d)) == Some(d)
  {
    var parts := ClockParts(d);
    var m := PadStart(NatToString(d.minutes), if d.hours > 0 then 2 else 0, '0');
    var s := PadStart(NatToString(d.seconds), 2, '0');
    PaddedValue(d.minutes, if d.hours > 0 then 2 else 0);
    PaddedValue(d.seconds, 2);
    if d.hours == 0 {
      ParseTwo(FormatDuration(d), m, s);
    } else {
      PaddedValue(d.hours, 0);
      ParseThree(FormatDuration(d), NatToString(d.hours), m, s);
    }
  }

  lemma ParseTwo(f: string, m: string, s: string)
    requires Split(f, ':') == [m, s] && PaddedNumeral(m, 0) && PaddedNumeral(s, 2)
    ensures ParseClock(f) == Some(Duration(0, DigitsValue(m), DigitsValue(s)))
  {
  }

  lemma ParseThree(f: string, h: string, m: string, s: string)
    requires Split(f, ':') == [h, m, s] && PaddedNumeral(h, 0) && h[0] != '0' && PaddedNumeral(m, 2) && PaddedNumeral(s, 2)
    ensures ParseClock(f) == Some(Duration(DigitsValue(h), DigitsValue(m), DigitsValue(s)))
  {
  }

  /** The colon-separated fields of a rendering. */
  lemma ClockParts(d: Duration) returns (parts: seq<string>)
    ensures parts == Split(FormatDuration(d), ':')
    ensures var m := PadStart(NatToString(d.minutes), if d.hours > 0 then 2 else 0, '0');
      var s := PadStart(NatToString(d.seconds), 2, '0');
      parts == if d.hours == 0 then [m, s] else [NatToString(d.hours), m, s]
  {
    var m := PadStart(NatToString(d.minutes), if d.hours > 0 then 2 else 0, '0');
    var s := PadStart(NatToString(d.seconds), 2, '0');
    PaddedValue(d.minutes, if d.hours > 0 then 2 else 0);
    PaddedValue(d.seconds, 2);
    if d.hours == 0 {
      assert FormatDuration(d) == "" + (m + ":") + s;
      SplitTwo(m, s);
    } else {
      var h := NatToString(d.hours);
      PaddedValue(d.hours, 0);
      assert FormatDuration(d) == (h + ":") + (m + ":") + s;
      SplitThree(h, m, s);
    }
    parts := Split(FormatDuration(d), ':');
  }

  lemma SplitTwo(a: string, b: string)
    requires ':' !in a && ':' !in b
    ensures Split("" + (a + ":") + b, ':') == [a, b]
  {
    assert "" + (a + ":") + b == a + [':'] + b;
    SplitAppend(a, ':', b);
    SplitNoSeparator(b, ':');
  }

  lemma SplitThree(a: string, b: string, c: string)
    requires ':' !in a && ':' !in b && ':' !in c
    ensures Split((a + ":") + (b + ":") + c, ':') == [a, b, c]
  {
    assert (a + ":") + (b + ":") + c == a + [':'] + (b + [':'] + c);
    SplitAppend(a, ':', b + [':'] + c);
    SplitAppend(b, ':', c);
    SplitNoSeparator(c, ':');
  }

  /** The converse of the round trip: the parser accepts nothing but
      renderings, so a string it reads is the rendering of what it read. */
  lemma ParseClockOnlyRenderings(s: string)
    requires ParseClock(s).Some?
    ensures FormatDuration(ParseClock(s).value) == s
  {
    var parts := Split(s, ':');
    SplitJoin(s, ':');
    if |parts| == 2 {
      RenderTwo(parts[0], parts[1]);
    } else {
      RenderThree(parts[0], parts[1], parts[2]);
    }
  }

  lemma RenderTwo(m: string, sec: string)
    requires PaddedNumeral(m, 0) && PaddedNumeral(sec, 2)
    ensures FormatDuration(Duration(0, DigitsValue(m), DigitsValue(sec))) == m + [':'] + sec
  {
    FieldRendering(m, 0);
    FieldRendering(sec, 2);
    assert FormatDuration(Duration(0, DigitsValue(m), DigitsValue(sec))) == "" + (m + ":") + sec;
  }

  lemma RenderThree(h: string, m: string, sec: string)
    requires PaddedNumeral(h, 0) && h[0] != '0' && PaddedNumeral(m, 2) && PaddedNumeral(sec, 2)
    ensures FormatDuration(Duration(DigitsValue(h), DigitsValue(m), DigitsValue(sec))) == h + [':'] + (m + [':'] + sec)
  {
    HourField(h);
    FieldRendering(m, 2);
    FieldRendering(sec, 2);
    ColonsThree(h, m, sec);
  }

  /** A non-zero hour field is the rendering of a non-zero hour count. */
  lemma HourField(h: string)
    requires PaddedNumeral(h, 0) && h[0] != '0'
    ensures NatToString(DigitsValue(h)) == h && DigitsValue(h) != 0
  {
    FieldRendering(h, 0);
    assert NatToString(0)[0] == '0';
  }

  lemma ColonsThree(a: string, b: string, c: string)
    ensures (a + ":") + (b + ":") + c == a + [':'] + (b + [':'] + c)
  {
  }

  /** A field the parser accepts is the padded rendering of its value. */
  lemma FieldRendering(f: string, width: nat)
    requires PaddedNumeral(f, width)
    ensures PadStart(NatToString(DigitsValue(f)), width, '0') == f
  {
    if (|f| > width && |f| > 1) || |f| == 1 {
      CanonicalDigitsRoundTrip(f);
    } else {
      PaddedDigitsRoundTrip(f, width);
    }
  }

  /** The fields joined back with the separator. */
  function Join(parts: seq<string>, sep: char): string
    requires |parts| >= 1
  {
    if |parts| == 1 then parts[0] else parts[0] + [sep] + Join(parts[1..], sep)
  }

  /** Splitting and joining again gives the string back. */
  lemma {:induction false} SplitJoin(s: string, sep: char)
    ensures Join(Split(s, sep), sep) == s
    ensures |Split(s, sep)| == 2 ==> s == Split(s, sep)[0] + [sep] + Split(s, sep)[1]
    ensures |Split(s, sep)| == 3 ==>
      s == Split(s, sep)[0] + [sep] + (Split(s, sep)[1] + [sep] + Split(s, sep)[2])
  {
    if |s| > 0 {
      SplitJoin(s[1..], sep);
      SplitJoinCons(s, sep);
    }
    JoinFew(Split(s, sep), sep);
  }

  lemma SplitJoinCons(s: string, sep: char)
    requires |s| > 0 && Join(Split(s[1..], sep), sep) == s[1..]
    ensures Join(Split(s, sep), sep) == s
  {
    var rest := Split(s[1..], sep);
    if s[0] == sep {
      assert s == "" + [sep] + s[1..];
    } else {
      JoinHead([s[0]], rest[0], rest[1..], sep);
      assert [rest[0]] + rest[1..] == rest;
      assert s == [s[0]] + s[1..];
    }
  }

  /** Joining two or three fields. */
  lemma JoinFew(parts: seq<string>, sep: char)
    requires |parts| >= 1
    ensures |parts| == 2 ==> Join(parts, sep) == parts[0] + [sep] + parts[1]
    ensures |parts| == 3 ==> Join(parts, sep) == parts[0] + [sep] + (parts[1] + [sep] + parts[2])
  {
    if |parts| == 3 {
      assert parts[1..][1..] == [parts[2]];
    }
  }

  lemma JoinHead(x: string, y: string, tail: seq<string>, sep: char)
    ensures Join([x + y] + tail, sep) == x + Join([y] + tail, sep)
  {
    if |tail| > 0 {
      assert ([x + y] + tail)[1..] == tail && ([y] + tail)[1..] == tail;
    }
  }

  lemma FormatDurationInjective(d: Duration, e: Duration)
    requires FormatDuration(d) == FormatDuration(e)
    ensures d == e
  {
    FormatDurationRoundTrip(d);
    FormatDurationRoundTrip(e);
  }

  /** Worked examples of the current rendering. */
  lemma FormatDurationExamples()
    ensures FormatDuration(Duration(0, 5, 7)) == "5:07"
    ensures FormatDuration(Duration(1, 5, 7)) == "1:05:07"
  {
    MinutesSecondsRendering(5, 7);
    HourMinutesRendering();
  }

  lemma HourMinutesRendering()
    ensures FormatDuration(Duration(1, 5, 7)) == "1:05:07"
  {
  }

  /** The durations the replace chain gets wrong, rendered by `FormatDuration`. */
  lemma FormatDurationPadding()
    ensures FormatDuration(Duration(0, 4, 5)) == "4:05"
    ensures FormatDuration(Duration(1, 0, 5)) == "1:00:05"
    ensures FormatDuration(Duration(0, 1, 5)) == "1:05"
  {
    MinutesSecondsRendering(4, 5);
    MinutesSecondsRendering(1, 5);
    HourRendering();
  }

  /** Without hours, one-digit minutes stay unpadded and seconds get a zero. */
  lemma MinutesSecondsRendering(m: nat, s: nat)
    requires 0 < m < 10 && s < 10
    ensures FormatDuration(Duration(0, m, s)) == [NatToString(m)[0], ':', '0', NatToString(s)[0]]
  {
  }

  lemma HourRendering()
    ensures FormatDuration(Duration(1, 0, 5)) == "1:00:05"
  {
  }

  /** The earlier versions' rendering of the ISO 8601 duration text (section
      4.4.3.2 of ISO 8601:2004, e.g. `PT4M13S`): drop the first "PT" and the
      first "S", then turn the first "M" and the first "H" into colons. */
  function LegacyDuration(iso: string): string {
    ReplaceFirst(ReplaceFirst(ReplaceFirst(ReplaceFirst(iso, "PT", ""), "S", ""), "M", ":"), "H", ":")
  }

  /** Replacing at the first occurrence. */
  lemma ReplaceFirstAt(s: string, pat: string, rep: string, i: nat)
    requires OccursAt(s, pat, i)
    requires forall j :: 0 <= j < i ==> !OccursAt(s, pat, j)
    ensures ReplaceFirst(s, pat, rep) == s[..i] + rep + s[i + |pat|..]
  {
    var k := IndexOf(s, pat);
    assert k.Some? && k.value == i;
    ReplaceFirstAtIndexOf(s, pat, rep);
  }

  /** `replace` with a one-character pattern acts at the first index holding it. */
  lemma ReplaceCharAt(s: string, c: char, rep: string, i: nat)
    requires i < |s| && s[i] == c
    requires forall j :: 0 <= j < i ==> s[j] != c
    ensures ReplaceFirst(s, [c], rep) == s[..i] + rep + s[i + 1..]
  {
    forall j | 0 <= j < i
      ensures !OccursAt(s, [c], j)
    {
      assert s[j..j + 1] == [s[j]];
    }
    assert s[i..i + 1] == [c];
    ReplaceFirstAt(s, [c], rep, i);
  }

  /** `replace` with a one-character pattern that does not occur. */
  lemma ReplaceCharAbsent(s: string, c: char, rep: string)
    requires c !in s
    ensures ReplaceFirst(s, [c], rep) == s
  {
    forall j | 0 <= j && j + 1 <= |s|
      ensures !OccursAt(s, [c], j)
    {
      assert s[j..j + 1] == [s[j]];
    }
    ReplaceFirstAtIndexOf(s, [c], rep);
  }

  lemma DropPrefixPT(rest: string)
    ensures ReplaceFirst("PT" + rest, "PT", "") == rest
  {
    assert ("PT" + rest)[0..2] == "PT";
    ReplaceFirstAt("PT" + rest, "PT", "", 0);
    assert ("PT" + rest)[2..] == rest;
  }

  /** Dropping the one trailing designator `S` after digits and one other designator. */
  lemma DropSeconds(a: string, unit: char, s: string)
    requires Numeral(a) && Numeral(s) && unit != 'S'
    ensures ReplaceFirst(a + [unit] + s + "S", "S", "") == a + [unit] + s
  {
    var x := a + [unit] + s + "S";
    ReplaceCharAt(x, 'S', "", |x| - 1);
    assert x[..|x| - 1] + "" + x[|x|..] == a + [unit] + s;
  }

  /** Turning the designator between two numerals into a colon. */
  lemma DesignatorToColon(a: string, unit: char, s: string)
    requires Numeral(a) && Numeral(s) && !IsDigit(unit)
    ensures ReplaceFirst(a + [unit] + s, [unit], ":") == a + ":" + s
  {
    var y := a + [unit] + s;
    ReplaceCharAt(y, unit, ":", |a|);
    assert y[..|a|] == a;
    assert y[|a| + 1..] == s;
  }

  /** Two numerals around a colon hold no designator. */
  lemma NoDesignator(a: string, c: char, s: string)
    requires Numeral(a) && Numeral(s) && !IsDigit(c) && c != ':'
    ensures c !in a + ":" + s
  {
  }

  lemma OtherDesignatorAbsent(a: string, unit: char, s: string, c: char)
    requires Numeral(a) && Numeral(s) && !IsDigit(c) && c != unit
    ensures c !in a + [unit] + s
  {
  }

  /** Minutes and seconds: `PT<m>M<s>S` becomes `<m>:<s>`, the seconds
      exactly as written, without padding. */
  lemma LegacyMinutesSeconds(m: string, s: string)
    requires Numeral(m) && Numeral(s)
    ensures LegacyDuration("PT" + m + "M" + s + "S") == m + ":" + s
  {
    assert "PT" + m + "M" + s + "S" == "PT" + (m + ['M'] + s + "S");
    DropPrefixPT(m + ['M'] + s + "S");
    DropSeconds(m, 'M', s);
    DesignatorToColon(m, 'M', s);
    NoDesignator(m, 'H', s);
    ReplaceCharAbsent(m + ":" + s, 'H', ":");
  }

  /** Hours and seconds: `PT<h>H<s>S` becomes `<h>:<s>`. */
  lemma LegacyHoursSeconds(h: string, s: string)
    requires Numeral(h) && Numeral(s)
    ensures LegacyDuration("PT" + h + "H" + s + "S") == h + ":" + s
  {
    assert "PT" + h + "H" + s + "S" == "PT" + (h + ['H'] + s + "S");
    DropPrefixPT(h + ['H'] + s + "S");
    DropSeconds(h, 'H', s);
    OtherDesignatorAbsent(h, 'H', s, 'M');
    ReplaceCharAbsent(h + ['H'] + s, 'M', ":");
    DesignatorToColon(h, 'H', s);
  }

  /** The example strings, assembled from their parts. */
  lemma ExampleSpelling()
    ensures "PT" + "4" + "M" + "13" + "S" == "PT4M13S" && "4" + ":" + "13" == "4:13"
    ensures "PT" + "4" + "M" + "5" + "S" == "PT4M5S" && "4" + ":" + "5" == "4:5"
    ensures "PT" + "1" + "H" + "5" + "S" == "PT1H5S" && "PT" + "1" + "M" + "5" + "S" == "PT1M5S"
  {
  }

  lemma OneHourFiveParts()
    ensures LegacyDuration("PT" + "1" + "H" + "5" + "S") == LegacyDuration("PT" + "1" + "M" + "5" + "S")
  {
    LegacyHoursSeconds("1", "5");
    LegacyMinutesSeconds("1", "5");
  }

  /** The worked example `PT4M13S` becomes "4:13", but a single digit of
      seconds keeps no padding: `PT4M5S` becomes "4:5". */
  lemma LegacyDurationExamples()
    ensures LegacyDuration("PT4M13S") == "4:13"
    ensures LegacyDuration("PT4M5S") == "4:5"
  {
    LegacyMinutesSeconds("4", "13");
    LegacyMinutesSeconds("4", "5");
    ExampleSpelling();
  }

  /** One hour and five seconds and one minute and five seconds render alike
      under the replace chain, and differently under `FormatDuration`. */
  lemma LegacyDurationCollides()
    ensures LegacyDuration("PT1H5S") == LegacyDuration("PT1M5S")
    ensures FormatDuration(Duration(1, 0, 5)) != FormatDuration(Duration(0, 1, 5))
  {
    OneHourFiveParts();
    ExampleSpelling();
    FormatDurationPadding();
  }
}

=== FILE: common.dfy ===
/** Shared vocabulary: optional values and error-carrying results. */
module Common {

  /** A value that may be absent (JavaScript `undefined` or `null`). */
  datatype Option<+T> = None | Some(value: T)

  /** The outcome of a step that may throw. */
  datatype Result<+T, +E> = Ok(value: T) | Err(error: E) {
    predicate IsFailure() {
      Err?
    }

    function PropagateFailure<U>(): Result<U, E>
      requires Err?
    {
      Err(error)
    }

    function Extract(): T
      requires Ok?
    {
      value
    }
  }

  /** JavaScript truthiness of an optional string: `undefined`, `null` and `""` are falsy. */
  predicate FalsyString(s: Option<string>) {
    s.None? || s.value == ""
  }
}

=== FILE: config.dfy ===
/** Configuration loading: `validateConfig` (every key path of the example
    configuration must exist in the user's file), `normalizeConfig` (channel
    references in the white and black lists become channel IDs) and the
    write-back of the normalised configuration when it differs from the file. */
module Config {
  import opened Common
  import opened Json
  import DeepEqual
  import ChannelRef

  const WhitelistKey: string := "whitelistedChannelIds"
  const BlacklistKey: string := "blacklistedChannelIds"

  datatype ConfigError =
    | Unresolved(reference: Value, reason: ChannelRef.ResolveError)
    | NotAList(key: string)            // a truthy list value without `.map` (a TypeError)
    | NonStringReference(reference: Value)  // `.match` called on a list element that is not a string
    | MissingKey(path: seq<string>)    // validateConfig exits the process
    | NotAnObject(path: seq<string>)   // the `in` operator applied to a primitive throws
    | BadSchema(path: seq<string>)     // `Object.entries(null)` throws

  /** A channel-reference normaliser applied to one list element: the
      current or the older `normalizeChannel`. */
  type Resolver = Value -> Result<Value, ConfigError>

  /** A rejected normalisation, reported with the reference it was given. */
  function Blame(v: Value, r: Result<Value, ChannelRef.ResolveError>): Result<Value, ConfigError> {
    match r
    case Ok(x) => Ok(x)
    case Err(e) => Err(Unresolved(v, e))
  }

  /** The resolver of the current version, given the remote strategies'
      answers. The bare-ID test converts its argument to a string, so a
      value whose text is an ID comes back as it is; any other value that is
      not a string throws at `channel.match`. */
  function CurrentResolver(race: string -> ChannelRef.Race): Resolver {
    v => if ChannelRef.IdText(v) then Ok(v)
         else if v.Str? then Blame(v, ChannelRef.Resolve(v.s, race).result)
         else Err(NonStringReference(v))
  }

  /** The resolver of the older version. */
  function LegacyResolver(isUrl: Value -> bool, search: Value -> ChannelRef.Search): Resolver {
    v => Blame(v, ChannelRef.LegacyResolve(v, isUrl, search).result)
  }

  /** `Promise.all(list.map(normalizeChannel))`: all elements resolved, in
      order; it rejects when any element fails (the lowest failing index is
      the one reported here). */
  function ResolveAll(items: seq<Value>, resolve: Resolver): (r: Result<seq<Value>, ConfigError>)
    ensures r.Ok? ==> |r.value| == |items|
    ensures r.Ok? ==> forall i :: 0 <= i < |items| ==> resolve(items[i]) == Ok(r.value[i])
    ensures r.Err? <==> exists i :: 0 <= i < |items| && resolve(items[i]).Err?
    ensures r.Err? ==> exists i :: 0 <= i < |items| && resolve(items[i]) == Err(r.error)
  {
    if |items| == 0 then Ok([])
    else
      var first := resolve(items[0]);
      if first.Err? then Err(first.error)
      else
        var rest := ResolveAll(items[1..], resolve);
        assert forall i :: 1 <= i < |items| ==> items[i] == items[1..][i - 1];
        if rest.Err? then Err(rest.error) else Ok([first.value] + rest.value)
  }

  /** One list of `normalizeConfig`: a falsy value becomes `undefined`, an
      array is mapped element-wise, anything else throws. */
  function NormalizeList(v: Value, key: string, resolve: Resolver): (r: Result<Value, ConfigError>)
    ensures Falsy(v) ==> r == Ok(Undefined)
    ensures !Falsy(v) && !v.Arr? ==> r == Err(NotAList(key))
    ensures v.Arr? && r.Ok? ==> r.value.Arr? && |r.value.items| == |v.items|
    ensures v.Arr? && r.Ok? ==> forall i :: 0 <= i < |v.items| ==> resolve(v.items[i]) == Ok(r.value.items[i])
    ensures v.Arr? ==> (r.Err? <==> exists i :: 0 <= i < |v.items| && resolve(v.items[i]).Err?)
  {
    if Falsy(v) then Ok(Undefined)
    else if v.Arr? then
      var items :- ResolveAll(v.items, resolve);
      Ok(Arr(items))
    else Err(NotAList(key))
  }

  /** The members other than the two lists, in their original order (the
      rest element of the destructuring). */
  function WithoutLists(ms: seq<Member>): (r: seq<Member>)
    ensures |r| <= |ms|
    ensures forall m :: m in r <==> m in ms && m.key != WhitelistKey && m.key != BlacklistKey
  {
    if |ms| == 0 then []
    else
      var rest := WithoutLists(ms[1..]);
      assert forall m :: m in ms <==> m == ms[0] || m in ms[1..];
      if ms[0].key == WhitelistKey || ms[0].key == BlacklistKey then rest else [ms[0]] + rest
  }

  /** `normalizeConfig`: every other key kept, then the two normalised lists. */
  function NormalizeConfig(ms: seq<Member>, resolve: Resolver): (r: Result<seq<Member>, ConfigError>)
    ensures r.Ok? ==> NormalizeList(Lookup(ms, WhitelistKey), WhitelistKey, resolve).Ok?
    ensures r.Ok? ==> NormalizeList(Lookup(ms, BlacklistKey), BlacklistKey, resolve).Ok?
    ensures r.Ok? ==> r.value == WithoutLists(ms) + [
      Member(WhitelistKey, NormalizeList(Lookup(ms, WhitelistKey), WhitelistKey, resolve).value),
      Member(BlacklistKey, NormalizeList(Lookup(ms, BlacklistKey), BlacklistKey, resolve).value)]
    ensures r.Err? <==>
      NormalizeList(Lookup(ms, WhitelistKey), WhitelistKey, resolve).Err? ||
      NormalizeList(Lookup(ms, BlacklistKey), BlacklistKey, resolve).Err?
  {
    var w :- NormalizeList(Lookup(ms, WhitelistKey), WhitelistKey, resolve);
    var b :- NormalizeList(Lookup(ms, BlacklistKey), BlacklistKey, resolve);
    Ok(WithoutLists(ms) + [Member(WhitelistKey, w), Member(BlacklistKey, b)])
  }

  /** Normalisation leaves the value of every other key as it was. */
  lemma {:induction false} OtherKeysKept(ms: seq<Member>, resolve: Resolver, k: string)
    requires NormalizeConfig(ms, resolve).Ok?
    requires k != WhitelistKey && k != BlacklistKey
    ensures Lookup(NormalizeConfig(ms, resolve).value, k) == Lookup(ms, k)
  {
    var r := NormalizeConfig(ms, resolve).value;
    WithoutListsLookup(ms, k);
    var rest := WithoutLists(ms);
    LookupAppend(rest, [Member(WhitelistKey, r[|r| - 2].value), Member(BlacklistKey, r[|r| - 1].value)], k);
  }

  lemma {:induction false} WithoutListsLookup(ms: seq<Member>, k: string)
    requires k != WhitelistKey && k != BlacklistKey
    ensures Lookup(WithoutLists(ms), k) == Lookup(ms, k)
    ensures KeyIndex(WithoutLists(ms), k) < |WithoutLists(ms)| <==> KeyIndex(ms, k) < |ms|
  {
    if |ms| > 0 {
      WithoutListsLookup(ms[1..], k);
      LookupTail(ms, k);
      var rest := WithoutLists(ms[1..]);
      if ms[0].key != WhitelistKey && ms[0].key != BlacklistKey {
        assert WithoutLists(ms) == [ms[0]] + rest;
        LookupTail([ms[0]] + rest, k);
        assert ([ms[0]] + rest)[1..] == rest;
      }
    }
  }

  /** Looking a key up in a non-empty member list: the head, or the tail. */
  lemma LookupTail(ms: seq<Member>, k: string)
    requires |ms| > 0
    ensures Lookup(ms, k) == if ms[0].key == k then ms[0].value else Lookup(ms[1..], k)
    ensures KeyIndex(ms, k) < |ms| <==> ms[0].key == k || KeyIndex(ms[1..], k) < |ms| - 1
  {
  }

  lemma {:induction false} LookupAppend(xs: seq<Member>, ys: seq<Member>, k: string)
    requires forall m :: m in ys ==> m.key != k
    ensures Lookup(xs + ys, k) == Lookup(xs, k)
  {
    if |xs| == 0 {
      assert xs + ys == ys;
      assert forall i :: 0 <= i < |ys| ==> ys[i] in ys;
    } else {
      assert (xs + ys)[1..] == xs[1..] + ys;
      LookupAppend(xs[1..], ys, k);
    }
  }

  /** A list value that normalisation leaves as it is: `undefined`, or an
      array of bare channel IDs. */
  predicate CanonicalList(v: Value) {
    v.Undefined? || (v.Arr? && forall i :: 0 <= i < |v.items| ==> v.items[i].Str? && ChannelRef.IsChannelId(v.items[i].s))
  }

  /** A list made only of channel IDs is returned unchanged by the current
      normaliser, without remote requests. */
  lemma CanonicalListUnchanged(v: Value, key: string, race: string -> ChannelRef.Race)
    requires CanonicalList(v)
    ensures NormalizeList(v, key, CurrentResolver(race)) == Ok(v)
  {
    if v.Arr? {
      var r := NormalizeList(v, key, CurrentResolver(race));
      forall i | 0 <= i < |v.items|
        ensures CurrentResolver(race)(v.items[i]) == Ok(v.items[i])
      {
      }
      assert r.Ok?;
      assert r.value.items == v.items;
    }
  }

  /** Normalising an already normalised configuration whose lists hold only
      channel IDs gives it back unchanged. */
  lemma NormalizeIdempotent(ms: seq<Member>, race: string -> ChannelRef.Race)
    requires NormalizeConfig(ms, CurrentResolver(race)).Ok?
    requires CanonicalList(Lookup(NormalizeConfig(ms, CurrentResolver(race)).value, WhitelistKey))
    requires CanonicalList(Lookup(NormalizeConfig(ms, CurrentResolver(race)).value, BlacklistKey))
    ensures NormalizeConfig(NormalizeConfig(ms, CurrentResolver(race)).value, CurrentResolver(race))
      == NormalizeConfig(ms, CurrentResolver(race))
  {
    var resolve := CurrentResolver(race);
    var n := NormalizeConfig(ms, resolve).value;
    var rest := WithoutLists(ms);
    var w, b := n[|n| - 2].value, n[|n| - 1].value;
    WithoutListsIdentity(ms);
    NormalizedShape(rest, w, b);
    CanonicalListUnchanged(w, WhitelistKey, race);
    CanonicalListUnchanged(b, BlacklistKey, race);
    RenormalizeShape(rest, w, b, resolve);
  }

  /** The lists of a configuration of the normalised shape are found at the end. */
  lemma NormalizedShape(rest: seq<Member>, w: Value, b: Value)
    requires WithoutLists(rest) == rest
    ensures Lookup(rest + [Member(WhitelistKey, w), Member(BlacklistKey, b)], WhitelistKey) == w
    ensures Lookup(rest + [Member(WhitelistKey, w), Member(BlacklistKey, b)], BlacklistKey) == b
  {
    var tail := [Member(WhitelistKey, w), Member(BlacklistKey, b)];
    NoListKeys(rest);
    KeyIndexAfter(rest, tail, WhitelistKey);
    KeyIndexAfter(rest, tail, BlacklistKey);
  }

  lemma RenormalizeShape(rest: seq<Member>, w: Value, b: Value, resolve: Resolver)
    requires WithoutLists(rest) == rest
    requires NormalizeList(w, WhitelistKey, resolve) == Ok(w)
    requires NormalizeList(b, BlacklistKey, resolve) == Ok(b)
    ensures NormalizeConfig(rest + [Member(WhitelistKey, w), Member(BlacklistKey, b)], resolve)
      == Ok(rest + [Member(WhitelistKey, w), Member(BlacklistKey, b)])
  {
    var tail := [Member(WhitelistKey, w), Member(BlacklistKey, b)];
    NormalizedShape(rest, w, b);
    WithoutListsAppend(rest, tail);
    assert WithoutLists(tail) == [];
    assert WithoutLists(rest + tail) == rest;
    var r := NormalizeConfig(rest + tail, resolve);
    assert r.Ok?;
    assert r.value == rest + tail;
  }

  lemma NoListKeys(rest: seq<Member>)
    requires rest == WithoutLists(rest)
    ensures forall m :: m in rest ==> m.key != WhitelistKey && m.key != BlacklistKey
  {
  }

  lemma {:induction false} KeyIndexAfter(xs: seq<Member>, ys: seq<Member>, k: string)
    requires forall m :: m in xs ==> m.key != k
    ensures KeyIndex(xs + ys, k) == |xs| + KeyIndex(ys, k)
  {
    if |xs| > 0 {
      assert (xs + ys)[1..] == xs[1..] + ys;
      KeyIndexAfter(xs[1..], ys, k);
    } else {
      assert xs + ys == ys;
    }
  }

  lemma {:induction false} WithoutListsAppend(xs: seq<Member>, ys: seq<Member>)
    ensures WithoutLists(xs + ys) == WithoutLists(xs) + WithoutLists(ys)
  {
    if |xs| == 0 {
      assert xs + ys == ys;
    } else {
      assert (xs + ys)[1..] == xs[1..] + ys;
      WithoutListsAppend(xs[1..], ys);
    }
  }

  lemma {:induction false} WithoutListsIdentity(ms: seq<Member>)
    ensures WithoutLists(WithoutLists(ms)) == WithoutLists(ms)
  {
    if |ms| > 0 {
      WithoutListsIdentity(ms[1..]);
    }
  }

  /** `validateConfig`: every key of the schema (the example configuration)
      must be present in `received`, recursively, except below string-valued
      schema entries. The first failure in enumeration order is reported. */
  function Validate(received: Value, expected: Value, path: seq<string>): Option<ConfigError>
    decreases Size(expected), 1
  {
    if expected.Str? then None
    else if expected.Null? || expected.Undefined? then Some(BadSchema(path))
    else if !IsObject(expected) then None
    else ValidateFrom(received, expected, path, 0)
  }

  /** The loop over `Object.entries(expected)`, from entry `i` on. */
  function ValidateFrom(received: Value, expected: Value, path: seq<string>, i: nat): Option<ConfigError>
    requires IsObject(expected)
    decreases Size(expected), 0, |Props(expected)| - i
  {
    var ps := Props(expected);
    if i >= |ps| then None
    else if !IsObject(received) then Some(NotAnObject(path))
    else if !HasKey(received, ps[i].key) then Some(MissingKey(path + [ps[i].key]))
    else
      match Validate(Get(received, ps[i].key), ps[i].value, path + [ps[i].key])
      case Some(e) => Some(e)
      case None => ValidateFrom(received, expected, path, i + 1)
  }

  /** `p` leads from the schema root through object entries: every node
      before the last key is an object or array, so no string, number or
      boolean entry (which validation does not descend into) is passed. */
  ghost predicate SchemaPath(expected: Value, p: seq<string>)
    decreases Size(expected)
  {
    |p| == 0 ||
      (IsObject(expected) && exists i :: 0 <= i < |Props(expected)| && Props(expected)[i].key == p[0] && SchemaPath(Props(expected)[i].value, p[1..]))
  }

  /** `p` can be followed in `received` with the `in` operator and indexing. */
  ghost predicate PathPresent(received: Value, p: seq<string>)
    decreases |p|
  {
    |p| == 0 || (IsObject(received) && HasKey(received, p[0]) && PathPresent(Get(received, p[0]), p[1..]))
  }

  /** A string in the schema stops the descent: anything is accepted there. */
  lemma StringSchemaAcceptsAnything(received: Value, s: string, path: seq<string>)
    ensures Validate(received, Str(s), path).None?
  {
  }

  /** A primitive where the schema has a non-empty object is rejected. */
  lemma NonObjectRejected(received: Value, expected: Value, path: seq<string>)
    requires IsObject(expected) && |Props(expected)| > 0 && !IsObject(received)
    ensures Validate(received, expected, path) == Some(NotAnObject(path))
  {
  }

  /** A configuration that passes validation has every key path of the
      schema; so a missing path is always reported. */
  lemma {:induction false} ValidMeansPathsPresent(received: Value, expected: Value, path: seq<string>, p: seq<string>)
    requires Validate(received, expected, path).None?
    requires SchemaPath(expected, p)
    ensures PathPresent(received, p)
    decreases |p|
  {
    if |p| > 0 {
      var ps := Props(expected);
      var i :| 0 <= i < |ps| && ps[i].key == p[0] && SchemaPath(ps[i].value, p[1..]);
      ValidateFromAll(received, expected, path, 0, i);
      ValidMeansPathsPresent(Get(received, p[0]), ps[i].value, path + [p[0]], p[1..]);
    }
  }

  lemma {:induction false} ValidateFromAll(received: Value, expected: Value, path: seq<string>, start: nat, i: nat)
    requires IsObject(expected) && start <= i < |Props(expected)|
    requires ValidateFrom(received, expected, path, start).None?
    ensures IsObject(received) && HasKey(received, Props(expected)[i].key)
    ensures Validate(Get(received, Props(expected)[i].key), Props(expected)[i].value, path + [Props(expected)[i].key]).None?
    decreases i - start
  {
    var ps := Props(expected);
    assert IsObject(received) && HasKey(received, ps[start].key);
    var here := Validate(Get(received, ps[start].key), ps[start].value, path + [ps[start].key]);
    assert here.None?;
    if start < i {
      assert ValidateFrom(received, expected, path, start + 1).None?;
      ValidateFromAll(received, expected, path, start + 1, i);
    }
  }

  /** Serialising with `JSON.stringify` and reading back: `undefined`
      members are dropped and `undefined` array elements become `null`. */
  function Serialize(v: Value): Value
    decreases Size(v), 1
  {
    match v
    case Arr(items) => Arr(seq(|items|, i requires 0 <= i < |items| => SerializeElement(v, i)))
    case Obj(members) => Obj(SerializeMembers(v, 0))
    case _ => v
  }

  function SerializeElement(v: Value, i: nat): Value
    requires v.Arr? && i < |v.items|
    decreases Size(v), 0
  {
    assert Props(v)[i].value == v.items[i];
    if v.items[i].Undefined? then Null else Serialize(v.items[i])
  }

  function SerializeMembers(v: Value, i: nat): (r: seq<Member>)
    requires v.Obj? && i <= |v.members|
    ensures forall m :: m in r ==> !m.value.Undefined? && exists j :: i <= j < |v.members| && m.key == v.members[j].key
    ensures forall j :: i <= j < |v.members| && !v.members[j].value.Undefined? ==>
      Member(v.members[j].key, Serialize(Props(v)[j].value)) in r
    ensures |r| <= |v.members| - i
    decreases Size(v), 0, |v.members| - i
  {
    if i == |v.members| then []
    else
      var m := v.members[i];
      assert Props(v)[i] == m;
      var rest := SerializeMembers(v, i + 1);
      if m.value.Undefined? then rest
      else
        var s := Serialize(m.value);
        assert !s.Undefined?;
        [Member(m.key, s)] + rest
  }

  /** What loading the configuration produced: the normalised configuration,
      and the file contents written back, if any. */
  datatype Loaded = Loaded(config: seq<Member>, written: Option<Value>)

  /** `loadConfig` of the current version: validate, normalise, write back
      when `deepEqual` says the normalised configuration differs. */
  function LoadConfig(file: seq<Member>, schema: Value, resolve: Resolver): (r: Result<Loaded, ConfigError>)
    ensures Validate(Obj(file), schema, []).Some? ==> r == Err(Validate(Obj(file), schema, []).value)
    ensures Validate(Obj(file), schema, []).None? ==> (r.Ok? <==> NormalizeConfig(file, resolve).Ok?)
    ensures Validate(Obj(file), schema, []).None? && r.Err? ==> r.error == NormalizeConfig(file, resolve).error
    ensures r.Ok? ==> Ok(r.value.config) == NormalizeConfig(file, resolve)
    ensures r.Ok? ==> (r.value.written.Some? <==> !DeepEqual.DeepEqual(Obj(file), Obj(r.value.config)))
    ensures r.Ok? && r.value.written.Some? ==> r.value.written.value == Serialize(Obj(r.value.config))
  {
    match Validate(Obj(file), schema, [])
    case Some(e) => Err(e)
    case None =>
      var normalized :- NormalizeConfig(file, resolve);
      var same := DeepEqual.DeepEqual(Obj(file), Obj(normalized));
      Ok(Loaded(normalized, if same then None else Some(Serialize(Obj(normalized)))))
  }

  /** `loadConfig` of the older version: no validation, the same write-back rule. */
  function LegacyLoadConfig(file: seq<Member>, resolve: Resolver): (r: Result<Loaded, ConfigError>)
    ensures r.Ok? <==> NormalizeConfig(file, resolve).Ok?
    ensures r.Err? ==> r.error == NormalizeConfig(file, resolve).error
    ensures r.Ok? ==> Ok(r.value.config) == NormalizeConfig(file, resolve)
    ensures r.Ok? ==> (r.value.written.Some? <==> !DeepEqual.DeepEqual(Obj(file), Obj(r.value.config)))
    ensures r.Ok? && r.value.written.Some? ==> r.value.written.value == Serialize(Obj(r.value.config))
  {
    var normalized :- NormalizeConfig(file, resolve);
    var same := DeepEqual.DeepEqual(Obj(file), Obj(normalized));
    Ok(Loaded(normalized, if same then None else Some(Serialize(Obj(normalized)))))
  }

  /** A list element that is not a string: the older version keeps a number
      as it is (the URL constructor throws and the `catch` returns it), while
      the current version throws at `channel.match`, so the whole load fails.
      An array holding one bare ID passes the current bare-ID test as it is. */
  lemma NonStringElementVersions(isUrl: Value -> bool, search: Value -> ChannelRef.Search,
                                 race: string -> ChannelRef.Race, id: string)
    requires ChannelRef.NeedsScheme(isUrl)
    requires ChannelRef.IsChannelId(id)
    ensures var file := [Member(WhitelistKey, Arr([Num(5)]))];
      && LegacyLoadConfig(file, LegacyResolver(isUrl, search)).Ok?
      && Lookup(LegacyLoadConfig(file, LegacyResolver(isUrl, search)).value.config, WhitelistKey) == Arr([Num(5)])
    ensures NormalizeConfig([Member(WhitelistKey, Arr([Num(5)]))], CurrentResolver(race))
      == Err(NonStringReference(Num(5)))
    ensures CurrentResolver(race)(Arr([Str(id)])) == Ok(Arr([Str(id)]))
  {
    var file := [Member(WhitelistKey, Arr([Num(5)]))];
    ChannelRef.LegacyNonStringUnchanged(Num(5), isUrl, search);
    assert Lookup(file, WhitelistKey) == Arr([Num(5)]);
    assert Lookup(file, BlacklistKey) == Undefined;
    var legacy := LegacyResolver(isUrl, search);
    assert legacy(Num(5)) == Ok(Num(5));
    var all := ResolveAll([Num(5)], legacy);
    assert all.Ok? && |all.value| == 1 && legacy(Num(5)) == Ok(all.value[0]);
    assert all.value == [Num(5)];
    var n := NormalizeConfig(file, legacy);
    assert WithoutLists(file) == [];
    assert n.value == [Member(WhitelistKey, Arr([Num(5)])), Member(BlacklistKey, Undefined)];
    assert ChannelRef.IdText(Arr([Str(id)])) by {
      assert ChannelRef.IdText(Str(id));
    }
  }

  lemma TailUnique(ms: seq<Member>)
    requires UniqueKeys(ms) && |ms| > 0
    ensures UniqueKeys(ms[1..])
    ensures forall m :: m in ms[1..] ==> m.key != ms[0].key
  {
    var tl := ms[1..];
    forall i, j | 0 <= i < j < |tl| ensures tl[i].key != tl[j].key {
      assert tl[i] == ms[i + 1] && tl[j] == ms[j + 1];
    }
    forall m | m in tl ensures m.key != ms[0].key {
      var i :| 0 <= i < |tl| && tl[i] == m;
      assert tl[i] == ms[i + 1];
    }
  }

  /** Dropping the list members keeps the keys distinct. */
  lemma {:induction false} WithoutListsUnique(ms: seq<Member>)
    requires UniqueKeys(ms)
    ensures UniqueKeys(WithoutLists(ms))
  {
    if |ms| > 0 {
      var tl := ms[1..];
      TailUnique(ms);
      WithoutListsUnique(tl);
      var rt := WithoutLists(tl);
      if ms[0].key != WhitelistKey && ms[0].key != BlacklistKey {
        assert WithoutLists(ms) == [ms[0]] + rt;
        ConsUnique(ms[0], rt);
      }
    }
  }

  /** A member whose key the rest lacks keeps the keys distinct. */
  lemma ConsUnique(m: Member, rest: seq<Member>)
    requires UniqueKeys(rest)
    requires forall x :: x in rest ==> x.key != m.key
    ensures UniqueKeys([m] + rest)
  {
    var r := [m] + rest;
    forall i, j | 0 <= i < j < |r| ensures r[i].key != r[j].key {
      assert r[j] == rest[j - 1];
      if i > 0 {
        assert r[i] == rest[i - 1];
      } else {
        assert r[j] in rest;
      }
    }
  }

  /** With distinct keys, dropping the two list members shortens the member
      list by the number of list keys present. */
  lemma {:induction false} DroppedCount(ms: seq<Member>)
    requires UniqueKeys(ms)
    ensures |ms| - |WithoutLists(ms)| ==
      (if KeyIndex(ms, WhitelistKey) < |ms| then 1 else 0) + (if KeyIndex(ms, BlacklistKey) < |ms| then 1 else 0)
  {
    if |ms| > 0 {
      var tl := ms[1..];
      TailUnique(ms);
      DroppedCount(tl);
      if ms[0].key == WhitelistKey {
        AbsentKey(tl, WhitelistKey);
      } else if ms[0].key == BlacklistKey {
        AbsentKey(tl, BlacklistKey);
      }
    }
  }

  lemma {:induction false} AbsentKey(ms: seq<Member>, k: string)
    requires forall m :: m in ms ==> m.key != k
    ensures KeyIndex(ms, k) == |ms|
  {
    if |ms| > 0 {
      assert ms[0] in ms;
      assert forall m :: m in ms[1..] ==> m in ms;
      AbsentKey(ms[1..], k);
    }
  }

  /** A configuration whose lists are present and hold only channel IDs is not
      written back: normalisation only moves the two lists to the end, and
      `deepEqual` ignores key order. */
  lemma CanonicalConfigNotRewritten(file: seq<Member>, schema: Value, race: string -> ChannelRef.Race)
    requires WellFormed(Obj(file))
    requires Validate(Obj(file), schema, []).None?
    requires KeyIndex(file, WhitelistKey) < |file| && KeyIndex(file, BlacklistKey) < |file|
    requires Lookup(file, WhitelistKey).Arr? && CanonicalList(Lookup(file, WhitelistKey))
    requires Lookup(file, BlacklistKey).Arr? && CanonicalList(Lookup(file, BlacklistKey))
    ensures LoadConfig(file, schema, CurrentResolver(race)).Ok?
    ensures LoadConfig(file, schema, CurrentResolver(race)).value.written.None?
  {
    var resolve := CurrentResolver(race);
    var w, b := Lookup(file, WhitelistKey), Lookup(file, BlacklistKey);
    CanonicalListUnchanged(w, WhitelistKey, race);
    CanonicalListUnchanged(b, BlacklistKey, race);
    var n := NormalizeConfig(file, resolve).value;
    assert n == Reordered(file);
    ReorderedSameMembers(file);
    ReorderedWellFormed(file);
    DeepEqual.SameMembers(file, n);
  }

  /** The members of `file` with the two lists moved to the end. */
  function Reordered(file: seq<Member>): seq<Member> {
    WithoutLists(file) + [Member(WhitelistKey, Lookup(file, WhitelistKey)), Member(BlacklistKey, Lookup(file, BlacklistKey))]
  }

  lemma ReorderedSameMembers(file: seq<Member>)
    requires UniqueKeys(file)
    requires KeyIndex(file, WhitelistKey) < |file| && KeyIndex(file, BlacklistKey) < |file|
    ensures |Reordered(file)| == |file|
    ensures forall i :: 0 <= i < |file| ==> file[i] in Reordered(file)
    ensures forall j :: 0 <= j < |Reordered(file)| ==> Reordered(file)[j] in file
  {
    var n, rest := Reordered(file), WithoutLists(file);
    DroppedCount(file);
    var iw, ib := KeyIndex(file, WhitelistKey), KeyIndex(file, BlacklistKey);
    forall i | 0 <= i < |file| ensures file[i] in n {
      KeyIndexOfMember(file, i);
      if file[i].key != WhitelistKey && file[i].key != BlacklistKey {
        assert file[i] in rest;
      }
    }
    forall j | 0 <= j < |n| ensures n[j] in file {
      if j == |n| - 2 {
        assert n[j] == file[iw];
      } else if j == |n| - 1 {
        assert n[j] == file[ib];
      } else {
        assert n[j] in rest;
      }
    }
  }

  lemma ReorderedWellFormed(file: seq<Member>)
    requires WellFormed(Obj(file))
    requires KeyIndex(file, WhitelistKey) < |file| && KeyIndex(file, BlacklistKey) < |file|
    ensures WellFormed(Obj(Reordered(file)))
  {
    ReorderedSameMembers(file);
    ReorderedUnique(file);
    MembersWellFormed(file, Reordered(file));
  }

  /** An object whose members all come from a well-formed object, with
      distinct keys, is well-formed. */
  lemma MembersWellFormed(file: seq<Member>, n: seq<Member>)
    requires WellFormed(Obj(file)) && UniqueKeys(n)
    requires forall j :: 0 <= j < |n| ==> n[j] in file
    ensures WellFormed(Obj(n))
  {
    forall j | 0 <= j < |n| ensures WellFormed(n[j].value) {
      var i :| 0 <= i < |file| && file[i] == n[j];
    }
  }

  lemma ReorderedUnique(file: seq<Member>)
    requires UniqueKeys(file)
    ensures UniqueKeys(Reordered(file))
  {
    var n, rest := Reordered(file), WithoutLists(file);
    WithoutListsUnique(file);
    forall i, j | 0 <= i < j < |n| ensures n[i].key != n[j].key {
      if j < |rest| {
        assert n[i] == rest[i] && n[j] == rest[j];
      } else if i < |rest| {
        assert n[i] in rest;
      }
    }
  }

  /** A configuration without a whitelist key is always written back: the
      normalised object gains the key with value `undefined`, so the key
      counts differ. The file written then lacks the key again (`undefined`
      is not serialised), so every later load writes it once more. */
  lemma AbsentListForcesRewrite(file: seq<Member>, schema: Value, resolve: Resolver)
    requires UniqueKeys(file)
    requires KeyIndex(file, WhitelistKey) == |file|
    requires LoadConfig(file, schema, resolve).Ok?
    ensures LoadConfig(file, schema, resolve).value.written.Some?
    ensures Lookup(LoadConfig(file, schema, resolve).value.config, WhitelistKey) == Undefined
  {
    var n := NormalizeConfig(file, resolve).value;
    AbsentListNormalized(file, resolve);
    DeepEqual.KeyCountMismatch(Obj(file), Obj(n));
  }

  /** Normalising a file without a whitelist key adds the key, as `undefined`. */
  lemma AbsentListNormalized(file: seq<Member>, resolve: Resolver)
    requires UniqueKeys(file)
    requires KeyIndex(file, WhitelistKey) == |file|
    requires NormalizeConfig(file, resolve).Ok?
    ensures |NormalizeConfig(file, resolve).value| > |file|
    ensures Lookup(NormalizeConfig(file, resolve).value, WhitelistKey) == Undefined
  {
    var n := NormalizeConfig(file, resolve).value;
    var rest := WithoutLists(file);
    DroppedCount(file);
    assert Lookup(file, WhitelistKey) == Undefined;
    WithoutListsIdentity(file);
    NormalizedShape(rest, n[|n| - 2].value, n[|n| - 1].value);
  }
}

=== FILE: deep_equal.dfy ===
/** Structural equality of JavaScript values (`deepEqual`): two objects or
    arrays are equal when they have the same number of own keys and each side's
    keys are present in the other with deeply equal values; anything else is
    compared with `===`. */
module DeepEqual {
  import opened Json

  function DeepEqual(a: Value, b: Value): bool
    decreases Size(a) + Size(b), 1
  {
    if IsObject(a) && IsObject(b) then
      |Props(a)| == |Props(b)| && Covered(a, b) && Covered(b, a)
    else
      a == b
  }

  /** Every own key of object `a` is an own key of `b`, with deeply equal values. */
  predicate Covered(a: Value, b: Value)
    requires IsObject(a) && IsObject(b)
    decreases Size(a) + Size(b), 0
  {
    var pa := Props(a);
    forall i | 0 <= i < |pa| :: HasKey(b, pa[i].key) && DeepEqual(pa[i].value, Get(b, pa[i].key))
  }

  /** When either side is not an object the answer is strict equality. */
  lemma PrimitiveIsStrictEquality(a: Value, b: Value)
    requires !IsObject(a) || !IsObject(b)
    ensures DeepEqual(a, b) <==> a == b
  {
  }

  /** Objects or arrays with different numbers of own keys are unequal. */
  lemma KeyCountMismatch(a: Value, b: Value)
    requires IsObject(a) && IsObject(b) && |Props(a)| != |Props(b)|
    ensures !DeepEqual(a, b)
  {
  }

  /** Both key directions are checked, so the relation is symmetric. */
  lemma Symmetric(a: Value, b: Value)
    ensures DeepEqual(a, b) == DeepEqual(b, a)
  {
  }

  /** Every well-formed value is deeply equal to itself (there is no NaN here). */
  lemma {:induction false} Reflexive(a: Value)
    requires WellFormed(a)
    ensures DeepEqual(a, a)
    decreases Size(a)
  {
    if IsObject(a) {
      var pa := Props(a);
      forall i | 0 <= i < |pa|
        ensures HasKey(a, pa[i].key) && DeepEqual(pa[i].value, Get(a, pa[i].key))
      {
        KeyIndexOfMember(pa, i);
        Reflexive(pa[i].value);
      }
    }
  }

  /** Arrays are compared index by index: equal exactly when they have the same
      length and deeply equal elements at every index. */
  lemma ArraysIndexByIndex(xs: seq<Value>, ys: seq<Value>)
    ensures DeepEqual(Arr(xs), Arr(ys)) <==>
      |xs| == |ys| && forall i :: 0 <= i < |xs| ==> DeepEqual(xs[i], ys[i])
  {
    if |xs| == |ys| {
      CoveredIndexByIndex(xs, ys);
      CoveredIndexByIndex(ys, xs);
      forall i | 0 <= i < |xs| ensures DeepEqual(xs[i], ys[i]) == DeepEqual(ys[i], xs[i]) {
        Symmetric(xs[i], ys[i]);
      }
    }
  }

  /** Between arrays of equal length, covering is elementwise deep equality. */
  lemma CoveredIndexByIndex(xs: seq<Value>, ys: seq<Value>)
    requires |xs| == |ys|
    ensures Covered(Arr(xs), Arr(ys)) <==> forall i :: 0 <= i < |xs| ==> DeepEqual(xs[i], ys[i])
  {
    IndexKeysAlign(xs, ys);
  }

  /** The `i`-th index key of one array names the `i`-th element of an array
      of the same length. */
  lemma IndexKeysAlign(xs: seq<Value>, ys: seq<Value>)
    requires |xs| == |ys|
    ensures forall i :: 0 <= i < |xs| ==>
      && Props(Arr(xs))[i].value == xs[i]
      && HasKey(Arr(ys), Props(Arr(xs))[i].key) && Get(Arr(ys), Props(Arr(xs))[i].key) == ys[i]
  {
    var pa, pb := Props(Arr(xs)), Props(Arr(ys));
    ArrayKeysUnique(ys);
    forall i | 0 <= i < |xs|
      ensures HasKey(Arr(ys), pa[i].key) && Get(Arr(ys), pa[i].key) == ys[i]
    {
      assert pa[i].key == pb[i].key;
      KeyIndexOfMember(pb, i);
    }
  }

  /** Two well-formed objects whose member lists hold the same members, in any
      order, are deeply equal: enumeration order does not matter. */
  lemma {:induction false} SameMembers(ms: seq<Member>, ns: seq<Member>)
    requires WellFormed(Obj(ms)) && WellFormed(Obj(ns))
    requires |ms| == |ns|
    requires forall i :: 0 <= i < |ms| ==> ms[i] in ns
    requires forall j :: 0 <= j < |ns| ==> ns[j] in ms
    ensures DeepEqual(Obj(ms), Obj(ns))
  {
    CoveredByMembers(ms, ns);
    CoveredByMembers(ns, ms);
  }

  /** Each member of `ms` appearing in `ns` makes `Obj(ms)` covered by `Obj(ns)`. */
  lemma CoveredByMembers(ms: seq<Member>, ns: seq<Member>)
    requires WellFormed(Obj(ms)) && WellFormed(Obj(ns))
    requires forall i :: 0 <= i < |ms| ==> ms[i] in ns
    ensures Covered(Obj(ms), Obj(ns))
  {
    var b := Obj(ns);
    forall i | 0 <= i < |ms|
      ensures HasKey(b, ms[i].key) && DeepEqual(ms[i].value, Get(b, ms[i].key))
    {
      var j :| 0 <= j < |ns| && ns[j] == ms[i];
      KeyIndexOfMember(ns, j);
      Reflexive(ms[i].value);
    }
  }
}

=== FILE: find_nullish.dfy ===
/** `findNullishValues`: the keys of an object whose values are missing, used
    to report which required fields an API record lacked. */
module FindNullish {
  import opened Json

  /** The keys of a member list, in order. */
  function Keys(ms: seq<Member>): (ks: seq<string>)
    ensures |ks| == |ms|
    ensures forall i :: 0 <= i < |ms| ==> ks[i] == ms[i].key
  {
    if |ms| == 0 then [] else [ms[0].key] + Keys(ms[1..])
  }

  /** `xs` is `ys` with some elements removed, the rest kept in order. */
  predicate IsSubsequence<T(==)>(xs: seq<T>, ys: seq<T>)
    decreases |ys|
  {
    if |xs| == 0 then true
    else if |ys| == 0 then false
    else if xs[0] == ys[0] then IsSubsequence(xs[1..], ys[1..])
    else IsSubsequence(xs, ys[1..])
  }

  /** The code as written: keys whose value is strictly `null`. */
  function FindNullishValues(ms: seq<Member>): (r: seq<string>)
    ensures |r| <= |ms|
    ensures forall k :: k in r <==> exists i :: 0 <= i < |ms| && ms[i].key == k && ms[i].value == Null
  {
    if |ms| == 0 then []
    else
      var rest := FindNullishValues(ms[1..]);
      assert forall i :: 1 <= i < |ms| ==> ms[i] == ms[1..][i - 1];
      if ms[0].value == Null then [ms[0].key] + rest else rest
  }

  /** With distinct keys, a key is reported exactly when its own value is `null`. */
  lemma KeyReported(ms: seq<Member>, i: int)
    requires UniqueKeys(ms) && 0 <= i < |ms|
    ensures ms[i].key in FindNullishValues(ms) <==> ms[i].value == Null
  {
  }

  /** The reported keys appear in the object's key order. */
  lemma {:induction false} NullishKeepsOrder(ms: seq<Member>)
    ensures IsSubsequence(FindNullishValues(ms), Keys(ms))
  {
    if |ms| > 0 {
      NullishKeepsOrder(ms[1..]);
      assert Keys(ms)[1..] == Keys(ms[1..]);
      if ms[0].value != Null {
        SubsequenceOfTail(FindNullishValues(ms[1..]), Keys(ms));
      }
    }
  }

  lemma SubsequenceOfTail<T>(xs: seq<T>, ys: seq<T>)
    requires |ys| > 0 && IsSubsequence(xs, ys[1..])
    ensures IsSubsequence(xs, ys)
    decreases |ys|, 0
  {
    if |xs| > 0 && xs[0] == ys[0] {
      DropHead(xs, ys[1..]);
    }
  }

  lemma DropHead<T>(xs: seq<T>, zs: seq<T>)
    requires |xs| > 0 && IsSubsequence(xs, zs)
    ensures IsSubsequence(xs[1..], zs)
    decreases |zs|, 1
  {
    if xs[0] != zs[0] {
      DropHead(xs, zs[1..]);
    }
    SubsequenceOfTail(xs[1..], zs);
  }

  /** A key whose value is `undefined` is not reported, although the helper is
      documented as returning the keys of all nullish values. */
  lemma UndefinedNotReported()
    ensures FindNullishValues([Member("title", Undefined), Member("channelId", Str("UC"))]) == []
  {
  }

  /** The documented intent: keys whose value is `null` or `undefined`. */
  function FindMissingValues(ms: seq<Member>): (r: seq<string>)
    ensures |r| <= |ms|
    ensures forall k :: k in r <==>
      exists i :: 0 <= i < |ms| && ms[i].key == k && (ms[i].value == Null || ms[i].value == Undefined)
  {
    if |ms| == 0 then []
    else
      var rest := FindMissingValues(ms[1..]);
      assert forall i :: 1 <= i < |ms| ==> ms[i] == ms[1..][i - 1];
      if ms[0].value == Null || ms[0].value == Undefined then [ms[0].key] + rest else rest
  }

  /** The corrected helper reports the absent field. */
  lemma UndefinedReported()
    ensures FindMissingValues([Member("title", Undefined), Member("channelId", Str("UC"))]) == ["title"]
  {
  }
}

=== FILE: index_legacy.dfy ===
/** `main` of the earliest JavaScript version: walk the subscriptions and,
    per channel, the uploads from newest to oldest, e-mailing each video
    until the first one already settled; then mark the channel's rows
    settled. Any exception ends the whole run, keeping the rows written so
    far. */
module IndexLegacy {
  import opened Common
  import opened Store
  import Clock

  /** A subscription as the loop reads it: `snippet.resourceId.channelId`,
      `snippet.title`, the `url` of the `high` thumbnail (`None` when `high`
      is absent) and `contentDetails.activityType`. */
  datatype LegacySubscription = LegacySubscription(
    channelId: ChannelId,
    channelName: string,
    thumbnailHigh: Option<string>,
    activityType: string)

  /** A search result: `id.videoId`, `snippet.title`, the `high` thumbnail
      and `contentDetails.duration` (`None` when absent). */
  datatype SearchVideo = SearchVideo(videoId: VideoId, title: string, thumbnailHigh: Option<string>, duration: Option<string>)

  /** A `videos` row of this version's schema. */
  datatype Row = Row(channelId: ChannelId, settled: bool)

  type Table = map<VideoId, Row>

  /** The values handed to the e-mail template. */
  datatype IndexEmail = IndexEmail(
    channelId: ChannelId,
    channelName: string,
    channelThumbnail: string,
    videoId: VideoId,
    videoThumbnail: string,
    videoTitle: string,
    videoDuration: string)

  /** The uploads the channel iterator yields, newest first, and the mail
      transport (`true` when it accepts). */
  datatype IndexEnv = IndexEnv(uploads: ChannelId -> seq<SearchVideo>, send: IndexEmail -> bool)

  /** The table, every e-mail handed to the transport, and whether an
      exception has ended the run. */
  datatype Run = Run(table: Table, emails: seq<IndexEmail>, crashed: bool)

  /** The videos of channel `c` that count as handled: settled rows only. */
  function Settled(table: Table, c: ChannelId): (r: set<VideoId>)
    ensures forall v :: v in r <==> v in table && table[v] == Row(c, true)
  {
    set v | v in table && table[v].channelId == c && table[v].settled
  }

  /** `UPDATE videos SET settled=true WHERE channelId=c AND settled=false`. */
  function SettleChannel(table: Table, c: ChannelId): (r: Table)
    ensures r.Keys == table.Keys
    ensures forall v :: v in r ==> r[v].channelId == table[v].channelId
    ensures forall v :: v in r ==> (r[v].settled <==> table[v].settled || table[v].channelId == c)
  {
    map v | v in table :: if table[v].channelId == c then Row(c, true) else table[v]
  }

  /** After the update the channel's handled set is every video recorded for
      it, already settled or not; every other channel's handled set is as it
      was; and repeating the update changes nothing. */
  lemma SettleChannelSettles(table: Table, c: ChannelId, other: ChannelId)
    ensures Settled(SettleChannel(table, c), c) == set v | v in table && table[v].channelId == c
    ensures other != c ==> Settled(SettleChannel(table, c), other) == Settled(table, other)
    ensures SettleChannel(SettleChannel(table, c), c) == SettleChannel(table, c)
  {
    var r := SettleChannel(table, c);
    assert SettleChannel(r, c).Keys == r.Keys;
  }

  /** A search result the loop body reads without throwing. */
  predicate Buildable(v: SearchVideo) {
    v.thumbnailHigh.Some? && v.duration.Some?
  }

  /** The e-mail for a video. */
  function EmailOf(sub: LegacySubscription, v: SearchVideo): IndexEmail
    requires sub.thumbnailHigh.Some? && Buildable(v)
  {
    IndexEmail(sub.channelId, sub.channelName, sub.thumbnailHigh.value, v.videoId,
      v.thumbnailHigh.value, v.title, Clock.LegacyDuration(v.duration.value))
  }

  /** The new rows of `r` are unsettled rows of channel `c`, and earlier rows
      are untouched. */
  ghost predicate InsertedUnsettled(before: Table, c: ChannelId, r: Table) {
    && (forall v :: v in before ==> v in r && r[v] == before[v])
    && (forall v :: v in r && v !in before ==> r[v] == Row(c, false))
  }

  /** The video loop of one channel: stop at the first settled video,
      otherwise insert the video unsettled and send its e-mail. A missing
      thumbnail or duration, a `videoId` already in the table (UNIQUE) and a
      refused e-mail all throw out of the run. */
  function VideoLoop(sub: LegacySubscription, videos: seq<SearchVideo>, settled: set<VideoId>, env: IndexEnv, run: Run): (r: Run)
    requires sub.thumbnailHigh.Some?
    ensures run.crashed ==> r == run
    ensures run.emails <= r.emails
    ensures InsertedUnsettled(run.table, sub.channelId, r.table)
    ensures forall i :: |run.emails| <= i < |r.emails| ==>
      && r.emails[i].channelId == sub.channelId && r.emails[i].videoId !in settled
      && r.emails[i].videoId !in run.table && r.emails[i].videoId in r.table
    decreases |videos|
  {
    if |videos| == 0 || run.crashed then run
    else
      var v := videos[0];
      if !Buildable(v) then run.(crashed := true)
      else if v.videoId in settled then run
      else if v.videoId in run.table then run.(crashed := true)
      else
        var email := EmailOf(sub, v);
        var sent := Run(run.table[v.videoId := Row(sub.channelId, false)], run.emails + [email], false);
        if !env.send(email) then sent.(crashed := true)
        else
          var r := VideoLoop(sub, videos[1..], settled, env, sent);
          assert r.emails[|run.emails|] == email;
          r
  }

  /** The first `n` uploads are buildable and not settled, and `r` e-mailed
      exactly them, in order. */
  ghost predicate SentPrefix(sub: LegacySubscription, videos: seq<SearchVideo>, settled: set<VideoId>, run: Run, r: Run, n: nat)
    requires sub.thumbnailHigh.Some?
  {
    && n <= |videos| && run.emails <= r.emails && |r.emails| == |run.emails| + n
    && (forall k :: 0 <= k < n ==>
          && Buildable(videos[k]) && videos[k].videoId !in settled
          && r.emails[|run.emails| + k] == EmailOf(sub, videos[k]))
  }

  /** The loop e-mails a prefix of the uploads, all new and buildable, and
      when it ends without an exception it stopped at a settled video or
      ran out of uploads. */
  lemma {:induction false} VideoLoopPrefix(sub: LegacySubscription, videos: seq<SearchVideo>, settled: set<VideoId>, env: IndexEnv, run: Run)
    returns (n: nat)
    requires sub.thumbnailHigh.Some? && !run.crashed
    ensures SentPrefix(sub, videos, settled, run, VideoLoop(sub, videos, settled, env, run), n)
    ensures !VideoLoop(sub, videos, settled, env, run).crashed && n < |videos| ==> videos[n].videoId in settled
    decreases |videos|
  {
    if |videos| == 0 || !Buildable(videos[0]) || videos[0].videoId in settled || videos[0].videoId in run.table {
      n := 0;
      PrefixEmpty(sub, videos, settled, env, run);
    } else if !env.send(EmailOf(sub, videos[0])) {
      n := 1;
      PrefixRefused(sub, videos, settled, env, run);
    } else {
      var v := videos[0];
      var sent := Run(run.table[v.videoId := Row(sub.channelId, false)], run.emails + [EmailOf(sub, v)], false);
      var m := VideoLoopPrefix(sub, videos[1..], settled, env, sent);
      n := m + 1;
      assert VideoLoop(sub, videos, settled, env, run) == VideoLoop(sub, videos[1..], settled, env, sent);
      PrefixCons(sub, videos, settled, run, sent, VideoLoop(sub, videos[1..], settled, env, sent), m);
    }
  }

  lemma PrefixEmpty(sub: LegacySubscription, videos: seq<SearchVideo>, settled: set<VideoId>, env: IndexEnv, run: Run)
    requires sub.thumbnailHigh.Some? && !run.crashed
    requires |videos| == 0 || !Buildable(videos[0]) || videos[0].videoId in settled || videos[0].videoId in run.table
    ensures SentPrefix(sub, videos, settled, run, VideoLoop(sub, videos, settled, env, run), 0)
    ensures !VideoLoop(sub, videos, settled, env, run).crashed && 0 < |videos| ==> videos[0].videoId in settled
  {
  }

  lemma PrefixRefused(sub: LegacySubscription, videos: seq<SearchVideo>, settled: set<VideoId>, env: IndexEnv, run: Run)
    requires sub.thumbnailHigh.Some? && !run.crashed && |videos| > 0
    requires Buildable(videos[0]) && videos[0].videoId !in settled && videos[0].videoId !in run.table
    requires !env.send(EmailOf(sub, videos[0]))
    ensures SentPrefix(sub, videos, settled, run, VideoLoop(sub, videos, settled, env, run), 1)
    ensures VideoLoop(sub, videos, settled, env, run).crashed
  {
  }

  lemma PrefixCons(sub: LegacySubscription, videos: seq<SearchVideo>, settled: set<VideoId>, run: Run, sent: Run, r: Run, m: nat)
    requires sub.thumbnailHigh.Some? && |videos| > 0
    requires Buildable(videos[0]) && videos[0].videoId !in settled
    requires sent.emails == run.emails + [EmailOf(sub, videos[0])]
    requires SentPrefix(sub, videos[1..], settled, sent, r, m)
    ensures SentPrefix(sub, videos, settled, run, r, m + 1)
  {
    forall k | 0 < k < m + 1
      ensures && Buildable(videos[k]) && videos[k].videoId !in settled
              && r.emails[|run.emails| + k] == EmailOf(sub, videos[k])
    {
      assert videos[k] == videos[1..][k - 1];
      assert |run.emails| + k == |sent.emails| + (k - 1);
    }
    assert r.emails[|run.emails|] == sent.emails[|run.emails|];
  }

  /** One subscription. The channel thumbnail is read before the
      `activityType` test, so a missing one throws even for a skipped
      subscription. After the video loop the channel's rows are settled. */
  function ChannelStep(sub: LegacySubscription, env: IndexEnv, run: Run): (r: Run)
    ensures run.crashed ==> r == run
    ensures run.emails <= r.emails
    ensures sub.thumbnailHigh.Some? && sub.activityType != "all" ==> r == run
    ensures !r.crashed && sub.activityType == "all" ==>
      forall v :: v in r.table && r.table[v].channelId == sub.channelId ==> r.table[v].settled
    ensures forall v :: v in run.table ==>
      && v in r.table && r.table[v].channelId == run.table[v].channelId
      && (run.table[v].settled ==> r.table[v].settled)
      && (run.table[v].channelId != sub.channelId ==> r.table[v] == run.table[v])
  {
    if run.crashed then run
    else if sub.thumbnailHigh.None? then run.(crashed := true)
    else if sub.activityType != "all" then run
    else
      var looped := VideoLoop(sub, env.uploads(sub.channelId), Settled(run.table, sub.channelId), env, run);
      if looped.crashed then looped
      else looped.(table := SettleChannel(looped.table, sub.channelId))
  }

  /** Rows are never removed, never move to another channel and never
      become unsettled again. */
  ghost predicate Keeps(before: Table, after: Table) {
    forall v :: v in before ==>
      && v in after && after[v].channelId == before[v].channelId
      && (before[v].settled ==> after[v].settled)
  }

  /** The subscription loop of `main`. */
  function Main(subs: seq<LegacySubscription>, env: IndexEnv, run: Run): (r: Run)
    ensures run.crashed ==> r == run
    ensures run.emails <= r.emails
    ensures Keeps(run.table, r.table)
    decreases |subs|
  {
    if |subs| == 0 || run.crashed then run
    else Main(subs[1..], env, ChannelStep(subs[0], env, run))
  }

  /** An exception in one subscription ends the run: no later subscription
      is looked at. */
  lemma CrashEndsRun(subs: seq<LegacySubscription>, env: IndexEnv, run: Run)
    requires |subs| > 0 && ChannelStep(subs[0], env, run).crashed
    ensures Main(subs, env, run) == ChannelStep(subs[0], env, run)
  {
  }

  /** Every e-mail of a channel is for a video inserted, unsettled, just
      before it, and only settled rows stop the scan. */
  lemma EmailedVideosInserted(sub: LegacySubscription, env: IndexEnv, run: Run)
    requires !run.crashed && sub.thumbnailHigh.Some? && sub.activityType == "all"
    ensures var looped := VideoLoop(sub, env.uploads(sub.channelId), Settled(run.table, sub.channelId), env, run);
      forall i :: |run.emails| <= i < |looped.emails| ==>
        looped.emails[i].videoId !in run.table && looped.table[looped.emails[i].videoId] == Row(sub.channelId, false)
  {
  }

  /** The scenario the comment at the insert anticipates: an e-mail refused
      after its row went in leaves an unsettled row; on the next run that
      video is not among the settled ones, so the loop reaches it again and
      the insert throws on the UNIQUE `videoId`. The run ends there, with no
      e-mail, every time. */
  lemma UnsettledRowBlocksChannel(sub: LegacySubscription, env: IndexEnv, run: Run)
    requires !run.crashed && sub.thumbnailHigh.Some? && sub.activityType == "all"
    requires |env.uploads(sub.channelId)| > 0
    requires var v := env.uploads(sub.channelId)[0];
      Buildable(v) && v.videoId in run.table && run.table[v.videoId] == Row(sub.channelId, false)
    ensures ChannelStep(sub, env, run) == run.(crashed := true)
  {
  }

  /** A refused e-mail is the first half of that scenario: the run ends
      with the video's row present and unsettled. */
  lemma RefusedLeavesUnsettledRow(sub: LegacySubscription, env: IndexEnv, run: Run)
    requires !run.crashed && sub.thumbnailHigh.Some? && sub.activityType == "all"
    requires |env.uploads(sub.channelId)| > 0
    requires var v := env.uploads(sub.channelId)[0];
      Buildable(v) && v.videoId !in run.table && !env.send(EmailOf(sub, v))
    ensures var v := env.uploads(sub.channelId)[0];
      var r := ChannelStep(sub, env, run);
      r.crashed && r.table == run.table[v.videoId := Row(sub.channelId, false)] &&
      r.emails == run.emails + [EmailOf(sub, v)]
  {
  }

  /** When the first new upload of a followed channel comes without
      `contentDetails.duration`, reading it throws and ends the run before
      any e-mail. */
  lemma MissingDurationEndsRun(subs: seq<LegacySubscription>, env: IndexEnv, run: Run)
    requires !run.crashed && |subs| > 0
    requires var sub := subs[0];
      sub.thumbnailHigh.Some? && sub.activityType == "all" && |env.uploads(sub.channelId)| > 0 &&
      env.uploads(sub.channelId)[0].duration.None?
    ensures Main(subs, env, run) == run.(crashed := true)
  {
  }
}

=== FILE: json.dfy ===
/** JavaScript values as they appear in a parsed configuration or an API
    response: the JSON kinds plus `undefined`. Numbers are integers here. */
module Json {
  import opened Common
  import Text

  /** One own property of an object: a key and its value. */
  datatype Member = Member(key: string, value: Value)

  datatype Value =
    | Undefined
    | Null
    | Bool(b: bool)
    | Num(n: int)
    | Str(s: string)
    | Arr(items: seq<Value>)
    | Obj(members: seq<Member>)

  /** `typeof v == 'object' && v != null`: arrays and plain objects. */
  predicate IsObject(v: Value) {
    v.Arr? || v.Obj?
  }

  /** JavaScript falsiness; every object and array is truthy. */
  predicate Falsy(v: Value) {
    v.Undefined? || v.Null? || v == Bool(false) || v == Num(0) || v == Str("")
  }

  /** The key under which an array stores its `i`-th element. */
  function IndexKey(i: nat): string {
    Text.NatToString(i)
  }

  /** A structural size, used to show that recursion over two trees terminates. */
  function Size(v: Value): nat {
    match v
    case Arr(items) => 1 + SizeItems(items)
    case Obj(members) => 1 + SizeMembers(members)
    case _ => 1
  }

  function SizeItems(items: seq<Value>): nat {
    if |items| == 0 then 0 else Size(items[0]) + SizeItems(items[1..])
  }

  function SizeMembers(members: seq<Member>): nat {
    if |members| == 0 then 0 else Size(members[0].value) + SizeMembers(members[1..])
  }

  lemma {:induction false} ItemSmaller(items: seq<Value>, i: nat)
    requires i < |items|
    ensures Size(items[i]) <= SizeItems(items)
  {
    if i > 0 {
      ItemSmaller(items[1..], i - 1);
    }
  }

  lemma {:induction false} MemberSmaller(members: seq<Member>, i: nat)
    requires i < |members|
    ensures Size(members[i].value) <= SizeMembers(members)
  {
    if i > 0 {
      MemberSmaller(members[1..], i - 1);
    }
  }

  /** The own enumerable properties of an object or array, in enumeration order
      (`Object.entries`): array elements appear under their index keys. */
  function Props(v: Value): (ps: seq<Member>)
    requires IsObject(v)
    ensures v.Obj? ==> ps == v.members
    ensures v.Arr? ==> |ps| == |v.items|
    ensures v.Arr? ==> forall i :: 0 <= i < |ps| ==> ps[i] == Member(IndexKey(i), v.items[i])
    ensures forall i :: 0 <= i < |ps| ==> Size(ps[i].value) < Size(v)
  {
    if v.Obj? then
      forall i | 0 <= i < |v.members| ensures Size(v.members[i].value) < Size(v) {
        MemberSmaller(v.members, i);
      }
      v.members
    else
      forall i | 0 <= i < |v.items| ensures Size(v.items[i]) < Size(v) {
        ItemSmaller(v.items, i);
      }
      seq(|v.items|, i requires 0 <= i < |v.items| => Member(IndexKey(i), v.items[i]))
  }

  /** The position of the first member with key `k`, or |ms| when there is none. */
  function KeyIndex(ms: seq<Member>, k: string): (i: nat)
    ensures i <= |ms|
    ensures i < |ms| ==> ms[i].key == k
    ensures forall j :: 0 <= j < i ==> ms[j].key != k
  {
    if |ms| == 0 then 0 else if ms[0].key == k then 0 else 1 + KeyIndex(ms[1..], k)
  }

  /** `k` is an own key of `v` (the `in` operator, ignoring the prototype chain). */
  predicate HasKey(v: Value, k: string)
    requires IsObject(v)
  {
    KeyIndex(Props(v), k) < |Props(v)|
  }

  /** `v[k]` for an own key `k`. */
  function Get(v: Value, k: string): (r: Value)
    requires IsObject(v) && HasKey(v, k)
    ensures Size(r) < Size(v)
  {
    Props(v)[KeyIndex(Props(v), k)].value
  }

  /** `o[k]` on an object's member list; `undefined` when the key is absent. */
  function Lookup(ms: seq<Member>, k: string): Value {
    var i := KeyIndex(ms, k);
    if i < |ms| then ms[i].value else Undefined
  }

  predicate UniqueKeys(ms: seq<Member>) {
    forall i, j :: 0 <= i < j < |ms| ==> ms[i].key != ms[j].key
  }

  /** Every object in the tree has distinct keys, as a JavaScript object does. */
  predicate WellFormed(v: Value)
    decreases Size(v)
  {
    IsObject(v) ==>
      && UniqueKeys(Props(v))
      && forall i :: 0 <= i < |Props(v)| ==> WellFormed(Props(v)[i].value)
  }

  /** Array index keys never repeat, so the uniqueness part of WellFormed is automatic for arrays. */
  lemma ArrayKeysUnique(items: seq<Value>)
    ensures UniqueKeys(Props(Arr(items)))
  {
    var ps := Props(Arr(items));
    forall i, j | 0 <= i < j < |ps| ensures ps[i].key != ps[j].key {
      if ps[i].key == ps[j].key {
        Text.NatToStringInjective(i, j);
      }
    }
  }

  /** With unique keys, looking up a member's key finds that member. */
  lemma KeyIndexOfMember(ms: seq<Member>, i: nat)
    requires UniqueKeys(ms) && i < |ms|
    ensures KeyIndex(ms, ms[i].key) == i
  {
  }
}

=== FILE: pager.dfy ===
/** The cursor pager behind `subscriptionIterator` and `channelVideoIterator`:
    call the listing endpoint with `pageToken` null, then with each response's
    `nextPageToken`, yielding the items of the pages. Two generations are
    modelled: the current do-while loop and the older loop that returns as soon
    as a response has no token.

    The remote endpoint is the sequence `responses`: the i-th call is answered
    by `responses[i]`. When the answers run out before the loop would stop, the
    run is `Pending`: the model does not know what the endpoint would say next. */
module Pager {

  /** A page token as the client sees it: `undefined`, `null` or a string. */
  datatype Token = Absent | NullToken | Cursor(s: string)

  /** JavaScript truthiness of a token. */
  predicate Truthy(t: Token) {
    t.Cursor? && t.s != ""
  }

  /** One listing response: `data.items` and `data.nextPageToken`. */
  datatype Page<T> = Page(items: seq<T>, next: Token)

  /** The requests made (their `pageToken`s) and the items yielded. */
  datatype Run<T> =
    | Finished(requests: seq<Token>, items: seq<T>)
    | Pending(requests: seq<Token>, items: seq<T>)

  /** All items of the pages, page by page, in order. */
  function Flatten<T>(pages: seq<Page<T>>): seq<T> {
    if |pages| == 0 then [] else pages[0].items + Flatten(pages[1..])
  }

  /** The token sent with each request: null first, then each answered
      response's `nextPageToken`. */
  ghost predicate ChainsTokens<T>(requests: seq<Token>, responses: seq<Page<T>>, first: Token) {
    && |requests| <= |responses|
    && (|requests| > 0 ==> requests[0] == first)
    && forall i :: 0 < i < |requests| ==> requests[i] == responses[i - 1].next
  }

  /** The do-while loop of the current iterator, started with `token`. */
  function CollectFrom<T>(responses: seq<Page<T>>, token: Token): (r: Run<T>)
    ensures ChainsTokens(r.requests, responses, token)
    ensures r.Finished? ==> 0 < |r.requests| && !Truthy(responses[|r.requests| - 1].next)
    ensures r.Pending? ==> |r.requests| == |responses|
    ensures r.Pending? ==> forall i :: 0 <= i < |responses| ==> Truthy(responses[i].next)
    ensures forall i :: 0 <= i < |r.requests| - 1 ==> Truthy(responses[i].next)
    ensures r.items == Flatten(responses[..|r.requests|])
    decreases |responses|
  {
    if |responses| == 0 then Pending([], [])
    else
      var page := responses[0];
      if !Truthy(page.next) then
        assert responses[..1][1..] == [];
        Finished([token], page.items)
      else
        var rest := CollectFrom(responses[1..], page.next);
        var n := |rest.requests| + 1;
        assert responses[..n][1..] == responses[1..][..n - 1];
        var requests := [token] + rest.requests;
        var items := page.items + rest.items;
        if rest.Finished? then Finished(requests, items) else Pending(requests, items)
  }

  /** `_genericIterator` of the current version: the first request carries a
      null token. */
  function Collect<T>(responses: seq<Page<T>>): (r: Run<T>)
    ensures ChainsTokens(r.requests, responses, NullToken)
    ensures r.items == Flatten(responses[..|r.requests|])
  {
    CollectFrom(responses, NullToken)
  }

  /** The index of the first response whose token is falsy. */
  function FirstFalsy<T>(responses: seq<Page<T>>): (k: nat)
    ensures k <= |responses|
    ensures k < |responses| ==> !Truthy(responses[k].next)
    ensures forall i :: 0 <= i < k ==> Truthy(responses[i].next)
  {
    if |responses| == 0 then 0
    else if !Truthy(responses[0].next) then 0
    else 1 + FirstFalsy(responses[1..])
  }

  /** The number of requests is the index of the first falsy-token response
      plus one, and all pages up to and including it are yielded; an empty
      listing still costs one request. */
  lemma {:induction false} CollectStopsAtFirstFalsy<T>(responses: seq<Page<T>>)
    requires FirstFalsy(responses) < |responses|
    ensures Collect(responses).Finished?
    ensures |Collect(responses).requests| == FirstFalsy(responses) + 1
    ensures Collect(responses).items == Flatten(responses[..FirstFalsy(responses) + 1])
  {
    var r := Collect(responses);
    var k := FirstFalsy(responses);
    assert r.Finished?;
    assert |r.requests| - 1 == k;
  }

  /** The older loop: it reads the token, returns when it is `undefined`, and
      only otherwise yields the page's items. */
  function CollectLegacyFrom<T>(responses: seq<Page<T>>, token: Token): (r: Run<T>)
    ensures ChainsTokens(r.requests, responses, token)
    ensures r.Finished? ==> 0 < |r.requests| && responses[|r.requests| - 1].next == Absent
    ensures r.Finished? ==> r.items == Flatten(responses[..|r.requests| - 1])
    ensures r.Pending? ==> |r.requests| == |responses| && r.items == Flatten(responses)
    ensures r.Pending? ==> forall i :: 0 <= i < |responses| ==> responses[i].next != Absent
    ensures forall i :: 0 <= i < |r.requests| - 1 ==> responses[i].next != Absent
    decreases |responses|
  {
    if |responses| == 0 then Pending([], [])
    else
      var page := responses[0];
      if page.next == Absent then
        assert responses[..0] == [];
        Finished([token], [])
      else
        var rest := CollectLegacyFrom(responses[1..], page.next);
        var n := |rest.requests| + 1;
        if rest.Finished? then
          assert responses[..n - 1][1..] == responses[1..][..n - 2];
          Finished([token] + rest.requests, page.items + rest.items)
        else
          Pending([token] + rest.requests, page.items + rest.items)
  }

  /** `_genericIterator` of the older version. */
  function CollectLegacy<T>(responses: seq<Page<T>>): (r: Run<T>)
    ensures ChainsTokens(r.requests, responses, NullToken)
  {
    CollectLegacyFrom(responses, NullToken)
  }

  /** Flatten distributes over concatenation of page lists. */
  lemma {:induction false} FlattenAppend<T>(ps: seq<Page<T>>, qs: seq<Page<T>>)
    ensures Flatten(ps + qs) == Flatten(ps) + Flatten(qs)
  {
    if |ps| == 0 {
      assert ps + qs == qs;
    } else {
      assert (ps + qs)[1..] == ps[1..] + qs;
      FlattenAppend(ps[1..], qs);
    }
  }

  /** For a listing whose last page carries no token and whose earlier pages
      carry real cursors, the older loop yields every page except the last one,
      while the current loop yields all of them. */
  lemma {:induction false} LegacyDropsFinalPage<T>(responses: seq<Page<T>>)
    requires |responses| > 0
    requires responses[|responses| - 1].next == Absent
    requires forall i :: 0 <= i < |responses| - 1 ==> Truthy(responses[i].next)
    ensures Collect(responses) == Finished(CollectLegacy(responses).requests, CollectLegacy(responses).items + responses[|responses| - 1].items)
    ensures |Collect(responses).requests| == |responses|
    ensures CollectLegacy(responses).Finished?
    ensures CollectLegacy(responses).items == Flatten(responses[..|responses| - 1])
  {
    var n := |responses|;
    var r := Collect(responses);
    var l := CollectLegacy(responses);
    CollectStopsAtFirstFalsy(responses);
    assert FirstFalsy(responses) == n - 1 by {
      FirstFalsyIs(responses, n - 1);
    }
    assert l.Finished?;
    assert |l.requests| == n;
    assert r.requests == l.requests;
    assert responses[..n] == responses[..n - 1] + [responses[n - 1]];
    FlattenAppend(responses[..n - 1], [responses[n - 1]]);
    assert Flatten([responses[n - 1]]) == responses[n - 1].items + Flatten([responses[n - 1]][1..]);
  }

  lemma FirstFalsyIs<T>(responses: seq<Page<T>>, k: nat)
    requires k < |responses| && !Truthy(responses[k].next)
    requires forall i :: 0 <= i < k ==> Truthy(responses[i].next)
    ensures FirstFalsy(responses) == k
  {
  }

  /** A concrete instance: with one subscription per page, the older loop
      never yields the last subscription. */
  lemma LegacyLosesLastSubscription()
    ensures CollectLegacy([Page(["A"], Cursor("p2")), Page(["B"], Absent)]).items == ["A"]
    ensures Collect([Page(["A"], Cursor("p2")), Page(["B"], Absent)]).items == ["A", "B"]
  {
    var ps := [Page(["A"], Cursor("p2")), Page(["B"], Absent)];
    LegacyDropsFinalPage(ps);
    assert ps[..1] == [ps[0]];
    assert Flatten(ps[..1]) == ["A"];
  }

  /** In the older loop only `undefined` ends iteration: a `null` or empty
      token is sent back as the next request. */
  lemma LegacyContinuesOnNullOrEmpty<T>(first: seq<T>, t: Token, later: seq<Page<T>>)
    requires t == NullToken || t == Cursor("")
    requires |later| > 0
    ensures |CollectLegacy([Page(first, t)] + later).requests| >= 2
    ensures CollectLegacy([Page(first, t)] + later).requests[1] == t
    ensures Collect([Page(first, t)] + later) == Finished([NullToken], first)
  {
    var ps := [Page(first, t)] + later;
    assert ps[1..] == later;
    var rest := CollectLegacyFrom(later, t);
    assert |rest.requests| >= 1;
  }
}

=== FILE: store.dfy ===
/** The two tables, as finite maps keyed by their UNIQUE column: a second row
    with the same `channelId` or `videoId` cannot exist. */
module Store {

  type ChannelId = string
  type VideoId = string

  /** A row of `subscriptions` (besides its key). */
  datatype Subscription = Subscription(title: string, thumbnail: string)

  /** `subscriptions`, keyed by `channelId`. */
  type SubscriptionTable = map<ChannelId, Subscription>

  /** `videos`: each recorded `videoId` with the channel it was recorded for. */
  type VideoTable = map<VideoId, ChannelId>

  /** `SELECT videoId FROM videos WHERE channelId = c`. */
  function SentFor(videos: VideoTable, c: ChannelId): (r: set<VideoId>)
    ensures forall v :: v in r <==> v in videos && videos[v] == c
  {
    set v | v in videos && videos[v] == c
  }

  /** Recording video `v` for channel `c` adds it to `c`'s sent set and
      leaves every other channel's sent set as it was. */
  lemma SentForRecord(videos: VideoTable, v: VideoId, c: ChannelId, other: ChannelId)
    requires v !in videos
    ensures SentFor(videos[v := c], c) == SentFor(videos, c) + {v}
    ensures other != c ==> SentFor(videos[v := c], other) == SentFor(videos, other)
  {
  }
}

=== FILE: subscriptions.dfy ===
/** `updateSubscriptions` of the current version: read the saved channel IDs,
    build the live set from the listing (dropping incomplete, blacklisted and
    non-whitelisted entries), insert the new channels and delete the removed
    ones. */
module Subscriptions {
  import opened Common
  import opened Json
  import opened Store
  import FindNullish

  /** One string field of the API answer after optional chaining: absent
      (`undefined`, also when an enclosing object is missing), a JSON `null`,
      or a string. */
  datatype Field = Absent | NullField | Text(s: string)

  /** `!field` */
  predicate Falsy(f: Field) {
    !f.Text? || f.s == ""
  }

  /** One listed subscription: `snippet?.title`,
      `snippet?.resourceId?.channelId` and `snippet?.thumbnails?.high?.url`. */
  datatype Listed = Listed(title: Field, channelId: Field, thumbnail: Field)

  /** A rejected listing request; `hasReason` says whether `errors[0].reason` is set. */
  datatype ApiError = ApiError(hasReason: bool)

  /** How a pass ends. No error escapes the pass. */
  datatype Outcome = Done | QuotaWarning | ErrorLogged

  /** Why a listed entry stays out of the live set. */
  datatype Skip = MissingFields(missing: seq<string>) | Blacklisted(id: ChannelId) | NotWhitelisted(id: ChannelId)

  /** `Array.isArray(list) && list.includes(id)` */
  predicate InList(list: Value, id: ChannelId) {
    list.Arr? && Str(id) in list.items
  }

  function AsValue(f: Field): Value {
    match f
    case Absent => Undefined
    case NullField => Null
    case Text(s) => Str(s)
  }

  /** The object handed to the missing-field report. */
  function FieldsOf(e: Listed): seq<Member> {
    [Member("title", AsValue(e.title)), Member("channelId", AsValue(e.channelId)), Member("thumbnail", AsValue(e.thumbnail))]
  }

  /** The listing entry has a non-empty title, channel ID and thumbnail. */
  predicate Complete(e: Listed) {
    !Falsy(e.title) && !Falsy(e.channelId) && !Falsy(e.thumbnail)
  }

  /** The three checks of the listing loop, in order; `None` admits the entry.
      The skip report is `findNullishValues` as written: it names the fields
      that are `null` and none of the absent ones. */
  function Check(e: Listed, blacklist: Value, whitelist: Value): (r: Option<Skip>)
    ensures r.None? <==> Complete(e) && !InList(blacklist, e.channelId.s) && (InList(whitelist, e.channelId.s) || !whitelist.Arr?)
    ensures (r.Some? && r.value.MissingFields?) <==> !Complete(e)
    ensures r.Some? && r.value.MissingFields? ==> NamesNullFields(e, r.value.missing)
    ensures (r.Some? && r.value.Blacklisted?) <==> Complete(e) && InList(blacklist, e.channelId.s)
    ensures r.Some? && !r.value.MissingFields? ==> r.value.id == e.channelId.s
  {
    if !Complete(e) then
      NullFieldsReported(e);
      Some(MissingFields(FindNullish.FindNullishValues(FieldsOf(e))))
    else if InList(blacklist, e.channelId.s) then Some(Blacklisted(e.channelId.s))
    else if InList(whitelist, e.channelId.s) || !whitelist.Arr? then None
    else Some(NotWhitelisted(e.channelId.s))
  }

  /** `missing` names exactly the fields of `e` that are JSON `null`. */
  predicate NamesNullFields(e: Listed, missing: seq<string>) {
    && ("title" in missing <==> e.title.NullField?)
    && ("channelId" in missing <==> e.channelId.NullField?)
    && ("thumbnail" in missing <==> e.thumbnail.NullField?)
    && forall k :: k in missing ==> k == "title" || k == "channelId" || k == "thumbnail"
  }

  /** The report names exactly the `null` fields; an absent field is
      `undefined` and goes unreported. */
  lemma NullFieldsReported(e: Listed)
    ensures NamesNullFields(e, FindNullish.FindNullishValues(FieldsOf(e)))
  {
    var ms := FieldsOf(e);
    assert ms[0] == Member("title", AsValue(e.title));
    assert ms[1] == Member("channelId", AsValue(e.channelId));
    assert ms[2] == Member("thumbnail", AsValue(e.thumbnail));
  }

  /** Entry `e` is admitted to the live set under channel `id`. */
  predicate Admits(e: Listed, blacklist: Value, whitelist: Value, id: ChannelId) {
    Check(e, blacklist, whitelist).None? && e.channelId == Text(id)
  }

  function RowOf(e: Listed): Subscription
    requires e.title.Text? && e.thumbnail.Text?
  {
    Subscription(e.title.s, e.thumbnail.s)
  }

  /** `channelDetails` after the listing loop; its keys are `updatedSubscriptions`. */
  function Live(listing: seq<Listed>, blacklist: Value, whitelist: Value): (d: map<ChannelId, Subscription>)
    ensures forall id :: id in d <==> exists i :: 0 <= i < |listing| && Admits(listing[i], blacklist, whitelist, id)
    decreases |listing|
  {
    if |listing| == 0 then map[]
    else
      var n := |listing| - 1;
      var init := Live(listing[..n], blacklist, whitelist);
      assert forall i :: 0 <= i < n ==> listing[..n][i] == listing[i];
      var e := listing[n];
      if Check(e, blacklist, whitelist).None? then init[e.channelId.s := RowOf(e)] else init
  }

  /** Entry `i` is the last one admitted under `id`. */
  predicate LastAdmitted(listing: seq<Listed>, blacklist: Value, whitelist: Value, id: ChannelId, i: int) {
    && 0 <= i < |listing|
    && Admits(listing[i], blacklist, whitelist, id)
    && forall j :: i < j < |listing| ==> !Admits(listing[j], blacklist, whitelist, id)
  }

  /** A channel listed more than once keeps the details of its last admitted entry. */
  lemma {:induction false} LiveLastWins(listing: seq<Listed>, blacklist: Value, whitelist: Value, id: ChannelId)
    returns (i: nat)
    requires id in Live(listing, blacklist, whitelist)
    ensures LastAdmitted(listing, blacklist, whitelist, id, i)
    ensures Live(listing, blacklist, whitelist)[id] == RowOf(listing[i])
    decreases |listing|
  {
    var n := |listing| - 1;
    LiveSnoc(listing, blacklist, whitelist);
    if Admits(listing[n], blacklist, whitelist, id) {
      i := n;
    } else {
      LiveKeepsEarlier(listing, blacklist, whitelist, id);
      i := LiveLastWins(listing[..n], blacklist, whitelist, id);
      assert listing[..n][i] == listing[i];
      LastAdmittedExtend(listing, blacklist, whitelist, id, i);
    }
  }

  /** An entry not admitted under `id` leaves the details of `id` as they were. */
  lemma LiveKeepsEarlier(listing: seq<Listed>, blacklist: Value, whitelist: Value, id: ChannelId)
    requires |listing| > 0 && id in Live(listing, blacklist, whitelist)
    requires !Admits(listing[|listing| - 1], blacklist, whitelist, id)
    ensures id in Live(listing[..|listing| - 1], blacklist, whitelist)
    ensures Live(listing, blacklist, whitelist)[id] == Live(listing[..|listing| - 1], blacklist, whitelist)[id]
  {
    LiveSnoc(listing, blacklist, whitelist);
  }

  /** The listing loop's last step. */
  lemma LiveSnoc(listing: seq<Listed>, blacklist: Value, whitelist: Value)
    requires |listing| > 0
    ensures var n := |listing| - 1;
      var e := listing[n];
      var init := Live(listing[..n], blacklist, whitelist);
      Live(listing, blacklist, whitelist) == if Check(e, blacklist, whitelist).None? then init[e.channelId.s := RowOf(e)] else init
  {
  }

  lemma LastAdmittedExtend(listing: seq<Listed>, blacklist: Value, whitelist: Value, id: ChannelId, i: nat)
    requires |listing| > 0 && !Admits(listing[|listing| - 1], blacklist, whitelist, id)
    requires LastAdmitted(listing[..|listing| - 1], blacklist, whitelist, id, i)
    ensures LastAdmitted(listing, blacklist, whitelist, id, i)
  {
    var n := |listing| - 1;
    assert listing[..n][i] == listing[i];
    forall j | i < j < |listing|
      ensures !Admits(listing[j], blacklist, whitelist, id)
    {
      if j < n {
        assert listing[..n][j] == listing[j];
      }
    }
  }

  /** Only complete entries reach the live set, and no blacklisted channel does. */
  lemma LiveAdmitsOnlyCompleteEntries(listing: seq<Listed>, blacklist: Value, whitelist: Value, id: ChannelId)
    requires id in Live(listing, blacklist, whitelist)
    ensures !InList(blacklist, id)
    ensures whitelist.Arr? ==> InList(whitelist, id)
    ensures Live(listing, blacklist, whitelist)[id].title != "" && Live(listing, blacklist, whitelist)[id].thumbnail != ""
    ensures exists i :: 0 <= i < |listing| && listing[i].channelId == Text(id) && !Falsy(listing[i].title) && !Falsy(listing[i].thumbnail)
  {
  }

  /** The saved table after the pass: exactly the live channels; rows kept
      from before are not refreshed, new rows carry the listed details. */
  function Reconciled(saved: SubscriptionTable, live: map<ChannelId, Subscription>): (s: SubscriptionTable)
    ensures s.Keys == live.Keys
    ensures forall id :: id in saved && id in live ==> s[id] == saved[id]
    ensures forall id :: id in live && id !in saved ==> s[id] == live[id]
  {
    map id | id in live :: if id in saved then saved[id] else live[id]
  }

  /** The result of one pass. `skipped` holds the new channels the insert loop
      found no details for. */
  datatype Pass = Pass(store: SubscriptionTable, inserted: set<ChannelId>, removed: set<ChannelId>, skipped: set<ChannelId>, outcome: Outcome)

  /** The insert loop: every channel of `added` found in `live` gets its row;
      one that is not is skipped. */
  method InsertNew(saved: SubscriptionTable, live: map<ChannelId, Subscription>, added: set<ChannelId>)
    returns (store: SubscriptionTable, skipped: set<ChannelId>)
    requires added !! saved.Keys
    ensures store.Keys == saved.Keys + (added * live.Keys)
    ensures skipped == added - live.Keys
    ensures forall id :: id in saved ==> store[id] == saved[id]
    ensures forall id :: id in added && id in live ==> store[id] == live[id]
  {
    store := saved;
    skipped := {};
    var pending := added;
    while pending != {}
      invariant pending <= added
      invariant skipped == (added - pending) - live.Keys
      invariant store.Keys == saved.Keys + ((added - pending) * live.Keys)
      invariant forall id :: id in saved ==> store[id] == saved[id]
      invariant forall id :: id in added - pending && id in live ==> store[id] == live[id]
      decreases pending
    {
      var id :| id in pending;
      if id in live {
        store := store[id := live[id]];
      } else {
        skipped := skipped + {id};
      }
      pending := pending - {id};
    }
  }

  /** The delete loop: every channel of `dropped` loses its row. */
  method DeleteRemoved(before: SubscriptionTable, dropped: set<ChannelId>) returns (store: SubscriptionTable)
    requires dropped <= before.Keys
    ensures store.Keys == before.Keys - dropped
    ensures forall id :: id in store ==> store[id] == before[id]
  {
    store := before;
    var toDelete := dropped;
    while toDelete != {}
      invariant toDelete <= dropped
      invariant store.Keys == before.Keys - (dropped - toDelete)
      invariant forall id :: id in store ==> store[id] == before[id]
      decreases toDelete
    {
      var id :| id in toDelete;
      // the row is read (for its title) before it is deleted
      assert id in store;
      store := store - {id};
      toDelete := toDelete - {id};
    }
  }

  /** One pass of `updateSubscriptions`. */
  method UpdateSubscriptions(saved: SubscriptionTable, listing: Result<seq<Listed>, ApiError>, blacklist: Value, whitelist: Value)
    returns (p: Pass)
    ensures listing.Err? ==> p.store == saved && p.inserted == {} && p.removed == {}
    ensures listing.Err? ==> p.outcome == (if listing.error.hasReason then QuotaWarning else ErrorLogged)
    ensures listing.Ok? ==> p.outcome == Done
    ensures listing.Ok? ==> p.inserted == Live(listing.value, blacklist, whitelist).Keys - saved.Keys
    ensures listing.Ok? ==> p.removed == saved.Keys - Live(listing.value, blacklist, whitelist).Keys
    ensures listing.Ok? ==> p.store == Reconciled(saved, Live(listing.value, blacklist, whitelist))
    ensures listing.Ok? ==> p.store.Keys == (saved.Keys - p.removed) + p.inserted
    ensures p.skipped == {}
    ensures p.inserted !! p.removed
  {
    if listing.Err? {
      return Pass(saved, {}, {}, {}, if listing.error.hasReason then QuotaWarning else ErrorLogged);
    }
    var live := Live(listing.value, blacklist, whitelist);
    var added := live.Keys - saved.Keys;
    var dropped := saved.Keys - live.Keys;
    var inserted, skipped := InsertNew(saved, live, added);
    var store := DeleteRemoved(inserted, dropped);
    InsertThenDelete(saved, live, inserted, store);
    p := Pass(store, added, dropped, skipped, Done);
  }

  /** The insert loop followed by the delete loop leaves the reconciled table. */
  lemma InsertThenDelete(saved: SubscriptionTable, live: map<ChannelId, Subscription>, inserted: SubscriptionTable, store: SubscriptionTable)
    requires inserted.Keys == saved.Keys + ((live.Keys - saved.Keys) * live.Keys)
    requires forall id :: id in saved ==> inserted[id] == saved[id]
    requires forall id :: id in live.Keys - saved.Keys ==> inserted[id] == live[id]
    requires store.Keys == inserted.Keys - (saved.Keys - live.Keys)
    requires forall id :: id in store ==> store[id] == inserted[id]
    ensures store == Reconciled(saved, live)
  {
    var r := Reconciled(saved, live);
    assert store.Keys == r.Keys;
    forall id | id in store
      ensures store[id] == r[id]
    {
      if id in saved {
        assert store[id] == saved[id];
      } else {
        assert store[id] == live[id];
      }
    }
  }

  /** A second pass over the same listing and configuration inserts nothing,
      deletes nothing and leaves the table as it was. */
  lemma Idempotent(saved: SubscriptionTable, listing: seq<Listed>, blacklist: Value, whitelist: Value)
    ensures var live := Live(listing, blacklist, whitelist);
      var once := Reconciled(saved, live);
      && live.Keys - once.Keys == {}
      && once.Keys - live.Keys == {}
      && Reconciled(once, live) == once
  {
  }

  /** An entry without a title is skipped with an empty report, while the
      corrected helper would name `title`. */
  lemma MissingTitleNotReported(channelId: string, thumbnail: string, blacklist: Value, whitelist: Value)
    ensures Check(Listed(Absent, Text(channelId), Text(thumbnail)), blacklist, whitelist) == Some(MissingFields([]))
    ensures FindNullish.FindMissingValues(FieldsOf(Listed(Absent, Text(channelId), Text(thumbnail)))) == ["title"]
  {
    var e := Listed(Absent, Text(channelId), Text(thumbnail));
    var ms := FieldsOf(e);
    assert ms[1..][1..][1..] == [];
    assert FindNullish.FindNullishValues(ms[1..][1..]) == [];
    assert FindNullish.FindNullishValues(ms[1..]) == [];
    assert FindNullish.FindNullishValues(ms) == [];
    assert FindNullish.FindMissingValues(ms[1..][1..]) == [];
    assert FindNullish.FindMissingValues(ms[1..]) == [];
  }

  /** A JSON `null` title, by contrast, is named in the report. */
  lemma NullTitleReported(channelId: string, thumbnail: string, blacklist: Value, whitelist: Value)
    ensures Check(Listed(NullField, Text(channelId), Text(thumbnail)), blacklist, whitelist) == Some(MissingFields(["title"]))
  {
    var e := Listed(NullField, Text(channelId), Text(thumbnail));
    var ms := FieldsOf(e);
    assert ms[1..][1..][1..] == [];
    assert FindNullish.FindNullishValues(ms[1..][1..]) == [];
    assert FindNullish.FindNullishValues(ms[1..]) == [];
    assert FindNullish.FindNullishValues(ms) == ["title"];
  }
}

=== FILE: subscriptions_legacy.dfy ===
/** The earlier `updateSubscriptions`: no filtering and no field checks. An
    entry without a `high` thumbnail throws while the listing is read, so
    nothing is written; a new channel without a title violates the NOT NULL
    column `channelTitle`, which ends the pass after the inserts before it and
    before any delete. */
module SubscriptionsLegacy {
  import opened Common
  import opened Store
  import Subscriptions
  import Json

  /** One listed entry: `resourceId.channelId`, `title` and
      `thumbnails.high.url`; `thumbnail == None` is a missing `high`. */
  datatype LegacyListed = LegacyListed(channelId: ChannelId, title: Option<string>, thumbnail: Option<string>)

  function Ids(listing: seq<LegacyListed>): (ids: seq<ChannelId>)
    ensures |ids| == |listing|
    ensures forall i :: 0 <= i < |listing| ==> ids[i] == listing[i].channelId
  {
    if |listing| == 0 then [] else [listing[0].channelId] + Ids(listing[1..])
  }

  predicate Distinct<T(==)>(xs: seq<T>) {
    forall i, j :: 0 <= i < j < |xs| ==> xs[i] != xs[j]
  }

  /** The iteration order of a JavaScript `Set` built from `xs`: first
      occurrences, in order. */
  function FirstOccurrences(xs: seq<ChannelId>, seen: set<ChannelId>): (r: seq<ChannelId>)
    ensures Distinct(r)
    ensures forall x :: x in r <==> x in xs && x !in seen
    decreases |xs|
  {
    if |xs| == 0 then []
    else if xs[0] in seen then FirstOccurrences(xs[1..], seen)
    else [xs[0]] + FirstOccurrences(xs[1..], seen + {xs[0]})
  }

  /** `channelDetails` after the listing loop: a plain object keyed by
      channel ID, so a later entry overwrites an earlier one. */
  function Details(listing: seq<LegacyListed>): (d: map<ChannelId, LegacyListed>)
    ensures forall id :: id in d <==> id in Ids(listing)
    ensures forall id :: id in d ==> d[id].channelId == id && d[id] in listing
    decreases |listing|
  {
    if |listing| == 0 then map[]
    else
      var n := |listing| - 1;
      var init := Details(listing[..n]);
      DetailsStep(listing, init);
      init[listing[n].channelId := listing[n]]
  }

  lemma DetailsStep(listing: seq<LegacyListed>, init: map<ChannelId, LegacyListed>)
    requires |listing| > 0
    requires forall id :: id in init <==> id in Ids(listing[..|listing| - 1])
    requires forall id :: id in init ==> init[id] in listing[..|listing| - 1]
    ensures forall id :: id in init || id == listing[|listing| - 1].channelId <==> id in Ids(listing)
    ensures forall id :: id in init ==> init[id] in listing
  {
    var n := |listing| - 1;
    IdsSnoc(listing);
    assert forall e :: e in listing[..n] ==> e in listing;
  }

  lemma {:induction false} IdsSnoc(listing: seq<LegacyListed>)
    requires |listing| > 0
    ensures Ids(listing) == Ids(listing[..|listing| - 1]) + [listing[|listing| - 1].channelId]
  {
    var n := |listing| - 1;
    var a, b := Ids(listing[..n]), Ids(listing);
    var c := a + [listing[n].channelId];
    forall i | 0 <= i < |b|
      ensures b[i] == c[i]
    {
      if i < n {
        assert listing[..n][i] == listing[i];
      }
    }
  }

  /** Keep the elements of `ids` not in `saved`, in order. */
  function NotIn(ids: seq<ChannelId>, saved: set<ChannelId>): (r: seq<ChannelId>)
    ensures forall x :: x in r <==> x in ids && x !in saved
    ensures Distinct(ids) ==> Distinct(r)
  {
    if |ids| == 0 then []
    else if ids[0] in saved then NotIn(ids[1..], saved)
    else [ids[0]] + NotIn(ids[1..], saved)
  }

  /** Where the insert loop stopped: `failedAt == Some(k)` when the `k`-th new
      channel had no title. */
  datatype Inserted = Inserted(store: SubscriptionTable, failedAt: Option<nat>)

  predicate Complete(e: LegacyListed) {
    e.title.Some? && e.thumbnail.Some?
  }

  function RowOf(e: LegacyListed): Subscription
    requires Complete(e)
  {
    Subscription(e.title.value, e.thumbnail.value)
  }

  /** How many new channels were inserted. */
  function Stop(r: Inserted, ids: seq<ChannelId>): nat {
    if r.failedAt.Some? && r.failedAt.value <= |ids| then r.failedAt.value else |ids|
  }

  /** The insert loop, one channel after another, stopping at the first
      rejected insert. */
  function InsertInOrder(store: SubscriptionTable, ids: seq<ChannelId>, details: map<ChannelId, LegacyListed>): (r: Inserted)
    requires forall i :: 0 <= i < |ids| ==> ids[i] in details && details[ids[i]].thumbnail.Some?
    requires Distinct(ids) && forall i :: 0 <= i < |ids| ==> ids[i] !in store
    ensures InsertedPrefix(store, ids, details, r)
    decreases |ids|
  {
    if |ids| == 0 then Inserted(store, None)
    else
      var e := details[ids[0]];
      if e.title.None? then Inserted(store, Some(0))
      else
        var r := InsertInOrder(store[ids[0] := RowOf(e)], ids[1..], details);
        var out := if r.failedAt.Some? then Inserted(r.store, Some(r.failedAt.value + 1)) else r;
        InsertStep(store, ids, details, r, out);
        out
  }

  /** `r` stopped at a new channel without a title, if at all; every channel
      before that point is complete and stored with its row; nothing else
      was added and no saved row changed. */
  ghost predicate InsertedPrefix(store: SubscriptionTable, ids: seq<ChannelId>, details: map<ChannelId, LegacyListed>, r: Inserted)
    requires forall i :: 0 <= i < |ids| ==> ids[i] in details
  {
    && (r.failedAt.Some? ==> r.failedAt.value < |ids| && details[ids[r.failedAt.value]].title.None?)
    && (forall i :: 0 <= i < Stop(r, ids) ==> Complete(details[ids[i]]))
    && (forall i :: 0 <= i < Stop(r, ids) ==> ids[i] in r.store && r.store[ids[i]] == RowOf(details[ids[i]]))
    && (forall id :: id in r.store <==> id in store || id in ids[..Stop(r, ids)])
    && (forall id :: id in store ==> id in r.store && r.store[id] == store[id])
  }

  lemma InsertStep(store: SubscriptionTable, ids: seq<ChannelId>, details: map<ChannelId, LegacyListed>, r: Inserted, out: Inserted)
    requires |ids| > 0 && forall i :: 0 <= i < |ids| ==> ids[i] in details
    requires Complete(details[ids[0]]) && ids[0] !in store
    requires InsertedPrefix(store[ids[0] := RowOf(details[ids[0]])], ids[1..], details, r)
    requires out == if r.failedAt.Some? then Inserted(r.store, Some(r.failedAt.value + 1)) else r
    ensures InsertedPrefix(store, ids, details, out)
  {
    var n := Stop(r, ids[1..]);
    assert Stop(out, ids) == n + 1;
    assert ids[..n + 1] == [ids[0]] + ids[1..][..n];
    forall i | 0 < i < n + 1
      ensures Complete(details[ids[i]]) && ids[i] in out.store && out.store[ids[i]] == RowOf(details[ids[i]])
    {
      assert ids[i] == ids[1..][i - 1];
    }
  }

  /** Every row the insert loop added carries the details listed for its channel. */
  lemma NewRows(store: SubscriptionTable, ids: seq<ChannelId>, details: map<ChannelId, LegacyListed>, r: Inserted)
    requires forall i :: 0 <= i < |ids| ==> ids[i] in details
    requires InsertedPrefix(store, ids, details, r)
    ensures forall id :: id in r.store && id !in store ==>
      id in details && Complete(details[id]) && r.store[id] == RowOf(details[id])
  {
    forall id | id in r.store && id !in store
      ensures id in details && Complete(details[id]) && r.store[id] == RowOf(details[id])
    {
      var k := Stop(r, ids);
      var i :| 0 <= i < k && ids[..k][i] == id;
      assert ids[i] == id;
    }
  }

  /** Every channel listed but not saved has a title in the details the
      insert loop reads: the condition under which every insert succeeds. */
  ghost predicate NewChannelsTitled(saved: SubscriptionTable, listing: seq<LegacyListed>) {
    forall id :: id in Details(listing) && id !in saved ==> Details(listing)[id].title.Some?
  }

  /** The result of one pass. */
  datatype LegacyPass = LegacyPass(store: SubscriptionTable, outcome: Subscriptions.Outcome)

  /** The writes of a pass whose listing was read without error: the inserts
      in first-listed order, then, if they all succeeded, the deletes. */
  function Apply(saved: SubscriptionTable, listing: seq<LegacyListed>): (p: LegacyPass)
    requires forall i :: 0 <= i < |listing| ==> listing[i].thumbnail.Some?
    ensures p.outcome == Subscriptions.Done || p.outcome == Subscriptions.ErrorLogged
    ensures p.outcome == Subscriptions.Done <==> NewChannelsTitled(saved, listing)
    ensures (forall i :: 0 <= i < |listing| ==> Complete(listing[i])) ==> p.outcome == Subscriptions.Done
    ensures p.outcome == Subscriptions.Done ==> forall id :: id in p.store <==> id in Ids(listing)
    ensures p.outcome == Subscriptions.ErrorLogged ==> saved.Keys <= p.store.Keys
    ensures forall id :: id in saved && id in p.store ==> p.store[id] == saved[id]
    ensures forall id :: id in p.store && id !in saved ==>
      id in Details(listing) && Complete(Details(listing)[id]) && p.store[id] == RowOf(Details(listing)[id])
  {
    var details := Details(listing);
    var ids := Ids(listing);
    var added := NotIn(FirstOccurrences(ids, {}), saved.Keys);
    AddedListed(saved, listing, added);
    var r := InsertInOrder(saved, added, details);
    NewRows(saved, added, details, r);
    InsertsAllTitled(saved, listing, added, r);
    CompleteListingTitled(saved, listing);
    if r.failedAt.Some? then LegacyPass(r.store, Subscriptions.ErrorLogged)
    else
      CompletedInserts(saved, listing, added, r);
      LegacyPass(map id | id in r.store && id in ids :: r.store[id], Subscriptions.Done)
  }

  /** Every new channel was listed with a `high` thumbnail. */
  lemma AddedListed(saved: SubscriptionTable, listing: seq<LegacyListed>, added: seq<ChannelId>)
    requires forall i :: 0 <= i < |listing| ==> listing[i].thumbnail.Some?
    requires added == NotIn(FirstOccurrences(Ids(listing), {}), saved.Keys)
    ensures Distinct(added) && forall i :: 0 <= i < |added| ==> added[i] !in saved
    ensures forall i :: 0 <= i < |added| ==> added[i] in Details(listing) && Details(listing)[added[i]].thumbnail.Some?
  {
    var live := FirstOccurrences(Ids(listing), {});
    assert Distinct(live);
    var details := Details(listing);
    forall i | 0 <= i < |added|
      ensures added[i] !in saved && added[i] in details && details[added[i]].thumbnail.Some?
    {
      var id := added[i];
      assert id in added;
      assert id in live && id !in saved;
      assert id in Ids(listing);
      var k :| 0 <= k < |listing| && listing[k] == details[id];
      assert listing[k].thumbnail.Some?;
    }
  }

  /** A completed insert loop leaves the saved channels plus every listed one. */
  lemma CompletedInserts(saved: SubscriptionTable, listing: seq<LegacyListed>, added: seq<ChannelId>, r: Inserted)
    requires added == NotIn(FirstOccurrences(Ids(listing), {}), saved.Keys)
    requires forall i :: 0 <= i < |added| ==> added[i] in Details(listing)
    requires InsertedPrefix(saved, added, Details(listing), r) && r.failedAt.None?
    ensures forall id :: id in Ids(listing) ==> id in r.store
  {
    assert Stop(r, added) == |added| && added[..|added|] == added;
    forall id | id in Ids(listing)
      ensures id in r.store
    {
      assert id in FirstOccurrences(Ids(listing), {});
    }
  }

  /** The insert loop runs to the end exactly when every new channel has a title. */
  lemma InsertsAllTitled(saved: SubscriptionTable, listing: seq<LegacyListed>, added: seq<ChannelId>, r: Inserted)
    requires added == NotIn(FirstOccurrences(Ids(listing), {}), saved.Keys)
    requires forall i :: 0 <= i < |added| ==> added[i] in Details(listing)
    requires InsertedPrefix(saved, added, Details(listing), r)
    ensures r.failedAt.None? <==> NewChannelsTitled(saved, listing)
  {
    var details := Details(listing);
    if r.failedAt.Some? {
      var k := r.failedAt.value;
      assert added[k] in added;
      assert added[k] !in saved;
    } else {
      assert Stop(r, added) == |added|;
      forall id | id in details && id !in saved
        ensures details[id].title.Some?
      {
        assert id in Ids(listing);
        assert id in FirstOccurrences(Ids(listing), {});
        assert id in added;
        var i :| 0 <= i < |added| && added[i] == id;
        assert Complete(details[added[i]]);
      }
    }
  }

  /** When every entry has a title, so does every new channel. */
  lemma CompleteListingTitled(saved: SubscriptionTable, listing: seq<LegacyListed>)
    ensures (forall i :: 0 <= i < |listing| ==> Complete(listing[i])) ==> NewChannelsTitled(saved, listing)
  {
    var details := Details(listing);
    if forall i :: 0 <= i < |listing| ==> Complete(listing[i]) {
      forall id | id in details && id !in saved
        ensures details[id].title.Some?
      {
        var i :| 0 <= i < |listing| && listing[i] == details[id];
        assert Complete(listing[i]);
      }
    }
  }

  /** One pass of the earlier `updateSubscriptions`. */
  function LegacyUpdate(saved: SubscriptionTable, listing: Result<seq<LegacyListed>, Subscriptions.ApiError>): (p: LegacyPass)
    ensures listing.Err? ==> p.store == saved
    ensures listing.Err? ==> p.outcome == (if listing.error.hasReason then Subscriptions.QuotaWarning else Subscriptions.ErrorLogged)
    ensures listing.Ok? && (exists i :: 0 <= i < |listing.value| && listing.value[i].thumbnail.None?) ==>
      p.store == saved && p.outcome == Subscriptions.ErrorLogged
    ensures listing.Ok? && (forall i :: 0 <= i < |listing.value| ==> listing.value[i].thumbnail.Some?) ==>
      (p.outcome == Subscriptions.Done <==> NewChannelsTitled(saved, listing.value))
    ensures listing.Ok? && (forall i :: 0 <= i < |listing.value| ==> Complete(listing.value[i])) ==> p.outcome == Subscriptions.Done
    ensures p.outcome == Subscriptions.Done ==> listing.Ok? && forall id :: id in p.store <==> id in Ids(listing.value)
    ensures p.outcome != Subscriptions.Done ==> saved.Keys <= p.store.Keys
    ensures forall id :: id in saved && id in p.store ==> p.store[id] == saved[id]
  {
    if listing.Err? then
      LegacyPass(saved, if listing.error.hasReason then Subscriptions.QuotaWarning else Subscriptions.ErrorLogged)
    else if exists i :: 0 <= i < |listing.value| && listing.value[i].thumbnail.None? then
      // reading `.url` of a missing `high` throws a TypeError, which has no `errors`
      LegacyPass(saved, Subscriptions.ErrorLogged)
    else
      Apply(saved, listing.value)
  }

  /** A new channel without a title stops the pass after the inserts before
      it: the channel listed before it is stored, and the saved channel that
      is no longer listed is never deleted. */
  lemma TitlelessChannelBlocksDeletes()
    ensures var p := LegacyUpdate(ExampleSaved(), Ok(ExampleListing()));
      && p.outcome == Subscriptions.ErrorLogged
      && p.store.Keys == {"UCgone", "UCa"}
  {
    var saved, listing := ExampleSaved(), ExampleListing();
    assert !exists i :: 0 <= i < |listing| && listing[i].thumbnail.None?;
    assert LegacyUpdate(saved, Ok(listing)) == Apply(saved, listing);
    var added := ExampleAdded(saved, listing);
    var details := ExampleDetails(listing);
    var r := ExampleInsert(saved, added, details);
  }

  function ExampleSaved(): SubscriptionTable {
    map["UCgone" := Subscription("Gone", "g.jpg")]
  }

  function ExampleListing(): seq<LegacyListed> {
    [LegacyListed("UCa", Some("A"), Some("a.jpg")), LegacyListed("UCb", None, Some("b.jpg"))]
  }

  lemma ExampleDetails(listing: seq<LegacyListed>) returns (details: map<ChannelId, LegacyListed>)
    requires listing == ExampleListing()
    ensures details == Details(listing)
    ensures details == map["UCa" := listing[0], "UCb" := listing[1]]
  {
    assert listing[..1][..0] == [];
    assert listing[..1] == [listing[0]];
    details := Details(listing);
  }

  lemma ExampleInsert(saved: SubscriptionTable, added: seq<ChannelId>, details: map<ChannelId, LegacyListed>) returns (r: Inserted)
    requires saved == ExampleSaved() && added == ["UCa", "UCb"]
    requires details == map["UCa" := ExampleListing()[0], "UCb" := ExampleListing()[1]]
    ensures r == InsertInOrder(saved, added, details)
    ensures r.failedAt == Some(1) && r.store.Keys == {"UCgone", "UCa"}
  {
    var r1 := InsertInOrder(saved["UCa" := Subscription("A", "a.jpg")], added[1..], details);
    assert r1.failedAt == Some(0);
    r := InsertInOrder(saved, added, details);
    assert added[..Stop(r, added)] == ["UCa"];
  }

  /** The new channels of the example above, in insert order. */
  lemma ExampleAdded(saved: SubscriptionTable, listing: seq<LegacyListed>) returns (added: seq<ChannelId>)
    requires saved == ExampleSaved() && listing == ExampleListing()
    ensures added == NotIn(FirstOccurrences(Ids(listing), {}), saved.Keys)
    ensures added == ["UCa", "UCb"]
  {
    var ids := Ids(listing);
    assert ids == ["UCa", "UCb"];
    assert ids[1..] == ["UCb"] && ids[1..][1..] == [];
    assert {} + {"UCa"} == {"UCa"};
    var live := FirstOccurrences(ids, {});
    assert FirstOccurrences(ids[1..][1..], {"UCa", "UCb"}) == [];
    assert FirstOccurrences(ids[1..], {"UCa"}) == ["UCb"];
    assert live == ["UCa", "UCb"];
    assert live[1..] == ["UCb"] && live[1..][1..] == [];
    assert NotIn(live[1..][1..], saved.Keys) == [];
    assert NotIn(live[1..], saved.Keys) == ["UCb"];
    added := NotIn(live, saved.Keys);
  }

  /** All three fields present and non-empty. */
  predicate Clean(e: LegacyListed) {
    e.channelId != "" && e.title.Some? && e.title.value != "" && e.thumbnail.Some? && e.thumbnail.value != ""
  }

  /** With every entry clean and no lists configured, the current version's
      live set is every listed channel. */
  lemma LiveIsListed(listing: seq<LegacyListed>, id: ChannelId)
    requires forall i :: 0 <= i < |listing| ==> Clean(listing[i])
    ensures id in Subscriptions.Live(Current(listing), Json.Undefined, Json.Undefined) <==> id in Ids(listing)
  {
    var cur := Current(listing);
    if id in Ids(listing) {
      var i :| 0 <= i < |listing| && Ids(listing)[i] == id;
      CleanAdmitted(listing[i]);
      assert Subscriptions.Admits(cur[i], Json.Undefined, Json.Undefined, id);
    } else {
      forall i | 0 <= i < |cur|
        ensures !Subscriptions.Admits(cur[i], Json.Undefined, Json.Undefined, id)
      {
        assert Ids(listing)[i] == listing[i].channelId;
      }
    }
  }

  /** A clean entry passes every check of the current version when no lists
      are configured. */
  lemma CleanAdmitted(e: LegacyListed)
    requires Clean(e)
    ensures Subscriptions.Admits(CurrentEntry(e), Json.Undefined, Json.Undefined, e.channelId)
  {
  }

  /** With every entry clean and no lists configured, the pass finishes and
      stores the same channels as the current version. */
  lemma AgreesWithCurrentWhenUnfiltered(saved: SubscriptionTable, listing: seq<LegacyListed>)
    requires forall i :: 0 <= i < |listing| ==> Clean(listing[i])
    ensures LegacyUpdate(saved, Ok(listing)).outcome == Subscriptions.Done
    ensures LegacyUpdate(saved, Ok(listing)).store.Keys ==
      Subscriptions.Reconciled(saved, Subscriptions.Live(Current(listing), Json.Undefined, Json.Undefined)).Keys
  {
    forall id | true
      ensures id in Subscriptions.Live(Current(listing), Json.Undefined, Json.Undefined) <==> id in Ids(listing)
    {
      LiveIsListed(listing, id);
    }
    assert forall i :: 0 <= i < |listing| ==> Complete(listing[i]);
  }

  /** The same entries as the current version reads them. */
  function Current(listing: seq<LegacyListed>): (r: seq<Subscriptions.Listed>)
    ensures |r| == |listing|
    ensures forall i :: 0 <= i < |listing| ==> r[i] == CurrentEntry(listing[i])
  {
    seq(|listing|, i requires 0 <= i < |listing| => CurrentEntry(listing[i]))
  }

  /** One entry as the current version reads it. */
  function CurrentEntry(e: LegacyListed): Subscriptions.Listed {
    Subscriptions.Listed(FieldOf(e.title), Subscriptions.Text(e.channelId), FieldOf(e.thumbnail))
  }

  /** A field the older version reads, as the current version reads it. */
  function FieldOf(o: Option<string>): Subscriptions.Field {
    if o.None? then Subscriptions.Absent else Subscriptions.Text(o.value)
  }
}

=== FILE: text.dfy ===
/** Decimal rendering of naturals, left padding and first-occurrence replacement:
    the string operations the notifier relies on (`String(n)`, `padStart`,
    `String.prototype.replace` with a string pattern). */
module Text {
  import opened Common

  predicate IsDigit(c: char) {
    '0' <= c <= '9'
  }

  predicate AllDigits(s: string) {
    forall i :: 0 <= i < |s| ==> IsDigit(s[i])
  }

  function DigitChar(d: nat): (c: char)
    requires d < 10
    ensures IsDigit(c)
  {
    (('0' as int) + d) as char
  }

  function DigitValue(c: char): (d: nat)
    requires IsDigit(c)
    ensures d < 10
  {
    (c as int) - ('0' as int)
  }

  /** `String(n)` for a non-negative integer: decimal digits, no leading zero. */
  function NatToString(n: nat): (r: string)
    ensures |r| >= 1
    ensures AllDigits(r)
    ensures r[0] == '0' ==> n == 0
    decreases n
  {
    if n < 10 then [DigitChar(n)] else NatToString(n / 10) + [DigitChar(n % 10)]
  }

  /** The number a string of decimal digits denotes; leading zeros are allowed. */
  function DigitsValue(s: string): nat
    requires AllDigits(s)
  {
    if |s| == 0 then 0 else 10 * DigitsValue(s[..|s| - 1]) + DigitValue(s[|s| - 1])
  }

  /** Reading back a rendered natural gives the natural. */
  lemma {:induction false} NatToStringRoundTrip(n: nat)
    ensures DigitsValue(NatToString(n)) == n
    decreases n
  {
    var r := NatToString(n);
    if n >= 10 {
      NatToStringRoundTrip(n / 10);
      assert r[..|r| - 1] == NatToString(n / 10);
    }
  }

  /** A digit string without a superfluous leading zero is how `String(n)`
      writes its own value. */
  lemma {:induction false} CanonicalDigitsRoundTrip(q: string)
    requires |q| >= 1 && AllDigits(q) && (|q| > 1 ==> q[0] != '0')
    ensures NatToString(DigitsValue(q)) == q
    decreases |q|
  {
    if |q| > 1 {
      var init := q[..|q| - 1];
      assert init[0] == q[0];
      CanonicalDigitsRoundTrip(init);
      var v := DigitsValue(q);
      assert DigitsValue(init) != 0 by {
        assert NatToString(0)[0] == '0';
      }
      assert v / 10 == DigitsValue(init) && v % 10 == DigitValue(q[|q| - 1]);
      assert NatToString(v) == NatToString(v / 10) + [DigitChar(v % 10)];
      assert q == init + [q[|q| - 1]];
    }
  }

  /** The length of the run of `'0'` at the start of `s`. */
  function ZeroRun(s: string): (z: nat)
    ensures z <= |s|
    ensures forall i :: 0 <= i < z ==> s[i] == '0'
    ensures z < |s| ==> s[z] != '0'
  {
    if |s| == 0 || s[0] != '0' then 0
    else
      var z := ZeroRun(s[1..]);
      assert forall i :: 1 <= i < z + 1 ==> s[i] == s[1..][i - 1];
      z + 1
  }

  /** A digit string of exactly `width` digits is how `padStart(String(n),
      width, '0')` writes its own value. */
  lemma PaddedDigitsRoundTrip(p: string, width: nat)
    requires |p| == width >= 1 && AllDigits(p)
    ensures PadStart(NatToString(DigitsValue(p)), width, '0') == p
  {
    var z := ZeroRun(p);
    if z == |p| {
      AllZerosPadded(p);
    } else {
      var q := p[z..];
      ZeroRunSplit(p, z);
      LeadingZerosValue(z, q);
      CanonicalDigitsRoundTrip(q);
      PadToWidth(q, width);
    }
  }

  lemma AllZerosPadded(p: string)
    requires |p| >= 1 && forall i :: 0 <= i < |p| ==> p[i] == '0'
    ensures AllDigits(p)
    ensures PadStart(NatToString(DigitsValue(p)), |p|, '0') == p
  {
    assert p == Repeat('0', |p|);
    ZerosValue(|p|);
    assert NatToString(0) == "0";
    PadToWidth("0", |p|);
  }

  lemma ZeroRunSplit(p: string, z: nat)
    requires z == ZeroRun(p) < |p|
    ensures p == Repeat('0', z) + p[z..]
  {
    var r := Repeat('0', z) + p[z..];
    assert |r| == |p|;
    forall i | 0 <= i < |p| ensures r[i] == p[i] {
      if i >= z {
        assert r[i] == p[z..][i - z];
      }
    }
  }

  /** Padding `q` to `width` puts exactly the missing zeros before it. */
  lemma PadToWidth(q: string, width: nat)
    requires |q| <= width
    ensures PadStart(q, width, '0') == Repeat('0', width - |q|) + q
  {
    if |q| == width {
      assert Repeat('0', 0) + q == q;
    }
  }

  /** Distinct naturals render differently (so array index keys are unique). */
  lemma NatToStringInjective(m: nat, n: nat)
    requires NatToString(m) == NatToString(n)
    ensures m == n
  {
    NatToStringRoundTrip(m);
    NatToStringRoundTrip(n);
  }

  function Repeat(c: char, n: nat): (r: string)
    ensures |r| == n
    ensures forall i :: 0 <= i < n ==> r[i] == c
  {
    seq(n, _ => c)
  }

  /** `s.padStart(width, fill)` for a one-character fill. */
  function PadStart(s: string, width: nat, fill: char): (r: string)
    ensures |s| >= width ==> r == s
    ensures |s| < width ==> |r| == width
    ensures exists pad :: r == pad + s && pad == Repeat(fill, |r| - |s|)
  {
    var pad := if |s| >= width then "" else Repeat(fill, width - |s|);
    assert pad + s == pad + s;
    pad + s
  }

  /** Leading zeros do not change the value of a digit string. */
  lemma {:induction false} LeadingZerosValue(z: nat, s: string)
    requires AllDigits(s)
    ensures AllDigits(Repeat('0', z) + s)
    ensures DigitsValue(Repeat('0', z) + s) == DigitsValue(s)
    decreases |s|
  {
    var t := Repeat('0', z) + s;
    if |s| == 0 {
      assert t == Repeat('0', z);
      ZerosValue(z);
    } else {
      var s' := s[..|s| - 1];
      assert t[..|t| - 1] == Repeat('0', z) + s';
      LeadingZerosValue(z, s');
    }
  }

  lemma {:induction false} ZerosValue(z: nat)
    ensures AllDigits(Repeat('0', z))
    ensures DigitsValue(Repeat('0', z)) == 0
  {
    if z > 0 {
      assert Repeat('0', z)[..z - 1] == Repeat('0', z - 1);
      ZerosValue(z - 1);
    }
  }

  /** `pat` occurs in `s` starting at index `j`. */
  predicate OccursAt(s: string, pat: string, j: int) {
    0 <= j && j + |pat| <= |s| && s[j..j + |pat|] == pat
  }

  /** The first index at which `pat` occurs in `s`, if any. */
  function IndexOf(s: string, pat: string): (r: Option<nat>)
    ensures r.Some? ==> OccursAt(s, pat, r.value)
    ensures r.Some? ==> forall j :: 0 <= j < r.value ==> !OccursAt(s, pat, j)
    ensures r.None? ==> forall j :: !OccursAt(s, pat, j)
    decreases |s|
  {
    if |s| < |pat| then None
    else if s[..|pat|] == pat then Some(0)
    else
      var rest := IndexOf(s[1..], pat);
      forall j | 1 <= j
        ensures OccursAt(s, pat, j) == OccursAt(s[1..], pat, j - 1)
      {
        OccursShift(s, pat, j);
      }
      if rest.None? then None else Some(rest.value + 1)
  }

  /** An occurrence at `j > 0` is an occurrence at `j - 1` in the tail. */
  lemma OccursShift(s: string, pat: string, j: int)
    requires |s| > 0 && 1 <= j
    ensures OccursAt(s, pat, j) == OccursAt(s[1..], pat, j - 1)
  {
    if j + |pat| <= |s| {
      var a, b := s[j..j + |pat|], s[1..][j - 1..j - 1 + |pat|];
      assert |a| == |b|;
      forall k | 0 <= k < |a|
        ensures a[k] == b[k]
      {
        assert a[k] == s[j + k];
        assert b[k] == s[1..][j - 1 + k];
      }
      assert a == b;
    }
  }

  /** `s.replace(pat, rep)` with a string pattern: only the first occurrence is replaced. */
  function ReplaceFirst(s: string, pat: string, rep: string): string
    decreases |s|
  {
    if |s| < |pat| then s
    else if s[..|pat|] == pat then rep + s[|pat|..]
    else [s[0]] + ReplaceFirst(s[1..], pat, rep)
  }

  /** The replacement happens at the occurrence `IndexOf` finds, and a
      string without one is left alone. */
  lemma {:induction false} ReplaceFirstAtIndexOf(s: string, pat: string, rep: string)
    ensures IndexOf(s, pat).None? ==> ReplaceFirst(s, pat, rep) == s
    ensures IndexOf(s, pat).Some? ==>
      var i := IndexOf(s, pat).value;
      ReplaceFirst(s, pat, rep) == s[..i] + rep + s[i + |pat|..]
    decreases |s|
  {
    if |s| >= |pat| && s[..|pat|] != pat {
      ReplaceFirstAtIndexOf(s[1..], pat, rep);
      ReplaceInTail(s, pat, rep);
    }
  }

  /** Past a non-matching first character, both the replacement and the
      occurrence move one place right. */
  lemma ReplaceInTail(s: string, pat: string, rep: string)
    requires |s| >= |pat| && s[..|pat|] != pat
    requires IndexOf(s[1..], pat).None? ==> ReplaceFirst(s[1..], pat, rep) == s[1..]
    requires IndexOf(s[1..], pat).Some? ==>
      var i := IndexOf(s[1..], pat).value;
      ReplaceFirst(s[1..], pat, rep) == s[1..][..i] + rep + s[1..][i + |pat|..]
    ensures IndexOf(s, pat).None? ==> ReplaceFirst(s, pat, rep) == s
    ensures IndexOf(s, pat).Some? ==>
      var i := IndexOf(s, pat).value;
      ReplaceFirst(s, pat, rep) == s[..i] + rep + s[i + |pat|..]
  {
    var rest := IndexOf(s[1..], pat);
    if rest.Some? {
      ConsSplice(s, pat, rep, rest.value, ReplaceFirst(s[1..], pat, rep));
    } else {
      assert [s[0]] + s[1..] == s;
    }
  }

  lemma ConsSplice(s: string, pat: string, rep: string, j: nat, tail: string)
    requires |s| > 0 && j + |pat| <= |s| - 1
    requires tail == s[1..][..j] + rep + s[1..][j + |pat|..]
    ensures [s[0]] + tail == s[..j + 1] + rep + s[j + 1 + |pat|..]
  {
    assert s[..j + 1] == [s[0]] + s[1..][..j];
    assert s[j + 1 + |pat|..] == s[1..][j + |pat|..];
  }
}

=== FILE: uri.dfy ===
/** `encodeURIComponent` (section 19.2.6.5 of ECMAScript 2020): characters
    outside the unreserved set are written as `%XX` escapes of their UTF-8
    bytes, with upper-case hexadecimal digits. */
module Uri {

  /** Characters `encodeURIComponent` leaves as they are. */
  predicate Unreserved(c: char) {
    ('0' <= c <= '9') || ('a' <= c <= 'z') || ('A' <= c <= 'Z') ||
    c in {'-', '_', '.', '!', '~', '*', '\'', '(', ')'}
  }

  predicate IsUpperHex(c: char) {
    ('0' <= c <= '9') || ('A' <= c <= 'F')
  }

  function HexDigit(d: nat): (c: char)
    requires d < 16
    ensures IsUpperHex(c)
  {
    if d < 10 then (('0' as int) + d) as char else (('A' as int) + d - 10) as char
  }

  /** The UTF-8 encoding of one Unicode scalar value. */
  function Utf8(c: char): (bytes: seq<nat>)
    ensures 1 <= |bytes| <= 4
    ensures forall i :: 0 <= i < |bytes| ==> bytes[i] < 256
    ensures |bytes| == 1 <==> (c as int) < 0x80
  {
    var n := c as int;
    if n < 0x80 then [n]
    else if n < 0x800 then [0xC0 + n / 0x40, 0x80 + n % 0x40]
    else if n < 0x1_0000 then [0xE0 + n / 0x1000, 0x80 + (n / 0x40) % 0x40, 0x80 + n % 0x40]
    else [0xF0 + n / 0x4_0000, 0x80 + (n / 0x1000) % 0x40, 0x80 + (n / 0x40) % 0x40, 0x80 + n % 0x40]
  }

  function Escape(bytes: seq<nat>): (r: string)
    requires forall i :: 0 <= i < |bytes| ==> bytes[i] < 256
    ensures |r| == 3 * |bytes|
    ensures forall i :: 0 <= i < |bytes| ==> r[3 * i] == '%' && IsUpperHex(r[3 * i + 1]) && IsUpperHex(r[3 * i + 2])
  {
    if |bytes| == 0 then ""
    else
      var head := ['%', HexDigit(bytes[0] / 16), HexDigit(bytes[0] % 16)];
      var rest := Escape(bytes[1..]);
      var r := head + rest;
      forall i | 1 <= i < |bytes|
        ensures r[3 * i] == '%' && IsUpperHex(r[3 * i + 1]) && IsUpperHex(r[3 * i + 2])
      {
        assert r[3 * i] == rest[3 * (i - 1)] && r[3 * i + 1] == rest[3 * (i - 1) + 1] && r[3 * i + 2] == rest[3 * (i - 1) + 2];
      }
      r
  }

  /** The encoding of one character. */
  function EncodeChar(c: char): (r: string)
    ensures |r| >= 1
    ensures Unreserved(c) ==> r == [c]
    ensures forall i :: 0 <= i < |r| ==> Unreserved(r[i]) || r[i] == '%'
  {
    if Unreserved(c) then [c]
    else
      var e := Escape(Utf8(c));
      forall i | 0 <= i < |e| ensures Unreserved(e[i]) || e[i] == '%' {
        var k := i / 3;
        assert e[3 * k] == '%' && IsUpperHex(e[3 * k + 1]) && IsUpperHex(e[3 * k + 2]);
      }
      e
  }

  /** `encodeURIComponent(s)` */
  function EncodeUriComponent(s: string): (r: string)
    ensures forall i :: 0 <= i < |r| ==> Unreserved(r[i]) || r[i] == '%'
    ensures (forall i :: 0 <= i < |s| ==> Unreserved(s[i])) ==> r == s
  {
    if |s| == 0 then "" else EncodeChar(s[0]) + EncodeUriComponent(s[1..])
  }

  /** `?` and `=` are escaped as `%3F` and `%3D`. */
  lemma QueryCharacters()
    ensures EncodeUriComponent("?") == "%3F"
    ensures EncodeUriComponent("=") == "%3D"
  {
    assert Utf8('?') == [0x3F] && Utf8('=') == [0x3D];
    assert HexDigit(3) == '3' && HexDigit(15) == 'F' && HexDigit(13) == 'D';
    assert EncodeChar('?') == "%3F" && EncodeChar('=') == "%3D";
  }

  /** Encoding distributes over concatenation. */
  lemma {:induction false} EncodeAppend(a: string, b: string)
    ensures EncodeUriComponent(a + b) == EncodeUriComponent(a) + EncodeUriComponent(b)
  {
    if |a| > 0 {
      var ab := a + b;
      assert ab[0] == a[0] && ab[1..] == a[1..] + b;
      EncodeAppend(a[1..], b);
      EncodeCons(ab);
      EncodeCons(a);
      AppendAssoc(EncodeChar(a[0]), EncodeUriComponent(a[1..]), EncodeUriComponent(b));
    } else {
      assert a + b == b;
    }
  }

  /** A non-empty string encodes as its first character's encoding followed
      by the rest's. */
  lemma EncodeCons(s: string)
    requires |s| > 0
    ensures EncodeUriComponent(s) == EncodeChar(s[0]) + EncodeUriComponent(s[1..])
  {
  }

  lemma AppendAssoc(x: string, y: string, z: string)
    ensures x + (y + z) == (x + y) + z
  {
  }

  lemma QueryPrefixSpelling()
    ensures "watch" + ("?" + ("v" + "=")) == "watch?v="
    ensures "watch" + ("%3F" + ("v" + "%3D")) == "watch%3Fv%3D"
  {
  }

  lemma QueryPrefixParts()
    ensures EncodeUriComponent("watch" + ("?" + ("v" + "="))) == "watch" + ("%3F" + ("v" + "%3D"))
  {
    EncodeAppend("watch", "?" + ("v" + "="));
    EncodeAppend("?", "v" + "=");
    EncodeAppend("v", "=");
    assert EncodeUriComponent("watch") == "watch";
    QueryCharacters();
    assert EncodeUriComponent("v") == "v";
  }

  /** The query of a watch link: `watch?v=` becomes `watch%3Fv%3D`. */
  lemma EncodedQuery()
    ensures EncodeUriComponent("watch?v=") == "watch%3Fv%3D"
  {
    QueryPrefixParts();
    QueryPrefixSpelling();
  }
}

=== FILE: videos.dfy ===
/** `parseFeedsAndNotify` of the current version: for every saved channel,
    read its feed and e-mail each video not yet recorded for that channel,
    recording it only after the e-mail was accepted. */
module Videos {
  import opened Common
  import opened Json
  import opened Store
  import Clock
  import Uri
  import FindNullish

  /** A `subscriptions` row, as the channel loop reads it. */
  datatype Channel = Channel(channelId: ChannelId, channelTitle: string, channelThumbnail: string)

  /** `snippet.thumbnails`: the `url` of each size, `None` when absent. */
  datatype Thumbnails = Thumbnails(maxres: Option<string>, standard: Option<string>, high: Option<string>)

  /** `liveStreamingDetails`, present only for live streams and premieres. */
  datatype LiveDetails = LiveDetails(actualEndTime: Option<string>)

  /** `items[0]` of a `videos.list` answer, after optional chaining. */
  datatype Details = Details(
    publishedAt: Option<string>,
    title: Option<string>,
    channelTitle: Option<string>,
    thumbnails: Thumbnails,
    duration: Option<string>,
    live: Option<LiveDetails>)

  /** The detail lookup: the request fails, the answer has no items, or it has some. */
  datatype Lookup = LookupFailed | NoItems | Found(details: Details)

  /** What `duration-fns` `parse` makes of the ISO 8601 text; `Malformed` throws. */
  datatype ParsedDuration = Parsed(duration: Clock.Duration) | Malformed

  /** The fields handed to `sendVideoEmail`. The date is kept as the text it
      is built from, and the title untruncated. */
  datatype Email = Email(
    date: string,
    channelId: ChannelId,
    channelTitle: string,
    channelThumbnail: string,
    videoId: VideoId,
    videoThumbnail: string,
    videoTitle: string,
    isLiveStreamOrPremiere: bool,
    videoDuration: string,
    videoUrl: string)

  /** How `sendVideoEmail` settles; a rejection may carry an SMTP `responseCode`. */
  datatype SendResult = Delivered | SendFailed(responseCode: Option<int>)

  /** The outside world of a pass: the feeds, the detail lookups, the duration
      parser and the mail transport. `feed` answers `None` when the feed
      cannot be read. */
  datatype Env = Env(
    feed: ChannelId -> Option<seq<VideoId>>,
    lookup: VideoId -> Lookup,
    parse: string -> ParsedDuration,
    send: Email -> SendResult)

  /** What a pass writes to its log. */
  datatype Event =
    | LookupError(videoId: VideoId)
    | NoDetails(videoId: VideoId)
    | BadDuration(videoId: VideoId)
    | MissingFields(videoId: VideoId, keys: seq<string>)
    | SendError(videoId: VideoId)
    | DuplicateRow(videoId: VideoId)
    | QuotaExhausted(videoId: VideoId)
    | FeedError(channelId: ChannelId)

  /** The state a pass threads through: the `videos` table, every e-mail
      handed to the transport (accepted or not), the log, and whether the
      process has exited. */
  datatype State = State(videos: VideoTable, emails: seq<Email>, log: seq<Event>, aborted: bool)

  /** SMTP codes that mean the sending quota is used up. */
  const QuotaCodes: set<int> := {550, 421, 454}

  /** A rejection that means the sending quota is used up. */
  predicate QuotaFailure(r: SendResult) {
    r.SendFailed? && r.responseCode.Some? && r.responseCode.value in QuotaCodes
  }

  /** `mapOption`: `null` for a missing or empty string, `fn(value)` otherwise. */
  function MapOption<T>(fn: string -> T, value: Option<string>): Option<T> {
    if FalsyString(value) then None else Some(fn(value.value))
  }

  /** `Option::map` of Rust, which `mapOption` is meant to work like. */
  function OptionMap<A, B>(fn: A -> B, o: Option<A>): Option<B> {
    match o
    case None => None
    case Some(a) => Some(fn(a))
  }

  /** `mapOption` is `Option::map` after treating the empty string as
      absent; so it differs from `Option::map` exactly on `""`. It also
      composes as `map` does. */
  lemma MapOptionIsOptionMap<T, U>(fn: string -> T, g: T -> U, value: Option<string>)
    ensures MapOption(fn, value) == OptionMap(fn, if value == Some("") then None else value)
    ensures MapOption(fn, value) != OptionMap(fn, value) <==> value == Some("")
    ensures OptionMap(g, MapOption(fn, value)) == MapOption(s => g(fn(s)), value)
  {
  }

  /** The largest thumbnail present: `maxres ?? standard ?? high`. An empty
      URL counts as present. */
  function PickThumbnail(t: Thumbnails): Option<string> {
    if t.maxres.Some? then t.maxres else if t.standard.Some? then t.standard else t.high
  }

  /** The thumbnail sizes, largest first. */
  function SizesLargestFirst(t: Thumbnails): seq<Option<string>> {
    [t.maxres, t.standard, t.high]
  }

  /** The picked thumbnail is the largest size present: absent only when
      every size is, and otherwise some size that no larger present size
      precedes. */
  lemma PickThumbnailLargestPresent(t: Thumbnails)
    ensures PickThumbnail(t).None? <==> forall k :: 0 <= k < 3 ==> SizesLargestFirst(t)[k].None?
    ensures PickThumbnail(t).Some? ==>
      exists k :: 0 <= k < 3 && SizesLargestFirst(t)[k] == PickThumbnail(t) && (forall j :: 0 <= j < k ==> SizesLargestFirst(t)[j].None?)
  {
    var sizes := SizesLargestFirst(t);
    if t.maxres.Some? {
      assert sizes[0] == PickThumbnail(t);
    } else if t.standard.Some? {
      assert sizes[1] == PickThumbnail(t);
    } else if t.high.Some? {
      assert sizes[2] == PickThumbnail(t);
    } else {
      assert sizes[0].None? && sizes[1].None? && sizes[2].None?;
    }
  }

  const AttributionPrefix: string := "https://www.youtube.com/attribution_link?u=/"

  /** The link in the e-mail. */
  function VideoUrl(videoId: VideoId): (r: string)
    ensures |r| >= |AttributionPrefix| && r[..|AttributionPrefix|] == AttributionPrefix
  {
    AttributionPrefix + Uri.EncodeUriComponent("watch?v=" + videoId)
  }

  /** For an ID made of unreserved characters the link is the prefix,
      `watch%3Fv%3D` and the ID itself; so different IDs give different links. */
  lemma VideoUrlOfPlainId(videoId: VideoId)
    requires forall i :: 0 <= i < |videoId| ==> Uri.Unreserved(videoId[i])
    ensures VideoUrl(videoId) == AttributionPrefix + "watch%3Fv%3D" + videoId
  {
    Uri.EncodeAppend("watch?v=", videoId);
    Uri.EncodedQuery();
    assert Uri.EncodeUriComponent(videoId) == videoId;
    Uri.AppendAssoc(AttributionPrefix, "watch%3Fv%3D", videoId);
  }

  /** Only whether a value is `null` matters to the missing-field report. */
  function Slot<T>(o: Option<T>): Value {
    if o.None? then Null else Bool(true)
  }

  /** `findNullishValues` over the five values the e-mail needs; each is
      `null` when missing, so the report names exactly the missing ones. */
  function MissingReport(date: Option<string>, channelTitle: Option<string>, thumbnail: Option<string>,
                         title: Option<string>, duration: Option<ParsedDuration>): (keys: seq<string>)
    ensures "videoDate" in keys <==> date.None?
    ensures "channelTitle" in keys <==> channelTitle.None?
    ensures "videoThumbnail" in keys <==> thumbnail.None?
    ensures "videoTitle" in keys <==> title.None?
    ensures "videoDuration" in keys <==> duration.None?
    ensures |keys| <= 5
  {
    var ms := [
      Member("videoDate", Slot(date)),
      Member("channelTitle", Slot(channelTitle)),
      Member("videoThumbnail", Slot(thumbnail)),
      Member("videoTitle", Slot(title)),
      Member("videoDuration", Slot(duration))];
    assert UniqueKeys(ms);
    FindNullish.KeyReported(ms, 0);
    FindNullish.KeyReported(ms, 1);
    FindNullish.KeyReported(ms, 2);
    FindNullish.KeyReported(ms, 3);
    FindNullish.KeyReported(ms, 4);
    FindNullish.FindNullishValues(ms)
  }

  /** The per-video decision before anything is sent: skip (with or without
      a log entry), or the e-mail to send. */
  datatype Prepared = Skip(event: Option<Event>) | Ready(email: Email)

  /** Details good enough for an e-mail: a parsable duration, not a live
      stream still running, and all five required values present. */
  predicate Usable(d: Details, env: Env) {
    && !FalsyString(d.duration) && env.parse(d.duration.value).Parsed?
    && (d.live.None? || !FalsyString(d.live.value.actualEndTime))
    && !FalsyString(d.publishedAt) && !FalsyString(d.title) && d.channelTitle.Some?
    && PickThumbnail(d.thumbnails).Some?
  }

  function Prepare(ch: Channel, videoId: VideoId, env: Env): (p: Prepared)
    ensures p.Ready? <==> env.lookup(videoId).Found? && Usable(env.lookup(videoId).details, env)
    ensures p.Ready? ==> p.email.videoId == videoId && p.email.channelId == ch.channelId
    ensures p.Ready? ==>
      var d := env.lookup(videoId).details;
      && p.email.videoTitle == d.title.value
      && p.email.channelTitle == d.channelTitle.value
      && p.email.channelThumbnail == ch.channelThumbnail
      && p.email.videoThumbnail == PickThumbnail(d.thumbnails).value
      && p.email.isLiveStreamOrPremiere == d.live.Some?
      && p.email.videoDuration == Clock.FormatDuration(env.parse(d.duration.value).duration)
      && p.email.videoUrl == VideoUrl(videoId)
  {
    match env.lookup(videoId)
    case LookupFailed => Skip(Some(LookupError(videoId)))
    case NoItems => Skip(Some(NoDetails(videoId)))
    case Found(d) =>
      if !FalsyString(d.duration) && env.parse(d.duration.value).Malformed? then
        Skip(Some(BadDuration(videoId)))
      else
        var date := MapOption(s => s, d.publishedAt);
        var title := MapOption(s => s, d.title);
        var channelTitle := d.channelTitle;
        var thumbnail := PickThumbnail(d.thumbnails);
        var duration := MapOption(s => env.parse(s), d.duration);
        if d.live.Some? && FalsyString(d.live.value.actualEndTime) then Skip(None)
        else if date.None? || title.None? || channelTitle.None? || duration.None? || thumbnail.None? then
          Skip(Some(MissingFields(videoId, MissingReport(date, channelTitle, thumbnail, title, duration))))
        else
          Ready(Email(date.value, ch.channelId, channelTitle.value, ch.channelThumbnail, videoId,
            thumbnail.value, title.value, d.live.Some?, Clock.FormatDuration(duration.value.duration),
            VideoUrl(videoId)))
  }

  /** The table gained rows only for videos whose e-mail was accepted. */
  ghost predicate Backed(before: VideoTable, after: State, env: Env) {
    forall v :: v in after.videos && v !in before ==>
      exists i :: 0 <= i < |after.emails| && after.emails[i].videoId == v && env.send(after.emails[i]) == Delivered
  }

  /** Rows are never changed or removed. */
  ghost predicate Grows(before: VideoTable, after: VideoTable) {
    forall v :: v in before ==> v in after && after[v] == before[v]
  }

  /** One iteration of the feed loop in `getChannelsVideos`. */
  function Notify(ch: Channel, videoId: VideoId, sentBefore: set<VideoId>, env: Env, st: State): (r: State)
    ensures videoId in sentBefore ==> r == st
    ensures Grows(st.videos, r.videos) && Backed(st.videos, r, env)
    ensures st.emails <= r.emails && |r.emails| <= |st.emails| + 1
    ensures |r.emails| == |st.emails| + 1 ==> r.emails[|st.emails|].videoId == videoId && r.emails[|st.emails|].channelId == ch.channelId
    ensures forall v :: v in r.videos && v !in st.videos ==> v == videoId && videoId !in sentBefore && r.videos[v] == ch.channelId
    ensures r.aborted <==> st.aborted || (|r.emails| == |st.emails| + 1 && QuotaFailure(env.send(r.emails[|st.emails|])))
  {
    if videoId in sentBefore then st
    else
      match Prepare(ch, videoId, env)
      case Skip(e) => st.(log := st.log + (if e.Some? then [e.value] else []))
      case Ready(email) =>
        var sent := st.(emails := st.emails + [email]);
        match env.send(email)
        case Delivered =>
          if videoId in st.videos then sent.(log := st.log + [DuplicateRow(videoId)])
          else
            assert sent.emails[|st.emails|] == email;
            sent.(videos := st.videos[videoId := ch.channelId])
        case SendFailed(code) =>
          if QuotaFailure(env.send(email)) then
            sent.(log := st.log + [QuotaExhausted(videoId)], aborted := true)
          else sent.(log := st.log + [SendError(videoId)])
  }

  lemma BackedChain(before: VideoTable, mid: State, r: State, env: Env)
    requires Backed(before, mid, env) && Backed(mid.videos, r, env)
    requires mid.emails <= r.emails && Grows(before, mid.videos)
    ensures Backed(before, r, env)
  {
    forall v | v in r.videos && v !in before
      ensures exists i :: 0 <= i < |r.emails| && r.emails[i].videoId == v && env.send(r.emails[i]) == Delivered
    {
      if v in mid.videos {
        var i :| 0 <= i < |mid.emails| && mid.emails[i].videoId == v && env.send(mid.emails[i]) == Delivered;
        assert r.emails[i] == mid.emails[i];
      }
    }
  }

  /** Whether `e` is for a video the table already held for `e`'s channel. */
  predicate Recorded(videos: VideoTable, e: Email) {
    e.videoId in videos && videos[e.videoId] == e.channelId
  }

  lemma NotResentChain(st: State, ch: Channel, mid: State, r: State)
    requires st.emails <= mid.emails <= r.emails && Grows(st.videos, mid.videos)
    requires forall i :: |st.emails| <= i < |mid.emails| ==>
      mid.emails[i].channelId == ch.channelId && mid.emails[i].videoId !in SentFor(st.videos, ch.channelId)
    requires forall i :: |mid.emails| <= i < |r.emails| ==> !Recorded(mid.videos, r.emails[i])
    ensures forall i :: |st.emails| <= i < |r.emails| ==> !Recorded(st.videos, r.emails[i])
  {
    forall i | |st.emails| <= i < |r.emails|
      ensures !Recorded(st.videos, r.emails[i])
    {
      if i < |mid.emails| {
        assert r.emails[i] == mid.emails[i];
      }
    }
  }

  /** The feed loop of `getChannelsVideos`. The set of videos already sent
      for the channel is read once, before the loop. */
  function ChannelPass(ch: Channel, items: seq<VideoId>, sentBefore: set<VideoId>, env: Env, st: State): (r: State)
    ensures st.aborted ==> r == st
    ensures Grows(st.videos, r.videos) && Backed(st.videos, r, env)
    ensures st.emails <= r.emails
    decreases |items|
  {
    if |items| == 0 || st.aborted then st
    else
      var mid := Notify(ch, items[0], sentBefore, env, st);
      var r := ChannelPass(ch, items[1..], sentBefore, env, mid);
      BackedChain(st.videos, mid, r, env);
      r
  }

  /** Every e-mail of a channel pass is for that channel, for an item of its
      feed, and for a video not sent before the pass. */
  lemma {:induction false} ChannelPassEmails(ch: Channel, items: seq<VideoId>, sentBefore: set<VideoId>, env: Env, st: State)
    ensures NewEmailsFor(ch, items, sentBefore, |st.emails|, ChannelPass(ch, items, sentBefore, env, st))
    decreases |items|
  {
    if |items| > 0 && !st.aborted {
      var mid := Notify(ch, items[0], sentBefore, env, st);
      var r := ChannelPass(ch, items[1..], sentBefore, env, mid);
      ChannelPassEmails(ch, items[1..], sentBefore, env, mid);
      NewEmailsChain(ch, items, sentBefore, st, mid, r);
    }
  }

  lemma NewEmailsChain(ch: Channel, items: seq<VideoId>, sentBefore: set<VideoId>, st: State, mid: State, r: State)
    requires |items| > 0 && st.emails <= mid.emails <= r.emails && |mid.emails| <= |st.emails| + 1
    requires |mid.emails| == |st.emails| + 1 ==>
      mid.emails[|st.emails|].videoId == items[0] && mid.emails[|st.emails|].channelId == ch.channelId && items[0] !in sentBefore
    requires NewEmailsFor(ch, items[1..], sentBefore, |mid.emails|, r)
    ensures NewEmailsFor(ch, items, sentBefore, |st.emails|, r)
  {
    forall i | |st.emails| <= i < |r.emails|
      ensures r.emails[i].channelId == ch.channelId && r.emails[i].videoId in items && r.emails[i].videoId !in sentBefore
    {
      if i < |mid.emails| {
        assert r.emails[i] == mid.emails[i];
      } else {
        assert r.emails[i].videoId in items[1..];
      }
    }
  }

  /** A channel pass that ends the process ends it at an e-mail refused for quota. */
  lemma {:induction false} ChannelPassAbort(ch: Channel, items: seq<VideoId>, sentBefore: set<VideoId>, env: Env, st: State)
    requires !st.aborted
    ensures ChannelPass(ch, items, sentBefore, env, st).aborted ==>
      AbortedByQuota(|st.emails|, ChannelPass(ch, items, sentBefore, env, st), env)
    decreases |items|
  {
    if |items| > 0 {
      var mid := Notify(ch, items[0], sentBefore, env, st);
      if !mid.aborted {
        ChannelPassAbort(ch, items[1..], sentBefore, env, mid);
      }
    }
  }

  /** The e-mails from index `from` on are for channel `ch`, for feed items,
      and for none of the videos already sent. */
  ghost predicate NewEmailsFor(ch: Channel, items: seq<VideoId>, sentBefore: set<VideoId>, from: nat, r: State) {
    forall i :: from <= i < |r.emails| ==>
      r.emails[i].channelId == ch.channelId && r.emails[i].videoId in items && r.emails[i].videoId !in sentBefore
  }

  /** The pass ended because the last e-mail hit the sending quota. */
  ghost predicate AbortedByQuota(from: nat, r: State, env: Env) {
    |r.emails| > from && QuotaFailure(env.send(r.emails[|r.emails| - 1]))
  }

  /** The channel loop of `parseFeedsAndNotify`. A feed that cannot be read
      ends the whole pass; the catch around the loop only logs. */
  function ParseFeedsAndNotify(channels: seq<Channel>, env: Env, st: State): (r: State)
    ensures st.aborted ==> r == st
    ensures Grows(st.videos, r.videos) && Backed(st.videos, r, env)
    ensures st.emails <= r.emails
    ensures forall i :: |st.emails| <= i < |r.emails| ==> !Recorded(st.videos, r.emails[i])
    ensures r.aborted && !st.aborted ==> AbortedByQuota(|st.emails|, r, env)
    decreases |channels|
  {
    if |channels| == 0 || st.aborted then st
    else
      var ch := channels[0];
      match env.feed(ch.channelId)
      case None => st.(log := st.log + [FeedError(ch.channelId)])
      case Some(items) =>
        var mid := ChannelPass(ch, items, SentFor(st.videos, ch.channelId), env, st);
        var r := ParseFeedsAndNotify(channels[1..], env, mid);
        BackedChain(st.videos, mid, r, env);
        ChannelPassEmails(ch, items, SentFor(st.videos, ch.channelId), env, st);
        NotResentChain(st, ch, mid, r);
        ChannelPassAbort(ch, items, SentFor(st.videos, ch.channelId), env, st);
        r
  }

  /** A video not yet sent is e-mailed exactly when its details are usable. */
  lemma NotifySendsPrepared(ch: Channel, videoId: VideoId, sentBefore: set<VideoId>, env: Env, st: State)
    requires videoId !in sentBefore
    ensures Prepare(ch, videoId, env).Ready? ==>
      Notify(ch, videoId, sentBefore, env, st).emails == st.emails + [Prepare(ch, videoId, env).email]
    ensures Prepare(ch, videoId, env).Skip? ==>
      Notify(ch, videoId, sentBefore, env, st).emails == st.emails &&
      Notify(ch, videoId, sentBefore, env, st).videos == st.videos
  {
  }

  /** A live stream or premiere that has not ended is neither e-mailed nor
      recorded, and nothing is logged: the next pass sees it again. */
  lemma UnendedLiveStreamWaits(ch: Channel, videoId: VideoId, sentBefore: set<VideoId>, env: Env, st: State, d: Details)
    requires env.lookup(videoId) == Found(d)
    requires d.live.Some? && FalsyString(d.live.value.actualEndTime)
    requires FalsyString(d.duration) || env.parse(d.duration.value).Parsed?
    ensures Notify(ch, videoId, sentBefore, env, st) == st
  {
  }

  /** With a required field missing the video is skipped with a warning that
      names exactly the missing fields. */
  lemma MissingFieldSkipped(ch: Channel, videoId: VideoId, sentBefore: set<VideoId>, env: Env, st: State, d: Details)
    requires videoId !in sentBefore
    requires env.lookup(videoId) == Found(d)
    requires d.live.None? || !FalsyString(d.live.value.actualEndTime)
    requires FalsyString(d.duration) || env.parse(d.duration.value).Parsed?
    requires FalsyString(d.publishedAt) || FalsyString(d.title) || d.channelTitle.None? ||
      FalsyString(d.duration) || PickThumbnail(d.thumbnails).None?
    ensures var r := Notify(ch, videoId, sentBefore, env, st);
      && r.emails == st.emails && r.videos == st.videos && |r.log| == |st.log| + 1
      && r.log[|st.log|].MissingFields?
      && var keys := r.log[|st.log|].keys;
      && ("videoDate" in keys <==> FalsyString(d.publishedAt))
      && ("videoTitle" in keys <==> FalsyString(d.title))
      && ("channelTitle" in keys <==> d.channelTitle.None?)
      && ("videoDuration" in keys <==> FalsyString(d.duration))
      && ("videoThumbnail" in keys <==> PickThumbnail(d.thumbnails).None?)
  {
  }

  /** A rejected e-mail leaves the video unrecorded; only the quota codes end
      the process. */
  lemma FailedSendLeavesCandidate(ch: Channel, videoId: VideoId, sentBefore: set<VideoId>, env: Env, st: State)
    requires videoId !in sentBefore && Prepare(ch, videoId, env).Ready?
    requires env.send(Prepare(ch, videoId, env).email).SendFailed?
    ensures Notify(ch, videoId, sentBefore, env, st).videos == st.videos
    ensures Notify(ch, videoId, sentBefore, env, st).aborted <==>
      st.aborted || QuotaFailure(env.send(Prepare(ch, videoId, env).email))
  {
  }

  /** A video listed twice in one feed is e-mailed twice: the sent set is read
      before the loop, and the second insert hits the UNIQUE `videoId` column. */
  lemma DuplicateFeedItemEmailedTwice(ch: Channel, videoId: VideoId, env: Env, st: State)
    requires !st.aborted && videoId !in st.videos
    requires Prepare(ch, videoId, env).Ready? && env.send(Prepare(ch, videoId, env).email) == Delivered
    ensures var e := Prepare(ch, videoId, env).email;
      ChannelPass(ch, [videoId, videoId], SentFor(st.videos, ch.channelId), env, st) ==
      State(st.videos[videoId := ch.channelId], st.emails + [e, e], st.log + [DuplicateRow(videoId)], false)
  {
    var sentBefore := SentFor(st.videos, ch.channelId);
    var e := Prepare(ch, videoId, env).email;
    assert videoId !in sentBefore;
    DeliveredNotify(ch, videoId, sentBefore, env, st);
    var once := Notify(ch, videoId, sentBefore, env, st);
    DeliveredNotify(ch, videoId, sentBefore, env, once);
    var twice := Notify(ch, videoId, sentBefore, env, once);
    assert [videoId, videoId][1..] == [videoId];
    assert ChannelPass(ch, [videoId], sentBefore, env, once) == twice;
  }

  /** A delivered e-mail for a video not sent before: a new row is recorded,
      and a row already present is reported as a duplicate. */
  lemma DeliveredNotify(ch: Channel, videoId: VideoId, sentBefore: set<VideoId>, env: Env, st: State)
    requires videoId !in sentBefore
    requires Prepare(ch, videoId, env).Ready? && env.send(Prepare(ch, videoId, env).email) == Delivered
    ensures var e := Prepare(ch, videoId, env).email;
      Notify(ch, videoId, sentBefore, env, st) ==
        if videoId in st.videos then st.(emails := st.emails + [e], log := st.log + [DuplicateRow(videoId)])
        else st.(emails := st.emails + [e], videos := st.videos[videoId := ch.channelId])
  {
  }

  /** An accepted e-mail for a video the table lacks records it for the
      channel: the channel's sent set, as the next pass reads it, grows by
      exactly that video, and every other channel's stays as it was. */
  lemma DeliveredGrowsSentSet(ch: Channel, videoId: VideoId, sentBefore: set<VideoId>, env: Env, st: State, other: ChannelId)
    requires videoId !in sentBefore && videoId !in st.videos
    requires Prepare(ch, videoId, env).Ready? && env.send(Prepare(ch, videoId, env).email) == Delivered
    ensures SentFor(Notify(ch, videoId, sentBefore, env, st).videos, ch.channelId) == SentFor(st.videos, ch.channelId) + {videoId}
    ensures other != ch.channelId ==>
      SentFor(Notify(ch, videoId, sentBefore, env, st).videos, other) == SentFor(st.videos, other)
  {
    DeliveredNotify(ch, videoId, sentBefore, env, st);
    SentForRecord(st.videos, videoId, ch.channelId, other);
  }

  /** A feed that cannot be read ends the pass: no later channel is looked at. */
  lemma FeedErrorEndsPass(channels: seq<Channel>, env: Env, st: State)
    requires |channels| > 0 && !st.aborted && env.feed(channels[0].channelId).None?
    ensures var r := ParseFeedsAndNotify(channels, env, st);
      r.videos == st.videos && r.emails == st.emails && r.log == st.log + [FeedError(channels[0].channelId)]
  {
  }
}

=== FILE: videos_legacy.dfy ===
/** `parseFeedsAndNotify` of the earlier JavaScript version: for every saved
    channel, read its feed and e-mail new videos, recording each video
    BEFORE its e-mail is sent and leaving the channel at the first e-mail
    the transport accepts. */
module VideosLegacy {
  import opened Common
  import opened Json
  import opened Store
  import Clock
  import Videos

  /** `items[0]` of a `videos.list` answer, as far as this version reads it:
      `snippet.title` (any JavaScript value), the `url` of the `high`
      thumbnail (`None` when `high` is absent) and `contentDetails.duration`
      (`None` when absent). */
  datatype LegacyDetails = LegacyDetails(title: Value, thumbnailHigh: Option<string>, duration: Option<string>)

  /** The detail lookup: the request fails, the answer has no items, or it has some. */
  datatype LegacyLookup = LookupFailed | NoItems | Found(details: LegacyDetails)

  /** The values handed to the e-mail template. `channelName`, `videoTitle`
      and `channelThumbnail` are whatever the destructurings yield. */
  datatype LegacyEmail = LegacyEmail(
    channelId: ChannelId,
    channelName: Value,
    channelThumbnail: Value,
    videoId: VideoId,
    videoThumbnail: string,
    videoTitle: Value,
    videoDuration: string,
    videoUrl: string)

  /** The outside world: the feeds (`None` when one cannot be read), the
      detail lookups and the mail transport (`true` when it accepts). */
  datatype LegacyEnv = LegacyEnv(
    feed: ChannelId -> Option<seq<VideoId>>,
    lookup: VideoId -> LegacyLookup,
    send: LegacyEmail -> bool)

  /** What the catch blocks print. */
  datatype Event =
    | LookupError(videoId: VideoId)
    | TypeError(videoId: VideoId)
    | UniqueViolation(videoId: VideoId)
    | SendError(videoId: VideoId)
    | FeedError(channelId: ChannelId)

  /** The `videos` table, every e-mail handed to the transport, and the log. */
  datatype State = State(videos: VideoTable, emails: seq<LegacyEmail>, log: seq<Event>)

  /** The outcome of one feed item: go on with the next one, or `break`. */
  datatype Step = Continue(st: State) | Break(st: State)

  /** `const { key: x } = v` for the two keys destructured at the call site,
      `title` and `channelTitle`: throws (`None`) on `undefined` and `null`;
      no primitive has a property of either name, so only an object can
      supply a defined value. */
  function Property(v: Value, key: string): (r: Option<Value>)
    requires key == "title" || key == "channelTitle"
    ensures r.None? <==> v.Undefined? || v.Null?
    ensures v.Obj? ==> r == Some(Lookup(v.members, key))
    ensures r.Some? && r.value != Undefined ==> v.Obj?
  {
    match v
    case Undefined => None
    case Null => None
    case Obj(ms) => Some(Lookup(ms, key))
    case _ => Some(Undefined)
  }

  /** `s` added exactly one e-mail to `st`. */
  predicate Emailed(st: State, s: State) {
    |s.emails| == |st.emails| + 1
  }

  /** The last e-mail of a state that has one. */
  function Last(s: State): LegacyEmail
    requires |s.emails| > 0
  {
    s.emails[|s.emails| - 1]
  }

  /** Details from which this version builds an e-mail without throwing. */
  predicate Buildable(d: LegacyDetails) {
    !d.title.Undefined? && !d.title.Null? && d.thumbnailHigh.Some? && d.duration.Some?
  }

  /** The body of the `try` for one feed item not yet sent. */
  function Attempt(channelId: ChannelId, videoId: VideoId, env: LegacyEnv, st: State): (s: Step)
    ensures Videos.Grows(st.videos, s.st.videos)
    ensures st.emails <= s.st.emails && |s.st.emails| <= |st.emails| + 1
    ensures Emailed(st, s.st) <==>
      videoId !in st.videos && env.lookup(videoId).Found? && Buildable(env.lookup(videoId).details)
    ensures Emailed(st, s.st) ==> s.st.videos == st.videos[videoId := channelId]
    ensures !Emailed(st, s.st) ==> s.st.videos == st.videos
    ensures Emailed(st, s.st) ==>
      var e := Last(s.st);
      var d := env.lookup(videoId).details;
      && e.videoId == videoId && e.channelId == channelId && e.channelThumbnail == Undefined
      && e.videoThumbnail == d.thumbnailHigh.value
      && e.videoDuration == Clock.LegacyDuration(d.duration.value)
      && e.videoUrl == Videos.VideoUrl(videoId)
    ensures s.Break? <==> Emailed(st, s.st) && env.send(Last(s.st))
  {
    match env.lookup(videoId)
    case LookupFailed => Continue(st.(log := st.log + [LookupError(videoId)]))
    case NoItems => Continue(st.(log := st.log + [TypeError(videoId)]))
    case Found(d) =>
      var title := Property(d.title, "title");
      var name := Property(d.title, "channelTitle");
      if title.None? || name.None? || d.thumbnailHigh.None? || d.duration.None? then
        Continue(st.(log := st.log + [TypeError(videoId)]))
      else if videoId in st.videos then
        Continue(st.(log := st.log + [UniqueViolation(videoId)]))
      else
        var email := LegacyEmail(channelId, name.value, Undefined, videoId, d.thumbnailHigh.value,
          title.value, Clock.LegacyDuration(d.duration.value), Videos.VideoUrl(videoId));
        var inserted := st.(videos := st.videos[videoId := channelId], emails := st.emails + [email]);
        if env.send(email) then Break(inserted)
        else Continue(inserted.(log := st.log + [SendError(videoId)]))
  }

  /** The e-mails from index `from` on are for this channel and for feed
      items not sent before the loop, each video is now recorded for this
      channel, and no earlier one was recorded at all. */
  ghost predicate NewEmailsRecorded(channelId: ChannelId, items: seq<VideoId>, sentBefore: set<VideoId>,
                                    before: VideoTable, from: nat, r: State) {
    forall i :: from <= i < |r.emails| ==>
      && r.emails[i].channelId == channelId && r.emails[i].videoId in items
      && r.emails[i].videoId !in sentBefore && r.emails[i].videoId !in before
      && r.emails[i].videoId in r.videos && r.videos[r.emails[i].videoId] == channelId
  }

  /** Rows the pass added belong to e-mails it built. */
  ghost predicate RowsEmailed(before: VideoTable, from: nat, r: State) {
    forall v :: v in r.videos && v !in before ==>
      exists i :: from <= i < |r.emails| && r.emails[i].videoId == v
  }

  /** The feed loop: skip what was sent, catch per-item errors, stop at the
      first e-mail accepted. */
  function ChannelLoop(channelId: ChannelId, items: seq<VideoId>, sentBefore: set<VideoId>, env: LegacyEnv, st: State): (r: State)
    ensures Videos.Grows(st.videos, r.videos)
    ensures st.emails <= r.emails
    decreases |items|
  {
    if |items| == 0 then st
    else if items[0] in sentBefore then ChannelLoop(channelId, items[1..], sentBefore, env, st)
    else
      match Attempt(channelId, items[0], env, st)
      case Break(s) => s
      case Continue(s) => ChannelLoop(channelId, items[1..], sentBefore, env, s)
  }

  /** Insert-before-send: every e-mail of the loop is for a new feed item of
      this channel and leaves its video recorded, and every new row has
      an e-mail. */
  lemma {:induction false} ChannelLoopRecords(channelId: ChannelId, items: seq<VideoId>, sentBefore: set<VideoId>, env: LegacyEnv, st: State)
    ensures var r := ChannelLoop(channelId, items, sentBefore, env, st);
      NewEmailsRecorded(channelId, items, sentBefore, st.videos, |st.emails|, r) && RowsEmailed(st.videos, |st.emails|, r)
    decreases |items|
  {
    if |items| > 0 {
      if items[0] in sentBefore {
        ChannelLoopRecords(channelId, items[1..], sentBefore, env, st);
        WidenItems(channelId, items, sentBefore, st.videos, |st.emails|, ChannelLoop(channelId, items[1..], sentBefore, env, st));
      } else if Attempt(channelId, items[0], env, st).Break? {
        BreakRecords(channelId, items, sentBefore, env, st);
      } else {
        var s := Attempt(channelId, items[0], env, st);
        ChannelLoopRecords(channelId, items[1..], sentBefore, env, s.st);
        RecordsChain(channelId, items, sentBefore, st, s.st, ChannelLoop(channelId, items[1..], sentBefore, env, s.st));
      }
    }
  }

  lemma WidenItems(channelId: ChannelId, items: seq<VideoId>, sentBefore: set<VideoId>, before: VideoTable, from: nat, r: State)
    requires |items| > 0
    requires NewEmailsRecorded(channelId, items[1..], sentBefore, before, from, r)
    ensures NewEmailsRecorded(channelId, items, sentBefore, before, from, r)
  {
    forall i | from <= i < |r.emails|
      ensures r.emails[i].videoId in items
    {
      assert r.emails[i].videoId in items[1..];
    }
  }

  lemma BreakRecords(channelId: ChannelId, items: seq<VideoId>, sentBefore: set<VideoId>, env: LegacyEnv, st: State)
    requires |items| > 0 && items[0] !in sentBefore && Attempt(channelId, items[0], env, st).Break?
    ensures var r := ChannelLoop(channelId, items, sentBefore, env, st);
      NewEmailsRecorded(channelId, items, sentBefore, st.videos, |st.emails|, r) && RowsEmailed(st.videos, |st.emails|, r)
  {
    var s := Attempt(channelId, items[0], env, st);
    assert s.st.emails[|st.emails|] == Last(s.st);
  }

  lemma RecordsChain(channelId: ChannelId, items: seq<VideoId>, sentBefore: set<VideoId>, st: State, mid: State, r: State)
    requires |items| > 0 && items[0] !in sentBefore
    requires st.emails <= mid.emails <= r.emails && |mid.emails| <= |st.emails| + 1
    requires Videos.Grows(mid.videos, r.videos)
    requires Emailed(st, mid) ==>
      (mid.videos == st.videos[items[0] := channelId] && items[0] !in st.videos &&
       Last(mid).videoId == items[0] && Last(mid).channelId == channelId)
    requires !Emailed(st, mid) ==> mid.videos == st.videos
    requires NewEmailsRecorded(channelId, items[1..], sentBefore, mid.videos, |mid.emails|, r)
    requires RowsEmailed(mid.videos, |mid.emails|, r)
    ensures NewEmailsRecorded(channelId, items, sentBefore, st.videos, |st.emails|, r)
    ensures RowsEmailed(st.videos, |st.emails|, r)
  {
    forall i | |st.emails| <= i < |r.emails|
      ensures && r.emails[i].channelId == channelId && r.emails[i].videoId in items
              && r.emails[i].videoId !in sentBefore && r.emails[i].videoId !in st.videos
              && r.emails[i].videoId in r.videos && r.videos[r.emails[i].videoId] == channelId
    {
      if i < |mid.emails| {
        assert r.emails[i] == mid.emails[i] == Last(mid);
      } else {
        assert r.emails[i].videoId in items[1..];
      }
    }
    forall v | v in r.videos && v !in st.videos
      ensures exists i :: |st.emails| <= i < |r.emails| && r.emails[i].videoId == v
    {
      if v in mid.videos {
        assert Emailed(st, mid) && v == items[0];
        assert r.emails[|st.emails|] == Last(mid);
      }
    }
  }

  /** The loop leaves the channel at the first e-mail accepted: only the
      last e-mail of a channel can have been accepted. */
  lemma {:induction false} AtMostOneAccepted(channelId: ChannelId, items: seq<VideoId>, sentBefore: set<VideoId>, env: LegacyEnv, st: State)
    ensures OnlyLastAccepted(|st.emails|, ChannelLoop(channelId, items, sentBefore, env, st), env)
    decreases |items|
  {
    if |items| > 0 {
      if items[0] in sentBefore {
        AtMostOneAccepted(channelId, items[1..], sentBefore, env, st);
      } else {
        var s := Attempt(channelId, items[0], env, st);
        if s.Continue? {
          AtMostOneAccepted(channelId, items[1..], sentBefore, env, s.st);
          var r := ChannelLoop(channelId, items[1..], sentBefore, env, s.st);
          if Emailed(st, s.st) {
            assert r.emails[|st.emails|] == Last(s.st);
          }
        }
      }
    }
  }

  /** None of the e-mails from index `from` on, except the last, was accepted. */
  ghost predicate OnlyLastAccepted(from: nat, r: State, env: LegacyEnv) {
    forall i :: from <= i < |r.emails| - 1 ==> !env.send(r.emails[i])
  }

  /** The channel loop of `parseFeedsAndNotify`; the saved channels are read
      with their ID only. A feed that cannot be read throws out of the whole
      pass, into the outer catch. */
  function ParseFeedsAndNotify(channels: seq<ChannelId>, env: LegacyEnv, st: State): (r: State)
    ensures Videos.Grows(st.videos, r.videos)
    ensures st.emails <= r.emails
    ensures forall i :: |st.emails| <= i < |r.emails| ==>
      r.emails[i].videoId !in st.videos && r.emails[i].videoId in r.videos
    decreases |channels|
  {
    if |channels| == 0 then st
    else
      match env.feed(channels[0])
      case None => st.(log := st.log + [FeedError(channels[0])])
      case Some(items) =>
        var sentBefore := SentFor(st.videos, channels[0]);
        var mid := ChannelLoop(channels[0], items, sentBefore, env, st);
        var r := ParseFeedsAndNotify(channels[1..], env, mid);
        ChannelLoopRecords(channels[0], items, sentBefore, env, st);
        PassChain(st, mid, r);
        r
  }

  lemma PassChain(st: State, mid: State, r: State)
    requires st.emails <= mid.emails <= r.emails && Videos.Grows(st.videos, mid.videos) && Videos.Grows(mid.videos, r.videos)
    requires forall i :: |st.emails| <= i < |mid.emails| ==>
      mid.emails[i].videoId !in st.videos && mid.emails[i].videoId in mid.videos
    requires forall i :: |mid.emails| <= i < |r.emails| ==>
      r.emails[i].videoId !in mid.videos && r.emails[i].videoId in r.videos
    ensures forall i :: |st.emails| <= i < |r.emails| ==>
      r.emails[i].videoId !in st.videos && r.emails[i].videoId in r.videos
  {
    forall i | |st.emails| <= i < |r.emails|
      ensures r.emails[i].videoId !in st.videos && r.emails[i].videoId in r.videos
    {
      if i < |mid.emails| {
        assert r.emails[i] == mid.emails[i];
      }
    }
  }

  /** An e-mail is never tried twice: a second pass builds no e-mail for a
      video the first pass built one for, whether the transport accepted it
      or not. */
  lemma NeverRetried(channels: seq<ChannelId>, env: LegacyEnv, st: State, i: nat, j: nat)
    requires var r1 := ParseFeedsAndNotify(channels, env, st);
      |st.emails| <= i < |r1.emails| <= j < |ParseFeedsAndNotify(channels, env, r1).emails|
    ensures var r1 := ParseFeedsAndNotify(channels, env, st);
      ParseFeedsAndNotify(channels, env, r1).emails[j].videoId != r1.emails[i].videoId
  {
    var r1 := ParseFeedsAndNotify(channels, env, st);
    var r2 := ParseFeedsAndNotify(channels, env, r1);
    assert r1.emails[i].videoId in r1.videos;
    assert r2.emails[j].videoId !in r1.videos;
  }

  /** `snippet.title` is a string, and a string has neither a `title` nor a
      `channelTitle` property: the e-mail's title and channel name are
      always `undefined`. */
  lemma TitleAlwaysUndefined(channelId: ChannelId, videoId: VideoId, env: LegacyEnv, st: State)
    requires env.lookup(videoId).Found? && env.lookup(videoId).details.title.Str?
    ensures var s := Attempt(channelId, videoId, env, st);
      Emailed(st, s.st) ==> Last(s.st).videoTitle == Undefined && Last(s.st).channelName == Undefined
  {
  }

  /** A throwing item is logged and the loop goes on with the next item. */
  lemma ItemErrorContinues(channelId: ChannelId, v: VideoId, rest: seq<VideoId>, sentBefore: set<VideoId>, env: LegacyEnv, st: State)
    requires v !in sentBefore
    requires env.lookup(v).LookupFailed? || env.lookup(v).NoItems? ||
      (env.lookup(v).Found? && !Buildable(env.lookup(v).details))
    ensures ChannelLoop(channelId, [v] + rest, sentBefore, env, st) ==
      ChannelLoop(channelId, rest, sentBefore, env, st.(log := st.log + [ItemError(env.lookup(v), v)]))
  {
    assert ([v] + rest)[1..] == rest;
  }

  /** What the catch prints for an item whose details cannot be used. */
  function ItemError(l: LegacyLookup, v: VideoId): Event {
    if l.LookupFailed? then LookupError(v) else TypeError(v)
  }

  /** The first e-mail accepted ends the channel: later items wait for the
      next pass. */
  lemma StopsAtFirstAccepted(channelId: ChannelId, v: VideoId, rest: seq<VideoId>, sentBefore: set<VideoId>, env: LegacyEnv, st: State)
    requires v !in sentBefore && Attempt(channelId, v, env, st).Break?
    ensures ChannelLoop(channelId, [v] + rest, sentBefore, env, st) == Attempt(channelId, v, env, st).st
    ensures ChannelLoop(channelId, [v] + rest, sentBefore, env, st).videos == st.videos[v := channelId]
  {
  }

  /** A refused e-mail still leaves its video recorded, so no later pass
      sends it: the row is written before the transport is asked. */
  lemma RefusedStaysRecorded(channelId: ChannelId, v: VideoId, env: LegacyEnv, st: State)
    requires Emailed(st, Attempt(channelId, v, env, st).st)
    requires !env.send(Last(Attempt(channelId, v, env, st).st))
    ensures var s := Attempt(channelId, v, env, st);
      s.Continue? && v in s.st.videos && v in SentFor(s.st.videos, channelId)
  {
  }
}
